=== FILE: README.md ===
# SCOW core, modelled in Dafny

SCOW is a host-side C wrapper over the OpenCL 1.x runtime. Nearly every
function in it ends in a driver call. This project models the bookkeeping
around those calls and proves what it promises. Every driver call is an
oracle parameter: an `Answer<T>` that is either `Ok(value)` or `Failed(code)`,
or simply the `Code` the driver reports.

The modules follow the library's files:

- `Common`: option and answer types, owners of resources, and release events.
  It also holds `Fit`, which models a listing call that writes at most `n`
  ids into a zeroed buffer.
- `Codes`: the code taxonomy of `err_codes.h`. Codes are `bv32`, the bit
  pattern of the library's `cl_int`.
- `Errors` (`error.c`): the OR-accumulating error slot and the code-to-message
  switch.
- `Timers` (`src/timer.c`): the two-sided timer state machine. Durations are
  opaque `real` values.
- `MemObjects` (`mem_object.c`): the map/unmap discipline, Copy, Swap, the
  accessors, Erase, sub-buffers, Make_Buffer, Make_Image, the per-type
  function pointers and Destroy.
- `Kernels` (`kernel.c`): ND-size validation with 64-bit `size_t`
  wrap-around, launch bookkeeping, event priority, Destroy and Make_Kernel.
- `Platforms`, `Devices`, `SetupTeardown` (`platforms.c`, `devices.c`,
  `src/setup_teardown.c`): the process-wide flat registries.
- `Nodes`, `DeviceLists`, `PlatformLists`, `SteelThreads` (`device.c`,
  `platform.c`, `steel_thread.c`): the older design built on doubly-linked
  lists.

In that older design a list is a `seq` whose slot `i` holds the i-th node.
A node's `prev`/`next` links name slots, and the `Chain` predicate says the
links are consistent. Releasing resources appends `Event`s to a trace.
"Freed exactly once" is stated with `Occurrences(trace, e)`, the number of
times event `e` occurs in the trace (`Common.OccurrencesAreMultiplicity`
equates it with the trace's multiset multiplicity).

Where a function returns a code and an updated object, the model returns a
pair or a small result datatype. A null object is `None`. An outcome C
leaves undefined is explicit: a pointer to a freed node (`DanglingNode`), a
call or dereference through a null pointer (`NullDereference`, `Crashed`,
`NullPointer`).

## Model

| member | source | states |
|---|---|---|
| Codes.ValueLayout | err_codes.h:30-337 | every named code is its category base (100..700) plus an offset in 1..99, so code / 100 is its category |
| Codes.DecodeValue | err_codes.h:77-337 | decoding a named code's value gives that code back |
| Codes.DecodeSound | err_codes.h:77-337 | any value that decodes to a name is that name's value |
| Codes.ValueInjective | err_codes.h:77-337 | no two named codes share a value |
| Codes.OutOfRangeGap | err_codes.h:66-337 | VALUE_OUT_OF_RANGE is 703 (base 700 plus 3); no library code has the value 701 or 702, and both decode to nothing |
| Codes.DriverCodesUnnamed | err_codes.h:77-337 | CL_SUCCESS and the negative driver codes the model uses are not library codes |
| Errors.MakeError | error.c:309-320 | a new slot holds 0 (CL_SUCCESS) |
| Errors.Record | error.c:94 | recording keeps every bit already set and sets every bit of the code |
| Errors.RecordLeast | error.c:94 | recording sets no bit that neither the slot nor the code had |
| Errors.RecordOnClean | error.c:94 | recording into a clean slot leaves exactly that code |
| Errors.RecordIdempotent | error.c:94 | setting a code twice equals setting it once, and setting 0 changes nothing |
| Errors.RecordCommutes | error.c:94 | the order of two recordings does not matter |
| Errors.AccumulationAliases | error.c:94 | INVALID_BLOCKING_FLAG then INVALID_BUFFER_SIZE reads back as INVALID_BUFFER_GIVEN, with that code's message |
| Errors.SetLastCode | error.c:90-97 | a null slot gives INVALID_BUFFER_GIVEN and no slot; otherwise CL_SUCCESS and the slot with the code ORed into its accumulated code, so every bit of the code is set |
| Errors.GetLastCode | error.c:73-78 | a null slot gives INVALID_BUFFER_GIVEN; otherwise the slot's accumulated code |
| Errors.SetGetRoundTrip | error.c:73-97 | reading back after a set gives the accumulated code, and on a clean slot exactly the code set |
| Errors.DestroySlot | error.c:55-62 | succeeds exactly on a non-null slot; a null slot gives INVALID_BUFFER_GIVEN |
| Errors.GetErrorMessage | error.c:109-292 | null exactly for a null slot; otherwise the text the library's switch gives the accumulated code, the success text on a clean slot |
| Errors.MessageAsWritten | error.c:116-289 | the success text for CL_SUCCESS; the fallback "Unspecified error." for a nonzero value that names no code, and for WRONG_PARENT_OBJECT, which the switch does not list |
| Errors.Message | error.c:116-289 | the corrected switch: the success text for CL_SUCCESS and the fallback for a nonzero value that names no code |
| Errors.MessageAsWrittenTotal | error.c:116-289 | the library's switch gives every named code other than WRONG_PARENT_OBJECT its own text |
| Errors.SetThenMessage | error.c:90-292 | setting a named code on a clean slot and asking for the message gives that code's text, and the fallback text for WRONG_PARENT_OBJECT |
| Errors.MessageTotal | error.c:116-289 | each named code reads its own text, and any other nonzero value reads "Unspecified error." |
| Errors.WrongParentHasNoText | error.c:116-289 | the library's switch gives WRONG_PARENT_OBJECT the fallback text; the corrected switch gives it its own |
| Errors.MessagesAgreeElsewhere | error.c:116-289 | the written and corrected switches agree on every other code |
| Timers.MakeTimer | src/timer.c:276-292 | every counter and total is zero and neither side is running |
| Timers.Start | src/timer.c:54-64 | a running timer gives TIMER_IN_USE and is unchanged; otherwise CL_SUCCESS with the host running flag set while the host counters and durations and the whole device side keep their values |
| Timers.Stop | src/timer.c:80-97 | a stopped timer gives TIMER_IN_USE with no change; otherwise the elapsed time is added to the host total, the host call count grows by exactly 1, and the flag clears |
| Timers.Reset | src/timer.c:112-139 | HOST_TIME zeroes only the host side, DEVICE_TIME only the device side, and any other side gives INVALID_ARG_TYPE with no change |
| Timers.GetTotalTime | src/timer.c:157-179 | a null timer or an unknown side reads -1.0; otherwise the total time of the chosen side |
| Timers.GetLastTime | src/timer.c:197-217 | a null timer or an unknown side reads -1.0; otherwise the last duration of the chosen side |
| Timers.GetNumCalls | src/timer.c:235-258 | a null timer or an unknown side reads ZERO_TIMES; otherwise the call count of the chosen side |
| Timers.StartStopRoundTrip | src/timer.c:54-97 | Start then Stop succeeds, adds one call and the elapsed time on the host side, and leaves the device side unchanged |
| Timers.NoNestedMeasurements | src/timer.c:58-61 | a second Start, or a Stop without a Start, is refused unchanged |
| Timers.ResetReadsZero | src/timer.c:112-258 | after a reset the getters read zero on that side and the old values on the other |
| Timers.ResetBothIsFresh | src/timer.c:112-139 | resetting the host side and the device side, in either order, gives the timer Make_Timer creates |
| Timers.RecordDeviceRun | kernel.c:339-356 | a measured run adds its time to the device totals and leaves the host side unchanged |
| MemObjects.Map | mem_object.c:274-431 | a blocking flag above CL_TRUE records INVALID_BLOCKING_FLAG and yields null; an already-mapped object records BUFFER_IN_USE and keeps its mapping; a refused driver map records the driver's own code and yields null; a successful map stores and returns the region |
| MemObjects.Unmap | mem_object.c:452-526 | with no mapping gives MEM_OBJ_NOT_MAPPED; a null caller pointer gives INVALID_BUFFER_GIVEN and a mismatched one WRONG_PARENT_OBJECT, each leaving the mapping intact; a driver failure on a matching pointer returns the driver's code; success clears the mapping and row pitch and nulls the caller's pointer |
| MemObjects.MapUnmapRoundTrip | mem_object.c:274-526 | Map then Unmap of the returned pointer returns an unmapped object to the unmapped state |
| MemObjects.NoDoubleMapping | mem_object.c:288-303 | while mapped, Map yields null and keeps the existing mapping |
| MemObjects.BufferCopy | mem_object.c:833-896 | only the source's timer changes; an Image destination gives DISTINCT_MEM_OBJECTS and a larger source INVALID_BUFFER_SIZE, checked before the self-copy test; a self-copy succeeds with the last device time zeroed; otherwise the copy is enqueued and its code returned |
| MemObjects.ImageCopy | mem_object.c:917-988 | only the source's timer changes; a Buffer destination gives DISTINCT_MEM_OBJECTS; a self-copy succeeds, tested before the size check, with the last device time zeroed; a larger row pitch, height or width gives INVALID_BUFFER_SIZE; otherwise the copy is enqueued and its code returned |
| MemObjects.Copy | mem_object.c:833-988 | differing types give DISTINCT_MEM_OBJECTS; a copy onto itself succeeds with nothing enqueued and the device time zeroed; a source larger than the destination gives INVALID_BUFFER_SIZE; otherwise the driver's code |
| MemObjects.CopySucceedsIff | mem_object.c:833-988 | Copy succeeds exactly when the types match and either the object is copied onto itself or it fits and the driver copy succeeds |
| MemObjects.SelfCopyIdempotent | mem_object.c:833-988 | a second copy of an object onto itself changes nothing more |
| MemObjects.Swap | mem_object.c:1006-1038 | type, then flags, then size are checked, giving DISTINCT_MEM_OBJECTS, DISTINCT_MEM_FLAGS, INVALID_BUFFER_SIZE; success exchanges the two references and nothing else |
| MemObjects.SwapTwice | mem_object.c:1006-1038 | swapping twice restores both references |
| MemObjects.GetExtent | mem_object.c:129-248 | on a Buffer, reads 0 and ORs CALLING_UNDEF_ACCESSOR into the slot; on an Image, reads its width, height or row pitch unchanged |
| MemObjects.GetExtentTwice | mem_object.c:129-248 | a second read answers the same and records nothing new |
| MemObjects.RowPitchFollowsMapping | mem_object.c:363-526 | an Image's row pitch reads the pitch the driver reported at its last map, and 0 once unmapped |
| MemObjects.Erase | mem_object.c:1053-1070 | a mapped buffer gives BUFFER_IN_USE and keeps its mapping; a failed map returns its code; otherwise the unmap code is returned |
| MemObjects.EraseAsWritten | mem_object.c:1053-1070 | as written, a code left in the slot by an earlier failure makes Erase fail whatever the map does, keeping that code's bits; a mapped buffer keeps its mapping and reports BUFFER_IN_USE's bits; with a clean slot and a good map the unmap code is returned |
| MemObjects.StaleSlotLeavesMapped | mem_object.c:1057-1061 | as written, a successful map of a buffer whose slot holds an earlier failure returns that failure and leaves the buffer mapped to the driver's region |
| MemObjects.EraseStaleSlot | mem_object.c:1060 | as written, a clean map on a buffer whose slot holds an earlier failure is reported as failing and the buffer stays mapped |
| MemObjects.EraseAgreesOnCleanSlot | mem_object.c:1053-1070 | with a clean slot the written and corrected Erase agree |
| MemObjects.MakeChild | mem_object.c:1093-1159 | an Image gives INVALID_ARG_TYPE and a child gives WRONG_PARENT_OBJECT, releasing nothing; a driver failure destroys the partial child (slot, timer, release, free) and leaves the parent as it was; the child is a Buffer of CHILD_OBJECT paternity with the region's size and origin, and a host pointer offset by the origin when the parent has one |
| MemObjects.NoGrandchildren | mem_object.c:1104-1156 | a child can never parent a further child |
| MemObjects.Fresh | mem_object.c:1180-1222 | a new object is an unmapped parent with a clean slot and a fresh timer |
| MemObjects.MakeBuffer | mem_object.c:1180-1222 | null exactly without a thread or on a driver failure; without a thread nothing is released, a driver failure destroys the partial Buffer (slot, timer, release, free); otherwise an unmapped parent Buffer with the given flags, size and host pointer |
| MemObjects.MadeBuffer | mem_object.c:1180-1222 | a made Buffer can parent a sub-buffer at an offset of its host memory, its undefined accessors record CALLING_UNDEF_ACCESSOR, and destroying it unmapped destroys the slot and timer, releases the driver object and frees the node |
| MemObjects.MakeImage | mem_object.c:1245-1313 | null exactly without a thread, without a format or on a driver failure; only a driver failure releases anything, destroying the partial Image (slot, timer, release, free); otherwise an unmapped parent Image with the given flags, width, height and host pointer, a row pitch of 0 and a clean slot |
| MemObjects.MadeImage | mem_object.c:1245-1313 | a made Image reads its width and height and a row pitch of 0, and its Erase and Make_Child pointers are null |
| MemObjects.CallErase | mem_object.c:1201-1288 | an Image has no Erase to call; on a Buffer a mapped object gives BUFFER_IN_USE, a failed map its code, and otherwise the unmap code |
| MemObjects.CallMakeChild | mem_object.c:1201-1288 | an Image has no Make_Child to call; on a Buffer a child is made exactly for a parent with a successful driver call, and a child as parent records WRONG_PARENT_OBJECT |
| MemObjects.Destroy | mem_object.c:64-94 | a null object succeeds with nothing released; MEM_OBJ_NOT_MAPPED and CL_INVALID_MEM_OBJECT are not fatal; any other unmap failure of a mapped object is returned as is, and otherwise any other release failure is returned as is; the object is freed exactly when the result is CL_SUCCESS |
| MemObjects.DestroyPartial | mem_object.c:64-94 | destroying an unmapped object whose driver handle was never created destroys its slot and timer, has its release refused with the tolerated CL_INVALID_MEM_OBJECT, frees the node and reports CL_SUCCESS |
| MemObjects.FailedMakeFreesPartial | mem_object.c:1148-1310 | each constructor frees its partial object exactly once when the driver refuses to create it, and frees nothing when it succeeds or makes nothing |
| MemObjects.DestroyFreesOnce | mem_object.c:64-94 | the node is freed once exactly when Destroy succeeds and never otherwise, the driver object is released at most once, and an unmap happens exactly for a mapped object |
| Kernels.FirstBad | kernel.c:222-265 | the first dimension failing either check; every earlier one passes |
| Kernels.StoreFrom | kernel.c:222-265 | stores each dimension until the first failure, which returns INVALID_LOCAL_WG_SIZE or GLOBAL_NOT_MULTIPLE_TO_LOCAL |
| Kernels.SetNDSizes | kernel.c:192-269 | a null global array gives INVALID_BUFFER_GIVEN and more than 3 dimensions INVALID_ND_DIMENSIONALITY, storing nothing; otherwise the dimensionality is stored first; without local sizes those stored are untouched |
| Kernels.SetNDSizesSucceedsIff | kernel.c:204-265 | success exactly when every dimension's running local product is within the device maximum and every global size is a multiple of its local size |
| Kernels.SetNDSizesNotAtomic | kernel.c:238-265 | on failure every earlier dimension stays stored |
| Kernels.WrapMatchesExact | kernel.c:230-245 | for a device maximum below 2^32 the wrapping size_t product check agrees with exact arithmetic |
| Kernels.NonZeroCount | kernel.c:317-331 | zero exactly when every stored local size is zero |
| Kernels.NDRange | kernel.c:294-359 | no external event sets internal priority; one sets external priority and stores it; local sizes are passed exactly when some stored one is nonzero; a measured success updates the device timer |
| Kernels.CheckStatus | kernel.c:466-478 | queries exactly the prioritised event and stores its status on success |
| Kernels.StatusFollowsLaunch | kernel.c:302-314 | after ND_Range, Check_Status queries the caller's event if one was given, else the kernel's own |
| Kernels.Launch | kernel.c:387-418 | binds arguments 0..n-1 in order and returns the first binding failure without enqueuing; otherwise it is ND_Range |
| Kernels.Destroy | kernel.c:125-150 | releases the kernel and the program exactly when present, then destroys the timer and the error slot and frees the kernel; always CL_SUCCESS |
| Kernels.DestroyReleasesOnce | kernel.c:125-150 | the driver kernel and program are released once each when present, and the timer, slot and kernel freed exactly once |
| Kernels.NameGuardOffByOne | kernel.c:513 | the written guard accepts a 256-character name that needs 257 bytes |
| Kernels.NameAcceptedFits | kernel.c:513 | every name the corrected guard accepts fits with its terminator, and the written guard accepts it too |
| Kernels.Blank | kernel.c:502-530 | a fresh kernel has no program, no driver kernel and no dimensions |
| Kernels.MakeKernel | kernel.c:502-626 | with the corrected name guard, a kernel exactly when there is a thread, a name that fits with its terminator, a readable source and every driver step succeeds; it holds the name and the init params followed by the extra params; a failure frees the partial kernel and releases no driver kernel |
| Kernels.MakeKernelWith | kernel.c:502-626 | under either name guard (name length counted in characters): a kernel exactly when the guard accepts the name and every step succeeds; a refused name allocates nothing; a failure releases the program exactly when it was created |
| Kernels.MakeKernelAsWritten | kernel.c:502-626 | as written, a kernel exactly when the name has at most 256 characters (not strlen bytes) and every step succeeds, with that name stored |
| Kernels.MakeKernelStoresOverlongName | kernel.c:513-532 | as written, a 256-character name makes a kernel whose name needs 257 bytes; corrected, nothing is made or allocated |
| Kernels.MakeThenDestroy | kernel.c:125-626 | a made kernel, destroyed, releases its driver kernel and program and frees itself exactly once each; a failed Make_Kernel frees its partial kernel once and releases no driver kernel |
| Platforms.GetNumPlatforms | platforms.c:10-19 | always returns CL_SUCCESS; on driver failure the count is left as it was |
| Platforms.CountQueryOutcome | platforms.c:10-38 | the count query is idempotent; on an empty registry a failed query still reports CL_SUCCESS, yet the collection stops with CANT_FIND_PLATFORM |
| Platforms.CollectPlatformsList | platforms.c:21-38 | a zero count gives CANT_FIND_PLATFORM; otherwise the registry holds exactly the listed ids |
| Platforms.ErasePlatformsList | platforms.c:40-49 | frees the list, nulls it and zeroes the count; on an empty registry a no-op returning CL_SUCCESS |
| Platforms.CollectKeepsConsistent | platforms.c:21-38 | collection keeps the count and the array in agreement |
| Platforms.EraseIdempotent | platforms.c:40-49 | erasing twice equals erasing once |
| Platforms.CollectEraseRoundTrip | platforms.c:21-49 | collecting into an empty registry and erasing gives the empty registry back |
| Devices.NullPlatformCountIsCode | devices.c:41-79 | a null platform stores the value of CANT_FIND_PLATFORM as its count |
| Devices.CountOf | devices.c:41-79 | a platform whose count query fails contributes 0 |
| Devices.Listed | devices.c:94-106 | a listing holds exactly the counted number of ids |
| Devices.Fill | devices.c:154-188 | the second pass never writes more than the first pass counted; on success it writes exactly the summed counts; its only failure code is CANT_FIND_DEVICE |
| Devices.FillSucceeds | devices.c:154-188 | the second pass succeeds exactly when every CPU and GPU listing does |
| Devices.FillLayout | devices.c:154-188 | platform i's devices sit after those of platforms 0..i-1, in order |
| Devices.CollectDevicesList | devices.c:108-198 | an empty platform registry gives CANT_FIND_PLATFORM, a zero total CANT_FIND_DEVICE; counts grow by the per-platform sums |
| Devices.CollectDevicesListAsWritten | devices.c:108-198 | as written: an empty platform registry gives CANT_FIND_PLATFORM; the GPU listing overflows its array exactly when more GPUs than CPUs are counted; otherwise the codes and counts of the corrected collection |
| Devices.CollectLayout | devices.c:154-188 | after collection the flat list of each kind is the concatenation of the per-platform lists |
| Devices.CollectDoubleCounts | devices.c:129-135 | counts are not reset, so collecting twice counts every device twice |
| Devices.GpuArraySizedByCpuCount | devices.c:142 | as written, one GPU and no CPU leaves no room for the GPU id; the corrected sizing holds it |
| Devices.EraseDevicesListAsWritten | devices.c:200-215 | always CL_SUCCESS; a dangling global pointer is freed again |
| Devices.EraseDevicesList | devices.c:200-215 | both lists become null and their counts zero |
| Devices.EraseTwiceFreesTwice | devices.c:204-210 | as written, erasing twice frees a live list a second time |
| Devices.EraseIdempotent | devices.c:200-215 | the corrected erase is idempotent |
| Devices.PickDeviceByType | devices.c:263-280 | the first device of the kind, or null when the list is empty or the type is neither CPU nor GPU |
| Devices.PickDeviceByPlatform | devices.c:282-324 | null for an unknown type or when no device of the kind is on the platform; otherwise the device at the first index of the kind's list whose platform matches |
| Devices.PickByPlatformIsFirstOnPlatform | devices.c:282-324 | the pick is the head of the kind's list filtered to the platform, or null when that filtered list is empty |
| Devices.PickByTypeIsFirstOfItsPlatform | devices.c:263-324 | the device picked by type is also the one picked by its own platform |
| Devices.PickNextDevice | devices.c:326-358 | the intended lookup: the device after the first occurrence of the given one in its kind's list; null when it is last or absent |
| Devices.PickPrevDevice | devices.c:360-392 | the intended lookup: the device before the first occurrence of the given one; null when it is first or absent |
| Devices.PickNextDeviceAsWritten | devices.c:326-358 | as written, the id is compared with the array's address range in pointer-sized steps, and the answer is null or the word after the parameter, never a list element |
| Devices.PickPrevDeviceAsWritten | devices.c:360-392 | as written, the same comparison against the array's address range, answering null or the word before the parameter |
| Devices.AsWrittenIgnoresLists | devices.c:326-392 | as written, the two lookups never read the ids: registries with equal counts give equal answers |
| Devices.NextPrevRoundTrip | devices.c:326-392 | in a list without repeats, stepping forward then back returns to the device |
| Devices.NextDeviceComparesIdWithAddress | devices.c:353-357 | as written, the comparison of an id with an address misses the device that is present |
| SetupTeardown.TearDown | src/setup_teardown.c:36-44 | over the corrected device erase: erases devices, then platforms, leaves all three lists null and returns CL_SUCCESS; a well-formed state returns to the initial one |
| SetupTeardown.SetUp | src/setup_teardown.c:23-34 | over the corrected device registry: platforms are collected before devices; a failure in either tears down and returns that code, and a platform failure skips the device collection |
| SetupTeardown.SetUpSucceedsIff | src/setup_teardown.c:23-34 | success exactly when both collections succeed; no platforms gives CANT_FIND_PLATFORM |
| SetupTeardown.SetUpTearDownRestores | src/setup_teardown.c:23-44 | over the corrected device registry, a failed set-up, or any set-up then tear-down, leaves the initial state |
| SetupTeardown.TearDownAsWritten | src/setup_teardown.c:36-44 | over the written device erase: CL_SUCCESS and a null platform list; a live device list becomes dangling, and an array is freed twice exactly when a list was already dangling |
| SetupTeardown.SetUpAsWritten | src/setup_teardown.c:23-34 | over the written device registry: the corrected set-up's code and steps whenever the GPU listing stays in its array; an overflow only after platforms are collected and when more GPUs than CPUs are counted |
| SetupTeardown.GpuOnlySetUpOverflows | src/setup_teardown.c:23-34 | one platform with one GPU and no CPU: as written set-up overflows the GPU array; corrected it succeeds |
| SetupTeardown.TearDownLeavesDangling | src/setup_teardown.c:23-44 | as written, set-up then tear-down with some CPU leaves a dangling pointer and a second tear-down frees it again; the corrected tear-down is idempotent |
| Nodes.ToFirst | device.c:99-108 | null in gives null out; otherwise following prev links reaches slot 0, which has no predecessor |
| Nodes.ToLast | device.c:74-83 | null in gives null out; otherwise following next links reaches the last slot, which has no successor |
| DeviceLists.ToFirstDevice | device.c:99-108 | null in gives null out; from any node of a well-linked list it reaches the head, which has no predecessor |
| DeviceLists.ToLastDevice | device.c:74-83 | null in gives null out; from any node it reaches the tail, which has no successor |
| DeviceLists.DeviceReleaseTrace | device.c:43-55 | two events per node, head first, each destroying the node's error slot before freeing it |
| DeviceLists.DeviceNodesFreedOnce | device.c:43-55 | every node of the list is freed exactly once and nothing else is freed |
| DeviceLists.DeviceErrorsDestroyedOnce | device.c:43-55 | every node's error slot is destroyed exactly once |
| DeviceLists.DestroyDeviceList | device.c:36-58 | from any node (or null) rewinds to the head and releases every node in order; always CL_SUCCESS |
| DeviceLists.DeviceMakeDefault | device.c:424-431 | sets the parent platform's default device to this node; no parent gives INVALID_BUFFER_GIVEN |
| DeviceLists.GetDeviceNum | device.c:434-463 | CL_DEVICE_NOT_FOUND gives count 0 and CANT_FIND_DEVICE, other failures GENERIC_OPENCL_ERROR, a null platform INVALID_BUFFER_GIVEN |
| DeviceLists.GetDeviceNumTwice | device.c:434-463 | asking twice with the same answer is asking once; the stored count is the driver's, 0 when no device was found, and otherwise the earlier count |
| DeviceLists.MakeListElement | device.c:465-505 | quick mode makes the node without queries; otherwise a failed query destroys the node and yields null |
| DeviceLists.FirstFailing | device.c:573-603 | the first node whose creation fails; every earlier one succeeds |
| DeviceLists.FailureFreesEachOnce | device.c:573-603 | after a later-node failure every node made so far is freed exactly once |
| DeviceLists.DeviceListOf | device.c:573-603 | nodes numbered 0..n-1 in driver order with consistent links |
| DeviceLists.WithCount | device.c:543-560 | zero matching devices records CANT_FIND_DEVICE on the platform's slot when that was the cause |
| DeviceLists.BuildDevices | device.c:525-604 | no parent gives null with nothing released; no devices or a failed listing gives null with nothing released; a failure at node f releases nodes f..0; otherwise n nodes in driver order |
| DeviceLists.MakeDevicesAsWritten | device.c:525-604 | as written, a failure at node f > 0 returns node f-1, which its trace (the same clean-up as the corrected call) frees exactly once; other outcomes as corrected |
| DeviceLists.MakeDevices | device.c:525-604 | null exactly when there are no devices or some node fails; otherwise a well-linked list in driver order; on failure all nodes made are released |
| DeviceLists.LaterFailureReturnsFreedNode | device.c:587-591 | three devices with the second failing: as written node 0 is returned and the written trace frees it; corrected, null; both traces free nodes 1 and 0 once |
| PlatformLists.ToFirstPlatform | platform.c:395-405 | null in gives null out; from any node of a well-linked list it reaches the head, which has no predecessor |
| PlatformLists.ToLastPlatform | platform.c:419-429 | null in gives null out; from any node it reaches the tail, which has no successor |
| PlatformLists.NodeRelease | platform.c:352-378 | per node: its device list, then its info, then its error slot, then the node |
| PlatformLists.ListRelease | platform.c:352-378 | the releases of the nodes in list order |
| PlatformLists.NodeReleaseCount | platform.c:352-378 | one node's release frees the node and each of its devices once |
| PlatformLists.ListReleaseFreesOnce | platform.c:352-378 | releasing the list frees every platform node and every device node exactly once, and nothing else |
| PlatformLists.ListReleaseListEvents | platform.c:352-378 | releasing a platform list emits only platform and device events: no queue or context release and no thread free |
| PlatformLists.ElementTraceListEvents | platform.c:458-502 | a failed Make_List_Element emits only platform and device events |
| PlatformLists.PlatformDestroy | platform.c:345-381 | from any node (or null) rewinds to the head and releases node after node; always CL_SUCCESS |
| PlatformLists.DestroyNode | platform.c:360-376 | one iteration of the loop: the node's device list if any, then its info if any, then its error slot and the node |
| PlatformLists.PlatformMakeDefault | platform.c:449-455 | sets the thread's default platform to this node |
| PlatformLists.GetPlatformsNum | platform.c:319-332 | on driver failure the count is 0 and the code CANT_FIND_PLATFORM |
| PlatformLists.InfoGetParameter | platform.c:239-273 | the profile, version, name, vendor or extensions string for the matching selector; any other selector is left unspecified |
| PlatformLists.MadePlatformInfo | platform.c:239-273 | a made platform node answers each named attribute with the driver's gathered info, and an unknown selector indeterminately |
| PlatformLists.ExpectedPlatformShape | platform.c:458-502 | a made node holds its id, count, info and a well-linked device list exactly when devices were made |
| PlatformLists.MakeListElement | platform.c:458-502 | CANT_FIND_DEVICE is not fatal; any other device-list failure, or a failed info gathering, destroys the node and yields null |
| PlatformLists.ElementTraceFreesOnce | platform.c:483-499 | a failed element frees its own node exactly once |
| PlatformLists.CleanUpFreesNoPlatform | platform.c:483-499 | a device-list clean-up frees no platform node |
| PlatformLists.LinkAll | platform.c:560-579 | every node is linked to its slot neighbours, null at the two ends, and nothing else in it changes |
| PlatformLists.PlatformListOfOk | platform.c:554-583 | the made list holds the made nodes in driver order and is well formed when every node could be made |
| PlatformLists.FirstBadPlatform | platform.c:560-579 | the first platform whose element fails; every earlier one succeeds |
| PlatformLists.BuildPlatforms | platform.c:522-584 | a zero count or a failed listing gives null with nothing released; a failure at platform f releases the failing element, then the f nodes linked before it; otherwise the linked list of all made nodes |
| PlatformLists.LinkRest | platform.c:560-583 | after a made root: a failure at platform f releases the failing element, then the f nodes linked before it; otherwise the linked list of all made nodes |
| PlatformLists.MakePlatformsAsWritten | platform.c:554-559 | as written, a root failure calls Destroy through a null pointer |
| PlatformLists.MakePlatforms | platform.c:522-584 | null exactly when the count, the listing or some element fails; otherwise the list of made nodes in driver order; on failure all nodes made are released |
| PlatformLists.FailureFreesPlatformsOnce | platform.c:560-583 | after a failure at platform f, platforms 0..f are each freed exactly once and no other |
| PlatformLists.RootFailureCallsThroughNull | platform.c:554-559 | one platform whose element fails: as written a null dereference; corrected, null with the node released |
| SteelThreads.TruncateParams | steel_thread.c:226-230 | init_params is kept whole when it fits, otherwise cut to CL_BUILD_PARAMS_STRING_SIZE - 1 = 255 characters |
| SteelThreads.SetDefaultDeviceAsWritten | steel_thread.c:25-56 | as written, crashes exactly when no platform reported a device |
| SteelThreads.SetDefaultDevice | steel_thread.c:25-56 | the first platform with wanted_devices_num > 0 becomes the default and its first device the default device; with none, CANT_FIND_DEVICE and no change |
| SteelThreads.SetDefaultDeviceAgrees | steel_thread.c:31-53 | the two agree whenever some platform has devices |
| SteelThreads.NoDevicePlatformCrashesDefaultSelection | steel_thread.c:53 | a single platform with no device: as written a crash, corrected CANT_FIND_DEVICE |
| SteelThreads.NoGpuAnywhereCrashesDefaultSelection | steel_thread.c:53 | Make_Platforms succeeds on one platform with no GPU, and default selection then crashes as written |
| SteelThreads.InitOpenCL | steel_thread.c:58-90 | creates the context, then q_cmd, q_data_htod, q_data_dtoh, q_data_dtod in order; returns CANT_CREATE_CONTEXT or CANT_CREATE_CMD_QUEUE at the first failure, keeping exactly the queues created before the first refusal |
| SteelThreads.CreatedUpToFirstRefusal | steel_thread.c:71-88 | the queues created are as many as precede the first queue the driver refuses |
| SteelThreads.ThreadReleaseFreesOnce | steel_thread.c:104-141 | destroying a thread frees the thread and every node of its platform list exactly once |
| SteelThreads.ThreadReleaseHoldings | steel_thread.c:104-141 | destroying a thread releases its context once if it holds one and each queue as often as it holds it |
| SteelThreads.ThreadReleaseAccount | steel_thread.c:239-246 | destroying a thread given up after selection or initialisation frees it and each node of its list once, and releases the context and the queues created so far once each |
| SteelThreads.UnmadeListAccount | steel_thread.c:229-236 | when the platform list cannot be made, the failed construction frees platforms 0..f once each and the thread's own destruction frees the thread once and releases no context |
| SteelThreads.Destroy | steel_thread.c:104-141 | releases the queues held, then the context, then the platform list, then the error slot and the thread; always CL_SUCCESS |
| SteelThreads.ReleaseQueues | steel_thread.c:109-124 | one release per queue held, in creation order |
| SteelThreads.WaitForData | steel_thread.c:158-172 | finishes htod, dtoh, dtod in order and stops at the first failure, returning its code |
| SteelThreads.WaitForCommands | steel_thread.c:189-192 | finishes only the command queue |
| SteelThreads.WaitsPartitionQueues | steel_thread.c:158-192 | the two waits cover the four queues once each |
| SteelThreads.Configure | steel_thread.c:239-246 | with the corrected default selection: a thread exactly when some platform has devices and the context and all queues are created; otherwise the partial thread is destroyed: the thread and each platform and device node of its list freed once, the context released once if created, and each created queue released once |
| SteelThreads.MakeSteelThread | steel_thread.c:211-249 | with the corrected list construction and default selection: a thread exactly when the platform list is made, some platform has devices and initialisation succeeds; on failure the thread is freed once, with every node of a made list once and the context once if created, or, when the list could not be made, platforms 0..f of the failed construction once each and no context |
| SteelThreads.ConfigureAsWritten | steel_thread.c:239-246 | with the written default selection: crashes exactly when no platform reported a device; otherwise a thread exactly when the context and all queues are created, and on failure the thread and each node of its list freed once, the context once if created and each created queue once |
| SteelThreads.MakeSteelThreadAsWritten | steel_thread.c:211-249 | with the written default selection: crashes exactly when the platform list is made but no platform reported a device; otherwise a thread exactly when initialisation succeeds, and on failure the same release account as the corrected Make_Steel_Thread |
| SteelThreads.MakeSteelThreadVariantsAgree | steel_thread.c:25-56 | Make_Steel_Thread as written crashes exactly when the platform list is made with no platform having devices, where the corrected one returns null; otherwise both return the same thread or both null |
| SteelThreads.CountQueriesAgree | platform.c:319-332 | the thread's platform count equals the registry's for every driver answer, but only the thread's query reports failure |
| SteelThreads.MadeThreadHasDefaults | steel_thread.c:31-50 | a made thread's default platform reported devices and its default device is the head of that platform's list |

## Left out

- Driver internals: device memory contents, asynchronous execution, blocking, events and clFinish are oracle parameters.
- Timing arithmetic: the `clock()` conversion and Gather_Time_uS are floating point or driver profiling, so durations are opaque `real` values.
- Printing and logging: Device_Print_Info, Platform_Info_Print and the error-message macros produce output only.
- File reading (Read_Source_File): only whether the file could be read is a parameter.
- Pure driver pass-throughs: Device_Gather_Info, Gather_Platform_Info, Kernel_Get_Name and Pick_Device_By_Name are left out; they forward to the driver.
- src/device.c is not part of this model: Make_Device and sub-device fission are thin driver wrappers.
- Transfer contents (Send_To_Device, Get_From_Device) and the memset in Buffer_Erase are left out; they move bytes only.
- Sync is declared in inc/mem_object.h but has no implementation, so it is left out.
- The command-queue and event headers declare functions without bodies, so they are not modelled.
- timer.c, setup_teardown.c and the duplicated headers are byte-identical copies, so each is modelled once.
- Allocation failures (calloc returning null) are not modelled; every allocation succeeds.
- MemObjects.MakeBuffer, MemObjects.MakeImage and MemObjects.MakeChild take the release of a driver handle that was never created to answer CL_INVALID_MEM_OBJECT, as OpenCL specifies for an invalid memory object; a different answer, which would make Destroy return before freeing the partial object, is not modelled.
- MemObjects.MakeImage does not model the image format or the image descriptor passed to the driver; the row_pitch argument is ignored, as in the source, and only whether a format was given is a parameter.
- MemObjects.CallErase and MemObjects.CallMakeChild report a call through an Image's null Erase or Make_Child pointer as `NullPointer`; what C does then is undefined and not modelled further. The Image check inside the sub-buffer constructor is modelled by `MemObjects.MakeChild` but cannot be reached through the pointer.
- Timers.Start, Timers.Stop, Timers.Reset and Timers.RecordDeviceRun take a non-null timer: the source's null-receiver guard, which returns INVALID_BUFFER_GIVEN, is left out (the getters do model a null timer).
- Kernels.Launch and Kernels.CheckStatus take a non-null kernel: the null-receiver guards returning INVALID_BUFFER_GIVEN or VOID_ARG_GIVEN are left out.
- MemObjects.Map, MemObjects.Unmap, MemObjects.Copy, MemObjects.GetExtent, MemObjects.Erase and MemObjects.MakeChild take a non-null object: the guards that return null, 0 or INVALID_BUFFER_GIVEN for a null receiver or destination are left out, as is Image_Copy reading the objects before its own null check.
- SteelThreads.Configure and SteelThreads.MakeSteelThread use the corrected default selection; the selection as written is composed in `SteelThreads.ConfigureAsWritten` and `SteelThreads.MakeSteelThreadAsWritten`.
- SteelThreads.MakeSteelThreadAsWritten builds the platform list with the corrected Make_Platforms; the written root failure is shown separately by `PlatformLists.RootFailureCallsThroughNull`.
- Kernels.MakeKernel uses the corrected name guard; the written guard is composed in `Kernels.MakeKernelAsWritten`.
- Kernels.MakeKernel: the kernel name is a `string` counted one byte per character with no embedded NUL; the source measures it with strlen, which counts bytes up to the first NUL.
- Kernels.MakeKernelWith: the name guard counts characters of a `string`, not strlen bytes up to the first NUL, so multi-byte characters and embedded NULs are not modelled.
- Kernels.MakeKernelAsWritten: the written guard counts characters of a `string`, not strlen bytes up to the first NUL, so multi-byte characters and embedded NULs are not modelled.
- Kernels.NameAccepted: counts characters, taking one byte per character and no embedded NUL, where kernel.c:513 uses strlen.
- Kernels.NameAcceptedAsWritten: counts characters, taking one byte per character and no embedded NUL, where kernel.c:513 uses strlen.
- Kernels.NameAcceptedFits: states the fit in characters, taking one byte per character and no embedded NUL.
- SteelThreads.TruncateParams: the build parameters are a `string` taken one byte per character with no embedded NUL; strlen and strncpy in steel_thread.c:226-230 count and copy bytes up to the first NUL.
- SetupTeardown.SetUp, SetupTeardown.TearDown and SetupTeardown.SetUpTearDownRestores run over the corrected device collection and erase; the written ones are composed in `SetupTeardown.SetUpAsWritten` and `SetupTeardown.TearDownAsWritten`.
- Devices.PickNextDeviceAsWritten and Devices.PickPrevDeviceAsWritten model the answer read from the stack next to the by-value parameter as the parameter `stackWord`, and the array address and pointer size as `base` and `w`.
- Devices.CollectDevicesList: a null platform id in the second pass is taken to make the listing fail with CL_INVALID_PLATFORM.
- Platforms.GetNumPlatforms: a failed count query leaves the count unchanged, because the driver writes nothing then.
- DeviceLists.MakeDevices: the device type (GPU, CPU) is folded into the count and listing oracles.
- PlatformLists.MakeListElement does not store the platform number, as the source does not set it.
- PlatformLists.MakeListElement: info gathering is one oracle. Gather_Platform_Info together with Make_Platform_Info destroys the info twice when the size query for the version, name, vendor or extensions string fails (platform.c:74-77, 90-93, 106-109, 122-125, then platform.c:307); the other failure paths destroy it once. That double destroy is left out.
- PlatformLists.MakePlatforms: a zero platform count is taken to make the listing fail.
- PlatformLists.MakePlatforms uses the corrected Make_Devices, so a freed device head is never stored in a platform node.
- PlatformLists.InfoGetParameter: an unknown selector returns an uninitialised value in the source; the model says only that the result is indeterminate.
- SteelThreads.InitOpenCL does not model the device handle passed to the driver; the driver's answers are parameters.
- Kernels.SetNDSizes requires the caller's arrays to cover `dims` entries and every given local size to be nonzero. The source reads `dims` entries and takes `global % local`, which is undefined for a zero local size.
- Kernels.WrapMatchesExact requires a device maximum below 2^32. Above that, only the wrapping check the source performs is modelled.

## Findings

| source | as written | input that shows it | evidently intended | confidence | as-written member | corrected member |
|---|---|---|---|---|---|---|
| devices.c:142 | the GPU array is allocated with the CPU count | one platform with no CPU and one GPU | size the GPU array by the GPU count | high, not executed | Devices.GpuArraySizedByCpuCount | Devices.CollectDevicesList |
| devices.c:204-210 | shadowing local pointers are nulled, not the globals | a live CPU list erased twice | null the global pointers | high, not executed | Devices.EraseTwiceFreesTwice | Devices.EraseDevicesList |
| devices.c:353-357 | compares a device id with the address of the by-value parameter | list [5, 7], asking for the device after 5 | compare ids | high, not executed | Devices.NextDeviceComparesIdWithAddress | Devices.PickNextDevice |
| device.c:587-591 | after destroying the list on a later-node failure, returns a freed node | three devices, the second failing its query | return null | high, not executed | DeviceLists.MakeDevicesAsWritten | DeviceLists.MakeDevices |
| platform.c:554-559 | on a root failure calls Destroy through the null root | one platform whose element fails | return null | high, not executed | PlatformLists.RootFailureCallsThroughNull | PlatformLists.MakePlatforms |
| steel_thread.c:53 | rewinds through a null pointer when no platform has devices | one platform whose driver finds no GPU | report CANT_FIND_DEVICE | high, not executed | SteelThreads.NoGpuAnywhereCrashesDefaultSelection | SteelThreads.SetDefaultDevice |
| kernel.c:513 | accepts names of exactly 256 characters | a 256-character name | require room for the terminator | medium, not executed | Kernels.NameGuardOffByOne | Kernels.NameAcceptedFits |
| mem_object.c:1060 | tests the accumulated error slot instead of the map result | a buffer whose slot holds an earlier INVALID_BLOCKING_FLAG | test the map's own result | high, not executed | MemObjects.EraseStaleSlot | MemObjects.Erase |
| error.c:116-289 | the switch has no case for WRONG_PARENT_OBJECT | WRONG_PARENT_OBJECT | give it its documented text | medium, not executed | Errors.WrongParentHasNoText | Errors.MessageTotal |

=== FILE: codes.dfy ===
/** The library's own return codes (err_codes.h): seven category bases, each
    named code a base plus a small offset, and the handful of driver codes the
    core compares against. */
module Codes {
  import opened Common

  // Category bases.
  const INVALID_ARG_GIVEN_BASE: Code := 100
  const FAILED_TO_CREATE_OBJ_BASE: Code := 200
  const OPENCL_RELATED_ERRORS_BASE: Code := 300
  const PARENT_CHILD_ERRORS_BASE: Code := 400
  const OBJECT_IN_USE_BASE: Code := 500
  const ACCESSORS_BASE: Code := 600
  const OUT_OF_RANGE_BASE: Code := 700

  // Invalid arguments.
  const INVALID_BLOCKING_FLAG: Code := INVALID_ARG_GIVEN_BASE + 1
  const INVALID_BUFFER_SIZE: Code := INVALID_ARG_GIVEN_BASE + 2
  const INVALID_BUFFER_GIVEN: Code := INVALID_ARG_GIVEN_BASE + 3
  const OBJECT_DOESNT_EXIST: Code := INVALID_ARG_GIVEN_BASE + 4
  const INVALID_ARG_TYPE: Code := INVALID_ARG_GIVEN_BASE + 5
  const VOID_ARG_GIVEN: Code := INVALID_ARG_GIVEN_BASE + 6
  const ARG_NOT_FOUND: Code := INVALID_ARG_GIVEN_BASE + 7

  // Object creation.
  const BUFFER_NOT_ALLOCATED: Code := FAILED_TO_CREATE_OBJ_BASE + 1

  // OpenCL-related.
  const CANT_FIND_PARAMS: Code := OPENCL_RELATED_ERRORS_BASE + 1
  const CANT_CREATE_CONTEXT: Code := OPENCL_RELATED_ERRORS_BASE + 2
  const CANT_CREATE_PROGRAM: Code := OPENCL_RELATED_ERRORS_BASE + 3
  const CANT_CREATE_CMD_QUEUE: Code := OPENCL_RELATED_ERRORS_BASE + 4
  const CANT_FIND_DEVICE: Code := OPENCL_RELATED_ERRORS_BASE + 5
  const CANT_FIND_PLATFORM: Code := OPENCL_RELATED_ERRORS_BASE + 6
  const CANT_FIND_KERNEL_SOURCE: Code := OPENCL_RELATED_ERRORS_BASE + 7
  const CANT_INIT_OPENCL: Code := OPENCL_RELATED_ERRORS_BASE + 8
  const CANT_SET_ND_SIZE: Code := OPENCL_RELATED_ERRORS_BASE + 9
  const CANT_QUERY_DEVICE_PARAM: Code := OPENCL_RELATED_ERRORS_BASE + 10
  const CANT_QUERY_PLATFORM_PARAM: Code := OPENCL_RELATED_ERRORS_BASE + 11
  const GENERIC_OPENCL_ERROR: Code := OPENCL_RELATED_ERRORS_BASE + 12
  const DISTINCT_MEM_OBJECTS: Code := OPENCL_RELATED_ERRORS_BASE + 13
  const DISTINCT_MEM_FLAGS: Code := OPENCL_RELATED_ERRORS_BASE + 14
  const MEM_OBJ_NOT_MAPPED: Code := OPENCL_RELATED_ERRORS_BASE + 15
  const MEM_OBJ_INCONSISTENT: Code := OPENCL_RELATED_ERRORS_BASE + 16
  const KERNEL_DOESNT_EXIST: Code := OPENCL_RELATED_ERRORS_BASE + 17
  const INVALID_LOCAL_WG_SIZE: Code := OPENCL_RELATED_ERRORS_BASE + 18
  const INVALID_GLOBAL_WG_SIZE: Code := OPENCL_RELATED_ERRORS_BASE + 19
  const GLOBAL_NOT_MULTIPLE_TO_LOCAL: Code := OPENCL_RELATED_ERRORS_BASE + 20
  const INVALID_ND_DIMENSIONALITY: Code := OPENCL_RELATED_ERRORS_BASE + 21
  const INVALID_EVENT: Code := OPENCL_RELATED_ERRORS_BASE + 22

  // Parent/child relations.
  const WRONG_PARENT_OBJECT: Code := PARENT_CHILD_ERRORS_BASE + 1

  // Objects in use.
  const TIMER_IN_USE: Code := OBJECT_IN_USE_BASE + 1
  const BUFFER_IN_USE: Code := OBJECT_IN_USE_BASE + 2
  const CANT_SET_DEFAULT_OBJ: Code := OBJECT_IN_USE_BASE + 3

  // Accessors.
  const CALLING_STUB_ACCESSOR: Code := ACCESSORS_BASE + 1
  const CALLING_UNDEF_ACCESSOR: Code := ACCESSORS_BASE + 2
  const PROVIDING_UNDEF_PTR: Code := ACCESSORS_BASE + 3

  // Ranges.
  const VALUE_OUT_OF_RANGE: Code := OUT_OF_RANGE_BASE + 3

  // Driver codes the core tests for (cl.h values -1, -32 and -38).
  const CL_DEVICE_NOT_FOUND: Code := 0xFFFF_FFFF
  const CL_INVALID_PLATFORM: Code := 0xFFFF_FFE0
  const CL_INVALID_MEM_OBJECT: Code := 0xFFFF_FFDA

  /** The seven families of library codes. */
  datatype Category =
    | InvalidArgGiven | FailedToCreateObj | OpenClRelated | ParentChild
    | ObjectInUse | Accessors | OutOfRange

  function Base(c: Category): Code
  {
    match c
    case InvalidArgGiven => INVALID_ARG_GIVEN_BASE
    case FailedToCreateObj => FAILED_TO_CREATE_OBJ_BASE
    case OpenClRelated => OPENCL_RELATED_ERRORS_BASE
    case ParentChild => PARENT_CHILD_ERRORS_BASE
    case ObjectInUse => OBJECT_IN_USE_BASE
    case Accessors => ACCESSORS_BASE
    case OutOfRange => OUT_OF_RANGE_BASE
  }

  /** Every code the library names. */
  datatype NamedCode =
    | InvalidBlockingFlag | InvalidBufferSize | InvalidBufferGiven | ObjectDoesntExist
    | InvalidArgType | VoidArgGiven | ArgNotFound
    | BufferNotAllocated
    | CantFindParams | CantCreateContext | CantCreateProgram | CantCreateCmdQueue
    | CantFindDevice | CantFindPlatform | CantFindKernelSource | CantInitOpenCl
    | CantSetNdSize | CantQueryDeviceParam | CantQueryPlatformParam | GenericOpenClError
    | DistinctMemObjects | DistinctMemFlags | MemObjNotMapped | MemObjInconsistent
    | KernelDoesntExist | InvalidLocalWgSize | InvalidGlobalWgSize | GlobalNotMultipleToLocal
    | InvalidNdDimensionality | InvalidEvent
    | WrongParentObject
    | TimerInUse | BufferInUse | CantSetDefaultObj
    | CallingStubAccessor | CallingUndefAccessor | ProvidingUndefPtr
    | ValueOutOfRange

  /** The family the header files a code under. */
  function CategoryOf(n: NamedCode): Category
  {
    match n
    case InvalidBlockingFlag | InvalidBufferSize | InvalidBufferGiven | ObjectDoesntExist
      | InvalidArgType | VoidArgGiven | ArgNotFound => InvalidArgGiven
    case BufferNotAllocated => FailedToCreateObj
    case WrongParentObject => ParentChild
    case TimerInUse | BufferInUse | CantSetDefaultObj => ObjectInUse
    case CallingStubAccessor | CallingUndefAccessor | ProvidingUndefPtr => Accessors
    case ValueOutOfRange => OutOfRange
    case _ => OpenClRelated
  }

  /** The position of a code inside its family, as the header numbers it. */
  function Offset(n: NamedCode): nat
  {
    match n
    case InvalidBlockingFlag => 1
    case InvalidBufferSize => 2
    case InvalidBufferGiven => 3
    case ObjectDoesntExist => 4
    case InvalidArgType => 5
    case VoidArgGiven => 6
    case ArgNotFound => 7
    case BufferNotAllocated => 1
    case CantFindParams => 1
    case CantCreateContext => 2
    case CantCreateProgram => 3
    case CantCreateCmdQueue => 4
    case CantFindDevice => 5
    case CantFindPlatform => 6
    case CantFindKernelSource => 7
    case CantInitOpenCl => 8
    case CantSetNdSize => 9
    case CantQueryDeviceParam => 10
    case CantQueryPlatformParam => 11
    case GenericOpenClError => 12
    case DistinctMemObjects => 13
    case DistinctMemFlags => 14
    case MemObjNotMapped => 15
    case MemObjInconsistent => 16
    case KernelDoesntExist => 17
    case InvalidLocalWgSize => 18
    case InvalidGlobalWgSize => 19
    case GlobalNotMultipleToLocal => 20
    case InvalidNdDimensionality => 21
    case InvalidEvent => 22
    case WrongParentObject => 1
    case TimerInUse => 1
    case BufferInUse => 2
    case CantSetDefaultObj => 3
    case CallingStubAccessor => 1
    case CallingUndefAccessor => 2
    case ProvidingUndefPtr => 3
    case ValueOutOfRange => 3
  }

  /** The numeric value of a named code, as the constants above define it. */
  function Value(n: NamedCode): Code
  {
    match n
    case InvalidBlockingFlag => INVALID_BLOCKING_FLAG
    case InvalidBufferSize => INVALID_BUFFER_SIZE
    case InvalidBufferGiven => INVALID_BUFFER_GIVEN
    case ObjectDoesntExist => OBJECT_DOESNT_EXIST
    case InvalidArgType => INVALID_ARG_TYPE
    case VoidArgGiven => VOID_ARG_GIVEN
    case ArgNotFound => ARG_NOT_FOUND
    case BufferNotAllocated => BUFFER_NOT_ALLOCATED
    case CantFindParams => CANT_FIND_PARAMS
    case CantCreateContext => CANT_CREATE_CONTEXT
    case CantCreateProgram => CANT_CREATE_PROGRAM
    case CantCreateCmdQueue => CANT_CREATE_CMD_QUEUE
    case CantFindDevice => CANT_FIND_DEVICE
    case CantFindPlatform => CANT_FIND_PLATFORM
    case CantFindKernelSource => CANT_FIND_KERNEL_SOURCE
    case CantInitOpenCl => CANT_INIT_OPENCL
    case CantSetNdSize => CANT_SET_ND_SIZE
    case CantQueryDeviceParam => CANT_QUERY_DEVICE_PARAM
    case CantQueryPlatformParam => CANT_QUERY_PLATFORM_PARAM
    case GenericOpenClError => GENERIC_OPENCL_ERROR
    case DistinctMemObjects => DISTINCT_MEM_OBJECTS
    case DistinctMemFlags => DISTINCT_MEM_FLAGS
    case MemObjNotMapped => MEM_OBJ_NOT_MAPPED
    case MemObjInconsistent => MEM_OBJ_INCONSISTENT
    case KernelDoesntExist => KERNEL_DOESNT_EXIST
    case InvalidLocalWgSize => INVALID_LOCAL_WG_SIZE
    case InvalidGlobalWgSize => INVALID_GLOBAL_WG_SIZE
    case GlobalNotMultipleToLocal => GLOBAL_NOT_MULTIPLE_TO_LOCAL
    case InvalidNdDimensionality => INVALID_ND_DIMENSIONALITY
    case InvalidEvent => INVALID_EVENT
    case WrongParentObject => WRONG_PARENT_OBJECT
    case TimerInUse => TIMER_IN_USE
    case BufferInUse => BUFFER_IN_USE
    case CantSetDefaultObj => CANT_SET_DEFAULT_OBJ
    case CallingStubAccessor => CALLING_STUB_ACCESSOR
    case CallingUndefAccessor => CALLING_UNDEF_ACCESSOR
    case ProvidingUndefPtr => PROVIDING_UNDEF_PTR
    case ValueOutOfRange => VALUE_OUT_OF_RANGE
  }

  /** Reads a code back as the named code it is, if any. */
  function Decode(v: Code): Option<NamedCode>
  {
    if v == INVALID_BLOCKING_FLAG then Some(InvalidBlockingFlag)
    else if v == INVALID_BUFFER_SIZE then Some(InvalidBufferSize)
    else if v == INVALID_BUFFER_GIVEN then Some(InvalidBufferGiven)
    else if v == OBJECT_DOESNT_EXIST then Some(ObjectDoesntExist)
    else if v == INVALID_ARG_TYPE then Some(InvalidArgType)
    else if v == VOID_ARG_GIVEN then Some(VoidArgGiven)
    else if v == ARG_NOT_FOUND then Some(ArgNotFound)
    else if v == BUFFER_NOT_ALLOCATED then Some(BufferNotAllocated)
    else if v == CANT_FIND_PARAMS then Some(CantFindParams)
    else if v == CANT_CREATE_CONTEXT then Some(CantCreateContext)
    else if v == CANT_CREATE_PROGRAM then Some(CantCreateProgram)
    else if v == CANT_CREATE_CMD_QUEUE then Some(CantCreateCmdQueue)
    else if v == CANT_FIND_DEVICE then Some(CantFindDevice)
    else if v == CANT_FIND_PLATFORM then Some(CantFindPlatform)
    else if v == CANT_FIND_KERNEL_SOURCE then Some(CantFindKernelSource)
    else if v == CANT_INIT_OPENCL then Some(CantInitOpenCl)
    else if v == CANT_SET_ND_SIZE then Some(CantSetNdSize)
    else if v == CANT_QUERY_DEVICE_PARAM then Some(CantQueryDeviceParam)
    else if v == CANT_QUERY_PLATFORM_PARAM then Some(CantQueryPlatformParam)
    else if v == GENERIC_OPENCL_ERROR then Some(GenericOpenClError)
    else if v == DISTINCT_MEM_OBJECTS then Some(DistinctMemObjects)
    else if v == DISTINCT_MEM_FLAGS then Some(DistinctMemFlags)
    else if v == MEM_OBJ_NOT_MAPPED then Some(MemObjNotMapped)
    else if v == MEM_OBJ_INCONSISTENT then Some(MemObjInconsistent)
    else if v == KERNEL_DOESNT_EXIST then Some(KernelDoesntExist)
    else if v == INVALID_LOCAL_WG_SIZE then Some(InvalidLocalWgSize)
    else if v == INVALID_GLOBAL_WG_SIZE then Some(InvalidGlobalWgSize)
    else if v == GLOBAL_NOT_MULTIPLE_TO_LOCAL then Some(GlobalNotMultipleToLocal)
    else if v == INVALID_ND_DIMENSIONALITY then Some(InvalidNdDimensionality)
    else if v == INVALID_EVENT then Some(InvalidEvent)
    else if v == WRONG_PARENT_OBJECT then Some(WrongParentObject)
    else if v == TIMER_IN_USE then Some(TimerInUse)
    else if v == BUFFER_IN_USE then Some(BufferInUse)
    else if v == CANT_SET_DEFAULT_OBJ then Some(CantSetDefaultObj)
    else if v == CALLING_STUB_ACCESSOR then Some(CallingStubAccessor)
    else if v == CALLING_UNDEF_ACCESSOR then Some(CallingUndefAccessor)
    else if v == PROVIDING_UNDEF_PTR then Some(ProvidingUndefPtr)
    else if v == VALUE_OUT_OF_RANGE then Some(ValueOutOfRange)
    else None
  }

  /** Every named code is its family's base plus an offset below 100, so the
      hundreds digit of a code names its family. */
  lemma ValueLayout(n: NamedCode)
    ensures 1 <= Offset(n) <= 99
    ensures Value(n) as int == Base(CategoryOf(n)) as int + Offset(n)
    ensures (Value(n) as int) / 100 == (Base(CategoryOf(n)) as int) / 100
  {
    BaseRound(CategoryOf(n));
    ValueSum(n);
    SameHundred(Value(n) as int, Base(CategoryOf(n)) as int, Offset(n));
  }

  /** Family bases are whole hundreds. */
  lemma BaseRound(c: Category)
    ensures (Base(c) as int) % 100 == 0
  {
  }

  /** A code's value is its family base plus its offset, code by code. */
  lemma ValueSum(n: NamedCode)
    ensures 1 <= Offset(n) <= 99
    ensures Value(n) as int == Base(CategoryOf(n)) as int + Offset(n)
  {
    match n
    case InvalidBlockingFlag =>
    case InvalidBufferSize =>
    case InvalidBufferGiven =>
    case ObjectDoesntExist =>
    case InvalidArgType =>
    case VoidArgGiven =>
    case ArgNotFound =>
    case BufferNotAllocated =>
    case CantFindParams =>
    case CantCreateContext =>
    case CantCreateProgram =>
    case CantCreateCmdQueue =>
    case CantFindDevice =>
    case CantFindPlatform =>
    case CantFindKernelSource =>
    case CantInitOpenCl =>
    case CantSetNdSize =>
    case CantQueryDeviceParam =>
    case CantQueryPlatformParam =>
    case GenericOpenClError =>
    case DistinctMemObjects =>
    case DistinctMemFlags =>
    case MemObjNotMapped =>
    case MemObjInconsistent =>
    case KernelDoesntExist =>
    case InvalidLocalWgSize =>
    case InvalidGlobalWgSize =>
    case GlobalNotMultipleToLocal =>
    case InvalidNdDimensionality =>
    case InvalidEvent =>
    case WrongParentObject =>
    case TimerInUse =>
    case BufferInUse =>
    case CantSetDefaultObj =>
    case CallingStubAccessor =>
    case CallingUndefAccessor =>
    case ProvidingUndefPtr =>
    case ValueOutOfRange =>
  }

  /** A whole hundred plus an offset below 100 stays in that hundred. */
  lemma SameHundred(v: int, b: int, o: int)
    requires b % 100 == 0 && 1 <= o <= 99 && v == b + o
    ensures v / 100 == b / 100
  {
  }

  /** Decoding a named code's value gives that code back. */
  lemma DecodeValue(n: NamedCode)
    ensures Decode(Value(n)) == Some(n)
  {
  }

  /** Decoding only ever names the code whose value was read. */
  lemma DecodeSound(v: Code)
    ensures Decode(v).Some? ==> Value(Decode(v).value) == v
  {
    if Decode(v).Some? {
      match Decode(v).value
      case InvalidBlockingFlag =>
      case InvalidBufferSize =>
      case InvalidBufferGiven =>
      case ObjectDoesntExist =>
      case InvalidArgType =>
      case VoidArgGiven =>
      case ArgNotFound =>
      case BufferNotAllocated =>
      case CantFindParams =>
      case CantCreateContext =>
      case CantCreateProgram =>
      case CantCreateCmdQueue =>
      case CantFindDevice =>
      case CantFindPlatform =>
      case CantFindKernelSource =>
      case CantInitOpenCl =>
      case CantSetNdSize =>
      case CantQueryDeviceParam =>
      case CantQueryPlatformParam =>
      case GenericOpenClError =>
      case DistinctMemObjects =>
      case DistinctMemFlags =>
      case MemObjNotMapped =>
      case MemObjInconsistent =>
      case KernelDoesntExist =>
      case InvalidLocalWgSize =>
      case InvalidGlobalWgSize =>
      case GlobalNotMultipleToLocal =>
      case InvalidNdDimensionality =>
      case InvalidEvent =>
      case WrongParentObject =>
      case TimerInUse =>
      case BufferInUse =>
      case CantSetDefaultObj =>
      case CallingStubAccessor =>
      case CallingUndefAccessor =>
      case ProvidingUndefPtr =>
      case ValueOutOfRange =>
    }
  }

  /** No two named codes share a value. */
  lemma ValueInjective(a: NamedCode, b: NamedCode)
    requires Value(a) == Value(b)
    ensures a == b
  {
    DecodeValue(a);
    DecodeValue(b);
  }

  /** The out-of-range category skips its first two offsets: its only code
      is 703, and no library code has the value 701 or 702. */
  lemma OutOfRangeGap(n: NamedCode)
    ensures VALUE_OUT_OF_RANGE == 703
    ensures Value(n) != 701 && Value(n) != 702
    ensures Decode(701).None? && Decode(702).None?
  {
  }

  /** Success and the driver codes the core compares against are not library
      codes. */
  lemma DriverCodesUnnamed()
    ensures Decode(CL_SUCCESS).None?
    ensures Decode(CL_DEVICE_NOT_FOUND).None?
    ensures Decode(CL_INVALID_PLATFORM).None?
    ensures Decode(CL_INVALID_MEM_OBJECT).None?
  {
  }
}

=== FILE: common.dfy ===
/** Vocabulary shared by every part of the model: status codes, optional
    values, the answers of driver calls, and the release events that the
    destruction paths append to a trace. */
module Common {

  /** A status code: the library's 32-bit `cl_int`, kept as its bit pattern so
      that the error slot's bitwise OR is exact. Negative driver codes are
      their two's-complement patterns. */
  type Code = bv32

  /** A code that signals failure. */
  type ErrCode = c: Code | c != 0 witness 1

  const CL_SUCCESS: Code := 0

  /** The conventional optional value, used where the library returns a
      pointer that may be null. */
  datatype Option<T> = None | Some(value: T)

  /** What one driver call answers: a value, or a failure code. */
  datatype Answer<T> = Ok(value: T) | Failed(code: ErrCode)

  /** Address-like handles; 0 is the null pointer. */
  type Addr = nat
  type NonNullAddr = a: nat | a != 0 witness 1

  /** The four command queues a steel thread owns. */
  datatype Queue = CmdQueue | HostToDevice | DeviceToHost | DeviceToDevice

  /** Whose resource a release event frees: the thread, the platform node with
      number `p`, device node `d` of platform node `p`, a memory object or a
      kernel. */
  datatype Owner = ThreadObj | PlatformAt(p: nat) | DeviceAt(p: nat, d: nat) | MemObj | KernelObj

  /** One observable step of a destruction path. */
  datatype Event =
    | DestroyError(owner: Owner)
    | DestroyTimer(owner: Owner)
    | DestroyInfo(p: nat)
    | FreeNode(owner: Owner)
    | UnmapMem
    | ReleaseMem
    | ReleaseKernel
    | ReleaseProgram
    | ReleaseQueue(q: Queue)
    | ReleaseContext

  /** How many times `x` occurs in the trace `t`. */
  function Occurrences(t: seq<Event>, x: Event): nat
  {
    if t == [] then 0 else Occurrences(t[..|t| - 1], x) + (if t[|t| - 1] == x then 1 else 0)
  }

  /** Occurrences in a concatenation add up. */
  lemma {:induction false} OccurrencesConcat(a: seq<Event>, b: seq<Event>, x: Event)
    ensures Occurrences(a + b, x) == Occurrences(a, x) + Occurrences(b, x)
    decreases |b|
  {
    if b == [] {
      assert a + b == a;
    } else {
      assert (a + b)[..|a + b| - 1] == a + b[..|b| - 1];
      OccurrencesConcat(a, b[..|b| - 1], x);
    }
  }

  /** How often `x` occurs in a one-event trace. */
  lemma OneOccurrence(a: Event, x: Event)
    ensures Occurrences([a], x) == if x == a then 1 else 0
  {
    assert [a][..0] == [];
  }

  /** How often `x` occurs in a two-event trace. */
  lemma PairOccurrences(a: Event, b: Event, x: Event)
    ensures Occurrences([a, b], x) == (if x == a then 1 else 0) + (if x == b then 1 else 0)
  {
    OneOccurrence(a, x);
    assert [a, b][..1] == [a];
  }

  /** An event the trace does not hold occurs in it zero times. */
  lemma {:induction false} OccurrencesAbsent(t: seq<Event>, x: Event)
    requires x !in t
    ensures Occurrences(t, x) == 0
  {
    if t != [] {
      assert x !in t[..|t| - 1];
      OccurrencesAbsent(t[..|t| - 1], x);
    }
  }

  /** The count is the trace's multiset multiplicity. */
  lemma {:induction false} OccurrencesAreMultiplicity(t: seq<Event>, x: Event)
    ensures Occurrences(t, x) == multiset(t)[x]
  {
    if t != [] {
      OccurrencesAreMultiplicity(t[..|t| - 1], x);
      assert t == t[..|t| - 1] + [t[|t| - 1]];
    }
  }

  /** `n` zero entries: what `calloc` hands back for an id array. */
  function Zeros(n: nat): (r: seq<nat>)
    ensures |r| == n
    ensures forall i :: 0 <= i < n ==> r[i] == 0
  {
    seq(n, _ => 0)
  }

  /** What a driver listing call asked for `n` entries leaves in a zeroed
      buffer when it knows `ids`: at most `n` of them, in order, the rest of
      the buffer still zero. */
  function Fit(ids: seq<nat>, n: nat): (r: seq<nat>)
    ensures |r| == n
    ensures forall i :: 0 <= i < n ==> r[i] == (if i < |ids| then ids[i] else 0)
  {
    if |ids| >= n then ids[..n] else ids + Zeros(n - |ids|)
  }
}

=== FILE: device_lists.dfy ===
/** Device lists of the older design (device.c): navigation, whole-list
    destruction, default selection, the device count query and the
    construction of a platform's device list. */
module DeviceLists {
  import opened Common
  import opened Codes
  import opened Errors
  import opened Nodes

  /** Whether device attributes are gathered while a node is made. */
  datatype DeviceCreationMode = DeviceCreateQuick | DeviceCreateAndGatherInfo

  /** `Device_To_First_Device` on a list, `start` a slot or null. */
  method ToFirstDevice(ds: seq<DeviceNode>, start: Option<nat>) returns (r: Option<nat>)
    requires Chain(DeviceLinks(ds)) && (start.Some? ==> start.value < |ds|)
    ensures start.None? ==> r.None?
    ensures start.Some? ==> r == Some(0) && ds[0].link.prev.None?
  {
    r := ToFirst(DeviceLinks(ds), start);
  }

  /** `Device_To_Last_Device`. */
  method ToLastDevice(ds: seq<DeviceNode>, start: Option<nat>) returns (r: Option<nat>)
    requires Chain(DeviceLinks(ds)) && (start.Some? ==> start.value < |ds|)
    ensures start.None? ==> r.None?
    ensures start.Some? ==> r == Some(|ds| - 1) && ds[|ds| - 1].link.next.None?
  {
    r := ToLast(DeviceLinks(ds), start);
  }

  /** The release trace of the first `n` device nodes of platform `p`, in
      list order: each node's error slot, then the node itself. */
  function DeviceReleaseTrace(p: nat, n: nat): (t: seq<Event>)
    ensures |t| == n + n
    ensures n > 0 ==> t[0] == DestroyError(DeviceAt(p, 0)) && t[1] == FreeNode(DeviceAt(p, 0))
  {
    if n == 0 then [] else DeviceReleaseTrace(p, n - 1) + [DestroyError(DeviceAt(p, n - 1)), FreeNode(DeviceAt(p, n - 1))]
  }

  /** Releasing one more node frees that node and destroys its error slot,
      and nothing else. */
  lemma ReleaseStep(p: nat, n: nat, o: Owner)
    requires n > 0
    ensures Occurrences(DeviceReleaseTrace(p, n), FreeNode(o))
         == Occurrences(DeviceReleaseTrace(p, n - 1), FreeNode(o)) + (if o == DeviceAt(p, n - 1) then 1 else 0)
    ensures Occurrences(DeviceReleaseTrace(p, n), DestroyError(o))
         == Occurrences(DeviceReleaseTrace(p, n - 1), DestroyError(o)) + (if o == DeviceAt(p, n - 1) then 1 else 0)
  {
    var before := DeviceReleaseTrace(p, n - 1);
    var pair := [DestroyError(DeviceAt(p, n - 1)), FreeNode(DeviceAt(p, n - 1))];
    assert DeviceReleaseTrace(p, n) == before + pair;
    OccurrencesConcat(before, pair, FreeNode(o));
    OccurrencesConcat(before, pair, DestroyError(o));
    PairOccurrences(pair[0], pair[1], FreeNode(o));
    PairOccurrences(pair[0], pair[1], DestroyError(o));
  }

  /** Whether `o` is one of the first `n` device nodes of platform `p`. */
  predicate AmongDevices(o: Owner, p: nat, n: nat)
  {
    o.DeviceAt? && o.p == p && o.d < n
  }

  /** Every node of the list is freed exactly once; nothing outside the
      list is freed. */
  lemma {:induction false} DeviceNodesFreedOnce(p: nat, n: nat, o: Owner)
    ensures Occurrences(DeviceReleaseTrace(p, n), FreeNode(o)) == (if AmongDevices(o, p, n) then 1 else 0)
  {
    if n > 0 {
      DeviceNodesFreedOnce(p, n - 1, o);
      ReleaseStep(p, n, o);
      assert AmongDevices(o, p, n) <==> AmongDevices(o, p, n - 1) || o == DeviceAt(p, n - 1);
    }
  }

  /** Every node's error slot is destroyed exactly once, and no other. */
  lemma {:induction false} DeviceErrorsDestroyedOnce(p: nat, n: nat, o: Owner)
    ensures Occurrences(DeviceReleaseTrace(p, n), DestroyError(o)) == (if AmongDevices(o, p, n) then 1 else 0)
  {
    if n > 0 {
      DeviceErrorsDestroyedOnce(p, n - 1, o);
      ReleaseStep(p, n, o);
      assert AmongDevices(o, p, n) <==> AmongDevices(o, p, n - 1) || o == DeviceAt(p, n - 1);
    }
  }

  /** `Device_Destroy` called on any node (`start`, or null) of a device list
      of platform `p`: rewinds to the head, then destroys each node's error
      slot and frees it, following next links to the end. */
  method DestroyDeviceList(ds: seq<DeviceNode>, start: Option<nat>, p: nat) returns (code: Code, trace: seq<Event>)
    requires Chain(DeviceLinks(ds)) && (start.Some? ==> start.value < |ds|)
    ensures code == CL_SUCCESS
    ensures start.None? ==> trace == []
    ensures start.Some? ==> trace == DeviceReleaseTrace(p, |ds|)
  {
    code := CL_SUCCESS;
    trace := [];
    if start.None? {
      return;
    }
    var links := DeviceLinks(ds);
    var cur := ToFirstDevice(ds, start);
    var i := 0;
    while cur.Some?
      invariant 0 <= i <= |ds|
      invariant cur == (if i < |ds| then Some(i) else None)
      invariant trace == DeviceReleaseTrace(p, i)
      decreases |ds| - i
    {
      var next := links[cur.value].next;
      trace := trace + [DestroyError(DeviceAt(p, cur.value)), FreeNode(DeviceAt(p, cur.value))];
      cur := next;
      i := i + 1;
    }
  }

  /** `Device_Make_Default`: the parent platform's default device becomes
      slot `self`; a null device or a missing parent gives
      INVALID_BUFFER_GIVEN with nothing changed. */
  function DeviceMakeDefault(parent: Option<PlatformNode>, self: Option<nat>): (r: (Option<PlatformNode>, Code))
    ensures self.None? || parent.None? ==> r == (parent, INVALID_BUFFER_GIVEN)
    ensures self.Some? && parent.Some? ==> r.1 == CL_SUCCESS && r.0 == Some(parent.value.(defaultDevice := self))
  {
    if self.None? || parent.None? then (parent, INVALID_BUFFER_GIVEN)
    else (Some(parent.value.(defaultDevice := self)), CL_SUCCESS)
  }

  /** `Get_Device_Num`: stores the driver's device count in the platform. The
      driver's "no device found" becomes a zero count and CANT_FIND_DEVICE;
      any other driver failure becomes GENERIC_OPENCL_ERROR with the count
      left as it was; a null platform gives INVALID_BUFFER_GIVEN. */
  function GetDeviceNum(parent: Option<PlatformNode>, count: Answer<nat>): (r: (Option<PlatformNode>, Code))
    ensures parent.None? ==> r == (None, INVALID_BUFFER_GIVEN)
    ensures parent.Some? ==> r.0.Some? && r.0.value.(wantedDevicesNum := parent.value.wantedDevicesNum) == parent.value
    ensures parent.Some? && count.Ok? ==> r.1 == CL_SUCCESS && r.0.value.wantedDevicesNum == count.value
    ensures parent.Some? && count == Failed(CL_DEVICE_NOT_FOUND) ==> r.1 == CANT_FIND_DEVICE && r.0.value.wantedDevicesNum == 0
    ensures parent.Some? && count.Failed? && count.code != CL_DEVICE_NOT_FOUND ==> r == (parent, GENERIC_OPENCL_ERROR)
  {
    if parent.None? then (None, INVALID_BUFFER_GIVEN)
    else match count
      case Ok(n) => (Some(parent.value.(wantedDevicesNum := n)), CL_SUCCESS)
      case Failed(c) =>
        if c == CL_DEVICE_NOT_FOUND then (Some(parent.value.(wantedDevicesNum := 0)), CANT_FIND_DEVICE)
        else (parent, GENERIC_OPENCL_ERROR)
  }

  /** Asking twice with the same driver answer is asking once, and the
      count it stores is the driver's count, 0 when the driver found no
      device, and otherwise the earlier count. */
  lemma GetDeviceNumTwice(parent: PlatformNode, count: Answer<nat>)
    ensures GetDeviceNum(GetDeviceNum(Some(parent), count).0, count) == GetDeviceNum(Some(parent), count)
    ensures GetDeviceNum(Some(parent), count).0.value.wantedDevicesNum
      == match count
         case Ok(n) => n
         case Failed(c) => if c == CL_DEVICE_NOT_FOUND then 0 else parent.wantedDevicesNum
  {
  }

  /** `Make_List_Element` for device `number` of platform `p`, with
      `gatherOk` the outcome of gathering its attributes: a quick node is
      made without queries; otherwise a failed query destroys the node and
      yields null. A made node is unlinked and has a fresh error slot. */
  function MakeListElement(parentPresent: bool, p: nat, mode: DeviceCreationMode, id: nat, number: nat, gatherOk: bool): (r: (Option<DeviceNode>, seq<Event>))
    ensures r.0.Some? <==> parentPresent && (mode == DeviceCreateQuick || gatherOk)
    ensures r.0.Some? ==> r.1 == [] && r.0.value == DeviceNode(id, number, Link(None, None), MakeError(), mode != DeviceCreateQuick)
    ensures !parentPresent ==> r == (None, [])
    ensures parentPresent && r.0.None? ==> r.1 == [DestroyError(DeviceAt(p, number)), FreeNode(DeviceAt(p, number))]
  {
    if !parentPresent then (None, [])
    else if mode != DeviceCreateQuick && !gatherOk then (None, [DestroyError(DeviceAt(p, number)), FreeNode(DeviceAt(p, number))])
    else (Some(DeviceNode(id, number, Link(None, None), MakeError(), mode != DeviceCreateQuick)), [])
  }

  /** What Make_Devices hands back: a list, null, or (as written) a pointer
      to node `number`, which it has just freed. */
  datatype DevicesOutcome = DeviceList(nodes: seq<DeviceNode>) | NoList | DanglingNode(number: nat)

  /** Slot `i` of the device list built from the ids `ids`. */
  function ExpectedDevice(ids: seq<nat>, i: nat, mode: DeviceCreationMode): DeviceNode
    requires i < |ids|
  {
    DeviceNode(ids[i], i, ChainLink(i, |ids|), MakeError(), mode != DeviceCreateQuick)
  }

  /** The first device number whose node cannot be made, or `n`. */
  function FirstFailing(mode: DeviceCreationMode, gatherOk: nat -> bool, i: nat, n: nat): (f: nat)
    requires i <= n
    ensures i <= f <= n
    ensures f < n ==> mode != DeviceCreateQuick && !gatherOk(f)
    ensures forall j :: i <= j < f ==> mode == DeviceCreateQuick || gatherOk(j)
    decreases n - i
  {
    if i == n then n
    else if mode != DeviceCreateQuick && !gatherOk(i) then i
    else FirstFailing(mode, gatherOk, i + 1, n)
  }

  /** The clean-up when node `f` cannot be made: that node destroys itself,
      then the nodes already linked are released from the head. */
  function FailureTrace(p: nat, f: nat): (t: seq<Event>)
    ensures |t| == 2 * f + 2 && t[0] == DestroyError(DeviceAt(p, f)) && t[1] == FreeNode(DeviceAt(p, f))
  {
    [DestroyError(DeviceAt(p, f)), FreeNode(DeviceAt(p, f))] + DeviceReleaseTrace(p, f)
  }

  /** The clean-up frees each of the nodes 0..f it made exactly once, and no
      other node. */
  lemma FailureFreesEachOnce(p: nat, f: nat, o: Owner)
    ensures Occurrences(FailureTrace(p, f), FreeNode(o)) == (if AmongDevices(o, p, f + 1) then 1 else 0)
    ensures Occurrences(FailureTrace(p, f), DestroyError(o)) == (if AmongDevices(o, p, f + 1) then 1 else 0)
  {
    DeviceNodesFreedOnce(p, f, o);
    DeviceErrorsDestroyedOnce(p, f, o);
    var pair := [DestroyError(DeviceAt(p, f)), FreeNode(DeviceAt(p, f))];
    assert FailureTrace(p, f) == pair + DeviceReleaseTrace(p, f);
    OccurrencesConcat(pair, DeviceReleaseTrace(p, f), FreeNode(o));
    OccurrencesConcat(pair, DeviceReleaseTrace(p, f), DestroyError(o));
    PairOccurrences(pair[0], pair[1], FreeNode(o));
    PairOccurrences(pair[0], pair[1], DestroyError(o));
    assert AmongDevices(o, p, f + 1) <==> AmongDevices(o, p, f) || o == DeviceAt(p, f);
  }

  /** The device list made from the ids `ids`, numbered and linked in order. */
  function DeviceListOf(ids: seq<nat>, mode: DeviceCreationMode): (ds: seq<DeviceNode>)
    ensures |ds| == |ids| && Chain(DeviceLinks(ds))
    ensures forall i :: 0 <= i < |ds| ==> ds[i].device == ids[i] && ds[i].number == i && ds[i].error == MakeError()
  {
    var ds := seq(|ids|, i requires 0 <= i < |ids| => ExpectedDevice(ids, i, mode));
    assert forall i :: 0 <= i < |ds| ==> DeviceLinks(ds)[i] == ChainLink(i, |ds|);
    ds
  }

  /** What Make_Devices releases for `n` wanted devices: nothing when it
      stops before making a node, otherwise the clean-up after the first node
      that cannot be made, if any. */
  function DevicesCleanUp(p: nat, n: nat, mode: DeviceCreationMode, listing: Answer<seq<nat>>, gatherOk: nat -> bool): seq<Event>
  {
    if n == 0 || listing.Failed? then []
    else
      var f := FirstFailing(mode, gatherOk, 0, n);
      if f < n then FailureTrace(p, f) else []
  }

  /** The platform after Get_Device_Num, and the CANT_FIND_DEVICE note
      Make_Devices leaves in its error slot when the driver found no device. */
  function WithCount(parent: PlatformNode, count: Answer<nat>): (r: PlatformNode)
    ensures r.(wantedDevicesNum := parent.wantedDevicesNum, error := parent.error) == parent
    ensures count.Ok? ==> r.wantedDevicesNum == count.value && r.error == parent.error
    ensures count == Failed(CL_DEVICE_NOT_FOUND) ==> r.wantedDevicesNum == 0 && r.error == Record(parent.error, CANT_FIND_DEVICE)
    ensures count.Failed? && count.code != CL_DEVICE_NOT_FOUND ==> r == parent
  {
    var counted := GetDeviceNum(Some(parent), count);
    var q := counted.0.value;
    if q.wantedDevicesNum == 0 && counted.1 == CANT_FIND_DEVICE then q.(error := Record(q.error, CANT_FIND_DEVICE)) else q
  }

  /** The shared part of Make_Devices, for platform `p`, with the driver's
      count and listing answers and the per-device gathering outcomes.
      Returns the updated platform, the completed list (if any), the
      release trace of any clean-up, and whether a node after the first
      failed (the branch where the two variants differ). */
  method BuildDevices(parent: Option<PlatformNode>, p: nat, mode: DeviceCreationMode, count: Answer<nat>,
                      listing: Answer<seq<nat>>, gatherOk: nat -> bool)
    returns (parent': Option<PlatformNode>, nodes: Option<seq<DeviceNode>>, trace: seq<Event>, laterFailure: bool)
    ensures parent.None? ==> parent' == None && nodes == None && trace == [] && !laterFailure
    ensures parent.Some? ==> parent' == Some(WithCount(parent.value, count))
    ensures parent.Some? ==>
      var n := WithCount(parent.value, count).wantedDevicesNum;
      if n == 0 || listing.Failed? then nodes == None && trace == [] && !laterFailure
      else
        var f := FirstFailing(mode, gatherOk, 0, n);
        if f < n then nodes == None && trace == FailureTrace(p, f) && laterFailure == (f > 0)
        else nodes.Some? && trace == [] && !laterFailure && |nodes.value| == n
             && forall i :: 0 <= i < n ==> nodes.value[i] == ExpectedDevice(Fit(listing.value, n), i, mode)
  {
    laterFailure := false;
    trace := [];
    nodes := None;
    if parent.None? {
      parent' := None;
      return;
    }
    parent' := Some(WithCount(parent.value, count));
    var n := parent'.value.wantedDevicesNum;
    if n == 0 || listing.Failed? {
      return;
    }
    var ids := Fit(listing.value, n);
    var root := MakeListElement(true, p, mode, ids[0], 0, gatherOk(0));
    if root.0.None? {
      trace := root.1;
      return;
    }
    var built: seq<DeviceNode> := [root.0.value.(link := ChainLink(0, 1))];
    var i := 1;
    while i < n
      invariant 1 <= i <= n
      invariant |built| == i
      invariant forall j :: 0 <= j < i ==> built[j] == ExpectedDevice(ids[..i], j, mode)
      invariant FirstFailing(mode, gatherOk, 0, n) == FirstFailing(mode, gatherOk, i, n)
    {
      var e := MakeListElement(true, p, mode, ids[i], i, gatherOk(i));
      if e.0.None? {
        var released := DeviceReleaseTrace(p, i);
        trace := e.1 + released;
        laterFailure := true;
        return;
      }
      built := built[i - 1 := built[i - 1].(link := ChainLink(i - 1, i + 1))] + [e.0.value.(link := ChainLink(i, i + 1))];
      i := i + 1;
    }
    assert ids[..n] == ids;
    nodes := Some(built);
  }

  /** `Make_Devices` as written (device.c:587-591): when node `f > 0` cannot
      be made, the list is destroyed but the pointer to its last node, number
      `f - 1`, is returned although that node has just been freed. Its trace
      is the corrected version's clean-up. */
  method MakeDevicesAsWritten(parent: Option<PlatformNode>, p: nat, mode: DeviceCreationMode, count: Answer<nat>,
                              listing: Answer<seq<nat>>, gatherOk: nat -> bool)
    returns (parent': Option<PlatformNode>, outcome: DevicesOutcome, trace: seq<Event>)
    ensures outcome.DanglingNode? <==>
      (parent.Some? && listing.Ok?
       && 0 < FirstFailing(mode, gatherOk, 0, WithCount(parent.value, count).wantedDevicesNum) < WithCount(parent.value, count).wantedDevicesNum)
    ensures outcome.DanglingNode? ==>
      outcome.number + 1 == FirstFailing(mode, gatherOk, 0, WithCount(parent.value, count).wantedDevicesNum)
      && Occurrences(trace, FreeNode(DeviceAt(p, outcome.number))) == 1
    ensures parent.None? ==> parent' == None && outcome == NoList && trace == []
    ensures parent.Some? ==> parent' == Some(WithCount(parent.value, count))
    ensures parent.Some? ==> trace == DevicesCleanUp(p, WithCount(parent.value, count).wantedDevicesNum, mode, listing, gatherOk)
  {
    var nodes, later;
    parent', nodes, trace, later := BuildDevices(parent, p, mode, count, listing, gatherOk);
    if nodes.Some? {
      outcome := DeviceList(nodes.value);
    } else if later {
      var f := FirstFailing(mode, gatherOk, 0, parent'.value.wantedDevicesNum);
      FailureFreesEachOnce(p, f, DeviceAt(p, f - 1));
      outcome := DanglingNode(f - 1);
    } else {
      outcome := NoList;
    }
  }

  /** `Make_Devices` returning null whenever the list could not be completed.
      The list holds the driver's ids numbered 0..n-1 in order with
      consistent links; it exists exactly when the count is positive, the
      listing succeeds and every node can be made. A zero count leaves
      CANT_FIND_DEVICE in the platform's error slot when the driver reported
      that no device was found. A failure frees every node made so far. */
  method MakeDevices(parent: Option<PlatformNode>, p: nat, mode: DeviceCreationMode, count: Answer<nat>,
                     listing: Answer<seq<nat>>, gatherOk: nat -> bool)
    returns (parent': Option<PlatformNode>, nodes: Option<seq<DeviceNode>>, trace: seq<Event>)
    ensures parent.None? ==> parent' == None && nodes == None && trace == []
    ensures parent.Some? ==> parent' == Some(WithCount(parent.value, count))
    ensures nodes.Some? <==>
      (parent.Some? && WithCount(parent.value, count).wantedDevicesNum > 0 && listing.Ok?
       && forall j :: 0 <= j < WithCount(parent.value, count).wantedDevicesNum ==> mode == DeviceCreateQuick || gatherOk(j))
    ensures nodes.Some? ==>
      (DeviceListOk(nodes.value) && |nodes.value| == WithCount(parent.value, count).wantedDevicesNum && trace == []
       && forall i :: 0 <= i < |nodes.value| ==> nodes.value[i].number == i && nodes.value[i].device == Fit(listing.value, |nodes.value|)[i])
    ensures nodes.Some? ==> nodes.value == DeviceListOf(Fit(listing.value, |nodes.value|), mode)
    ensures parent.Some? && (WithCount(parent.value, count).wantedDevicesNum == 0 || listing.Failed?) ==> nodes.None? && trace == []
    ensures parent.Some? ==> trace == DevicesCleanUp(p, WithCount(parent.value, count).wantedDevicesNum, mode, listing, gatherOk)
  {
    var later;
    parent', nodes, trace, later := BuildDevices(parent, p, mode, count, listing, gatherOk);
    if nodes.Some? {
      var ds := nodes.value;
      var expected := DeviceListOf(Fit(listing.value, |ds|), mode);
      assert forall i :: 0 <= i < |ds| ==> ds[i] == expected[i];
      assert ds == expected;
    }
  }

  /** Three devices, the second of which cannot be queried: as written,
      Make_Devices frees the first node and returns a pointer to it; the
      corrected version returns null. Both leave the same trace, which frees
      the two nodes they made exactly once. */
  method LaterFailureReturnsFreedNode(parent: PlatformNode)
    returns (written: DevicesOutcome, corrected: Option<seq<DeviceNode>>, trace: seq<Event>, writtenTrace: seq<Event>)
    ensures written == DanglingNode(0) && corrected == None
    ensures trace == [DestroyError(DeviceAt(3, 1)), FreeNode(DeviceAt(3, 1)), DestroyError(DeviceAt(3, 0)), FreeNode(DeviceAt(3, 0))]
    ensures writtenTrace == trace && FreeNode(DeviceAt(3, written.number)) in writtenTrace
  {
    var gatherOk := (j: nat) => j != 1;
    assert FirstFailing(DeviceCreateAndGatherInfo, gatherOk, 1, 3) == 1;
    assert FirstFailing(DeviceCreateAndGatherInfo, gatherOk, 0, 3) == 1;
    var p1;
    p1, written, writtenTrace := MakeDevicesAsWritten(Some(parent), 3, DeviceCreateAndGatherInfo, Ok(3), Ok([10, 11, 12]), gatherOk);
    var p2;
    p2, corrected, trace := MakeDevices(Some(parent), 3, DeviceCreateAndGatherInfo, Ok(3), Ok([10, 11, 12]), gatherOk);
    assert DeviceReleaseTrace(3, 1) == [DestroyError(DeviceAt(3, 0)), FreeNode(DeviceAt(3, 0))];
  }
}

=== FILE: devices.dfy ===
/** The process-wide device registry (devices.c): one flat array of CPU ids
    and one of GPU ids, each the concatenation of the per-platform lists in
    platform order, with their counts; and the lookups over them. A device or
    platform id is a `nat`, 0 standing for null. */
module Devices {
  import opened Common
  import opened Codes
  import opened Platforms

  /** The two device kinds the registry keeps. */
  datatype Kind = Cpu | Gpu

  /** A requested device type: one of the two kinds, or anything else. */
  datatype DeviceType = OfKind(kind: Kind) | OtherType

  /** A global array pointer: null, a live array, or a pointer left pointing
      at memory that was already freed. */
  datatype ArrayPtr = NullArray | Live(items: seq<nat>) | Dangling

  /** `g_all_CPU_num`, `g_all_GPU_num`, `g_all_CPU_list`, `g_all_GPU_list`. */
  datatype DeviceRegistry = DeviceRegistry(cpuNum: nat, gpuNum: nat, cpuList: ArrayPtr, gpuList: ArrayPtr)

  const EmptyDevices := DeviceRegistry(0, 0, NullArray, NullArray)

  /** The driver's answers for one platform: the count query and the listing
      query, per kind. */
  datatype PlatformAnswer = PlatformAnswer(cpuCount: Answer<nat>, cpuIds: Answer<seq<nat>>,
                                           gpuCount: Answer<nat>, gpuIds: Answer<seq<nat>>)

  function CountAnswer(a: PlatformAnswer, k: Kind): Answer<nat>
  {
    if k == Cpu then a.cpuCount else a.gpuCount
  }

  function IdsAnswer(a: PlatformAnswer, k: Kind): Answer<seq<nat>>
  {
    if k == Cpu then a.cpuIds else a.gpuIds
  }

  function Num(d: DeviceRegistry, k: Kind): nat
  {
    if k == Cpu then d.cpuNum else d.gpuNum
  }

  function List(d: DeviceRegistry, k: Kind): ArrayPtr
  {
    if k == Cpu then d.cpuList else d.gpuList
  }

  /** A count and its array agree: a live array holds exactly `num` ids, and a
      null or dangling pointer goes with a zero count. */
  predicate SideOk(ptr: ArrayPtr, num: nat)
  {
    match ptr
    case Live(items) => |items| == num
    case _ => num == 0
  }

  predicate WellFormed(d: DeviceRegistry)
  {
    SideOk(d.cpuList, d.cpuNum) && SideOk(d.gpuList, d.gpuNum)
  }

  // ---------------------------------------------------------------------
  // Counting pass

  /** What `Get_Num_Devices` returns for a null platform: the value of
      CANT_FIND_PLATFORM, read back as a device count. */
  const NULL_PLATFORM_COUNT: nat := 306

  lemma NullPlatformCountIsCode()
    ensures NULL_PLATFORM_COUNT as Code == CANT_FIND_PLATFORM
  {
  }

  /** `Get_Num_Devices` for one platform and kind: the count stored for the
      platform, and what it adds to the global count. A null platform reports
      NULL_PLATFORM_COUNT and adds nothing; a failed query reports and adds
      0; otherwise the driver's count is both. */
  function CountOf(pid: nat, ans: Answer<nat>): (r: (nat, nat))
    ensures pid == 0 ==> r == (NULL_PLATFORM_COUNT, 0)
    ensures pid != 0 ==> r.0 == r.1
    ensures r.1 > 0 ==> pid != 0 && ans == Ok(r.1)
  {
    if pid == 0 then (NULL_PLATFORM_COUNT, 0)
    else match ans
      case Ok(n) => (n, n)
      case Failed(_) => (0, 0)
  }

  /** The per-platform count stored in `num_cpus`/`num_gpus`. */
  function Stored(pid: nat, answers: nat -> PlatformAnswer, k: Kind): nat
  {
    CountOf(pid, CountAnswer(answers(pid), k)).0
  }

  /** What the counting pass adds to the global count of kind `k`. */
  function Added(ids: seq<nat>, answers: nat -> PlatformAnswer, k: Kind): nat
  {
    if ids == [] then 0 else CountOf(ids[0], CountAnswer(answers(ids[0]), k)).1 + Added(ids[1..], answers, k)
  }

  // ---------------------------------------------------------------------
  // Listing pass

  /** `Get_Devices` for one platform and kind: nothing is asked for a zero
      stored count; a null platform is refused by the driver
      (CL_INVALID_PLATFORM); otherwise the driver fills exactly the stored
      count of slots. */
  function Listed(pid: nat, a: PlatformAnswer, k: Kind): (r: Answer<seq<nat>>)
    ensures r.Ok? ==> |r.value| == CountOf(pid, CountAnswer(a, k)).1
  {
    var n := CountOf(pid, CountAnswer(a, k)).0;
    if n == 0 then Ok([])
    else if pid == 0 then Failed(CL_INVALID_PLATFORM)
    else match IdsAnswer(a, k)
      case Ok(ids) => Ok(Fit(ids, n))
      case Failed(c) => Failed(c)
  }

  /** Every listing the second pass performs succeeds. */
  predicate AllListed(ids: seq<nat>, answers: nat -> PlatformAnswer)
  {
    forall i :: 0 <= i < |ids| ==> Listed(ids[i], answers(ids[i]), Cpu).Ok? && Listed(ids[i], answers(ids[i]), Gpu).Ok?
  }

  /** Once the first platform's listings succeed, all succeed exactly when
      those of the remaining platforms do. */
  lemma AllListedTail(ids: seq<nat>, answers: nat -> PlatformAnswer)
    requires |ids| > 0
    requires Listed(ids[0], answers(ids[0]), Cpu).Ok? && Listed(ids[0], answers(ids[0]), Gpu).Ok?
    ensures AllListed(ids, answers) <==> AllListed(ids[1..], answers)
  {
    if AllListed(ids[1..], answers) {
      forall i | 0 <= i < |ids|
        ensures Listed(ids[i], answers(ids[i]), Cpu).Ok? && Listed(ids[i], answers(ids[i]), Gpu).Ok?
      {
        if i > 0 { assert ids[i] == ids[1..][i - 1]; }
      }
    }
    if AllListed(ids, answers) {
      forall i | 0 <= i < |ids[1..]|
        ensures Listed(ids[1..][i], answers(ids[1..][i]), Cpu).Ok? && Listed(ids[1..][i], answers(ids[1..][i]), Gpu).Ok?
      {
        assert ids[1..][i] == ids[i + 1];
      }
    }
  }

  /** The ids written by the second pass, per kind, and its code: for each
      platform in order the CPU listing then the GPU listing; the first
      failure ends the pass with CANT_FIND_DEVICE, keeping what was written
      before it. What is written never exceeds what the counting pass
      added. */
  function Fill(ids: seq<nat>, answers: nat -> PlatformAnswer): (r: (seq<nat>, seq<nat>, Code))
    ensures |r.0| <= Added(ids, answers, Cpu) && |r.1| <= Added(ids, answers, Gpu)
    ensures r.2 != CL_SUCCESS ==> r.2 == CANT_FIND_DEVICE
    ensures r.2 == CL_SUCCESS ==> |r.0| == Added(ids, answers, Cpu) && |r.1| == Added(ids, answers, Gpu)
    decreases |ids|
  {
    if ids == [] then ([], [], CL_SUCCESS)
    else
      var c := Listed(ids[0], answers(ids[0]), Cpu);
      if c.Failed? then ([], [], CANT_FIND_DEVICE)
      else
        var g := Listed(ids[0], answers(ids[0]), Gpu);
        if g.Failed? then (c.value, [], CANT_FIND_DEVICE)
        else
          var rest := Fill(ids[1..], answers);
          (c.value + rest.0, g.value + rest.1, rest.2)
  }

  /** The listing pass succeeds exactly when every one of its listings
      does. */
  lemma {:induction false} FillSucceeds(ids: seq<nat>, answers: nat -> PlatformAnswer)
    ensures Fill(ids, answers).2 == CL_SUCCESS <==> AllListed(ids, answers)
    decreases |ids|
  {
    if ids != [] {
      if HeadListed(ids, answers) {
        AllListedTail(ids, answers);
        FillSucceeds(ids[1..], answers);
      } else {
        assert !AllListed(ids, answers);
      }
    }
  }

  function Part(f: (seq<nat>, seq<nat>, Code), k: Kind): seq<nat>
  {
    if k == Cpu then f.0 else f.1
  }

  /** When every listing succeeds, platform `i`'s devices of kind `k` sit in
      the flat list right after those of all earlier platforms: the flat list
      is the per-platform lists concatenated in platform order. */
  lemma {:induction false} FillLayout(ids: seq<nat>, answers: nat -> PlatformAnswer, k: Kind, i: nat, j: nat)
    requires AllListed(ids, answers)
    requires i < |ids| && j < CountOf(ids[i], CountAnswer(answers(ids[i]), k)).1
    ensures Added(ids[..i], answers, k) + j < |Part(Fill(ids, answers), k)|
    ensures Part(Fill(ids, answers), k)[Added(ids[..i], answers, k) + j] == Listed(ids[i], answers(ids[i]), k).value[j]
    decreases i
  {
    if i == 0 {
      FillLayoutHead(ids, answers, k, j);
    } else {
      AllListedTail(ids, answers);
      assert ids[1..][i - 1] == ids[i];
      FillLayout(ids[1..], answers, k, i - 1, j);
      FillLayoutShift(ids, answers, k, i, j);
    }
  }

  /** Both listings of the first platform succeed. */
  predicate HeadListed(ids: seq<nat>, answers: nat -> PlatformAnswer)
    requires |ids| > 0
  {
    Listed(ids[0], answers(ids[0]), Cpu).Ok? && Listed(ids[0], answers(ids[0]), Gpu).Ok?
  }

  /** The flat list starts with the first platform's listing. */
  lemma FillHead(ids: seq<nat>, answers: nat -> PlatformAnswer, k: Kind)
    requires |ids| > 0 && HeadListed(ids, answers)
    ensures Part(Fill(ids, answers), k) == Listed(ids[0], answers(ids[0]), k).value + Part(Fill(ids[1..], answers), k)
  {
  }

  /** `FillLayout` for the first platform. */
  lemma FillLayoutHead(ids: seq<nat>, answers: nat -> PlatformAnswer, k: Kind, j: nat)
    requires |ids| > 0 && HeadListed(ids, answers)
    requires j < CountOf(ids[0], CountAnswer(answers(ids[0]), k)).1
    ensures Added(ids[..0], answers, k) + j < |Part(Fill(ids, answers), k)|
    ensures Part(Fill(ids, answers), k)[Added(ids[..0], answers, k) + j] == Listed(ids[0], answers(ids[0]), k).value[j]
  {
    FillHead(ids, answers, k);
    assert ids[..0] == [];
  }

  /** `FillLayout` for a later platform, from its place in the rest of the
      list. */
  lemma FillLayoutShift(ids: seq<nat>, answers: nat -> PlatformAnswer, k: Kind, i: nat, j: nat)
    requires 0 < i < |ids| && HeadListed(ids, answers)
    requires Added(ids[1..][..i - 1], answers, k) + j < |Part(Fill(ids[1..], answers), k)|
    requires Listed(ids[1..][i - 1], answers(ids[1..][i - 1]), k).Ok?
    requires j < |Listed(ids[1..][i - 1], answers(ids[1..][i - 1]), k).value|
    requires Part(Fill(ids[1..], answers), k)[Added(ids[1..][..i - 1], answers, k) + j]
          == Listed(ids[1..][i - 1], answers(ids[1..][i - 1]), k).value[j]
    ensures Added(ids[..i], answers, k) + j < |Part(Fill(ids, answers), k)|
    ensures Listed(ids[i], answers(ids[i]), k).Ok? && j < |Listed(ids[i], answers(ids[i]), k).value|
    ensures Part(Fill(ids, answers), k)[Added(ids[..i], answers, k) + j] == Listed(ids[i], answers(ids[i]), k).value[j]
  {
    assert ids[1..][i - 1] == ids[i];
    FillHead(ids, answers, k);
    AddedShift(ids, answers, k, i);
    IndexShift(Listed(ids[0], answers(ids[0]), k).value, Part(Fill(ids[1..], answers), k), Added(ids[1..][..i - 1], answers, k) + j);
  }

  /** The first `i` platforms add the first one's count plus what the next
      `i - 1` add. */
  lemma AddedShift(ids: seq<nat>, answers: nat -> PlatformAnswer, k: Kind, i: nat)
    requires 0 < i <= |ids|
    ensures Added(ids[..i], answers, k) == CountOf(ids[0], CountAnswer(answers(ids[0]), k)).1 + Added(ids[1..][..i - 1], answers, k)
  {
    assert ids[..i][1..] == ids[1..][..i - 1];
  }

  /** Indexing past a prefix indexes the rest. */
  lemma IndexShift(head: seq<nat>, rest: seq<nat>, m: nat)
    requires m < |rest|
    ensures |head| + m < |head + rest| && (head + rest)[|head| + m] == rest[m]
  {
  }

  // ---------------------------------------------------------------------
  // Collection

  /** Writes the ids the second pass produced into the front of an array the
      first pass allocated zeroed; None when they do not fit (a write past
      the end of the heap block, or through a null pointer). */
  function Place(ptr: ArrayPtr, written: seq<nat>): Option<ArrayPtr>
  {
    if written == [] then Some(ptr)
    else if ptr.Live? && |written| <= |ptr.items| then Some(Live(written + ptr.items[|written|..]))
    else None
  }

  /** The ids the registry holds for platform listing `p`: its first `num`
      entries. */
  function PlatformIds(p: PlatformRegistry): seq<nat>
    requires p.list.Some? ==> |p.list.value| >= p.num
  {
    if p.list.None? then [] else p.list.value[..p.num]
  }

  /** How the GPU array is sized: with the CPU count, as written
      (devices.c:142), or with the GPU count. */
  datatype GpuSizing = SizedByCpuCount | SizedByGpuCount

  datatype CollectOutcome = Collected(reg: DeviceRegistry, code: Code) | HeapOverflow

  /** `Collect_Devices_List` with the GPU array sized either way. An empty
      platform registry gives CANT_FIND_PLATFORM with nothing changed. The
      counting pass adds every platform's counts to the global counts, which
      are not reset first. An array is allocated, zeroed, for each kind whose
      global count is non-zero. A zero total gives CANT_FIND_DEVICE; otherwise
      the listing pass fills the arrays. */
  function CollectWith(d: DeviceRegistry, p: PlatformRegistry, answers: nat -> PlatformAnswer, sizing: GpuSizing): CollectOutcome
    requires p.list.Some? ==> |p.list.value| >= p.num
  {
    if p.num == 0 || p.list.None? then Collected(d, CANT_FIND_PLATFORM)
    else
      var ids := PlatformIds(p);
      var cpuNum := d.cpuNum + Added(ids, answers, Cpu);
      var gpuNum := d.gpuNum + Added(ids, answers, Gpu);
      var cpuPtr := if cpuNum != 0 then Live(Zeros(cpuNum)) else d.cpuList;
      var gpuPtr := if gpuNum != 0 then Live(Zeros(if sizing == SizedByCpuCount then cpuNum else gpuNum)) else d.gpuList;
      if cpuNum + gpuNum == 0 then Collected(DeviceRegistry(cpuNum, gpuNum, cpuPtr, gpuPtr), CANT_FIND_DEVICE)
      else
        var f := Fill(ids, answers);
        match (Place(cpuPtr, f.0), Place(gpuPtr, f.1))
        case (Some(c), Some(g)) => Collected(DeviceRegistry(cpuNum, gpuNum, c, g), f.2)
        case _ => HeapOverflow
  }

  /** `Collect_Devices_List` as written: the GPU array gets the CPU count.
      The listing writes past it only when more GPUs than CPUs were counted;
      otherwise it reports what the corrected collection reports, with the
      same counts and the same CPU array. */
  function CollectDevicesListAsWritten(d: DeviceRegistry, p: PlatformRegistry, answers: nat -> PlatformAnswer): (r: CollectOutcome)
    requires p.list.Some? ==> |p.list.value| >= p.num
    ensures p.num == 0 || p.list.None? ==> r == Collected(d, CANT_FIND_PLATFORM)
    ensures r.HeapOverflow? ==>
      p.num > 0 && p.list.Some? && Added(PlatformIds(p), answers, Gpu) > d.cpuNum + Added(PlatformIds(p), answers, Cpu)
    ensures r.Collected? ==> var c := CollectDevicesList(d, p, answers);
      r.code == c.1 && r.reg.cpuNum == c.0.cpuNum && r.reg.gpuNum == c.0.gpuNum && r.reg.cpuList == c.0.cpuList
  {
    CollectWith(d, p, answers, SizedByCpuCount)
  }

  /** `Collect_Devices_List` with the GPU array sized by the GPU count. No
      write leaves its array; the counts grow by what the platforms report;
      the call succeeds exactly when there are platforms, some device, and
      every listing succeeds; and a well-formed registry stays well-formed. */
  function CollectDevicesList(d: DeviceRegistry, p: PlatformRegistry, answers: nat -> PlatformAnswer): (r: (DeviceRegistry, Code))
    requires p.list.Some? ==> |p.list.value| >= p.num
    ensures p.num == 0 || p.list.None? ==> r == (d, CANT_FIND_PLATFORM)
    ensures p.num > 0 && p.list.Some? ==>
      r.0.cpuNum == d.cpuNum + Added(PlatformIds(p), answers, Cpu) && r.0.gpuNum == d.gpuNum + Added(PlatformIds(p), answers, Gpu)
    ensures p.num > 0 && p.list.Some? && r.0.cpuNum + r.0.gpuNum == 0 ==> r.1 == CANT_FIND_DEVICE
    ensures r.1 == CL_SUCCESS <==> p.num > 0 && p.list.Some? && r.0.cpuNum + r.0.gpuNum > 0 && AllListed(PlatformIds(p), answers)
    ensures r.1 != CL_SUCCESS ==> r.1 == CANT_FIND_PLATFORM || r.1 == CANT_FIND_DEVICE
    ensures WellFormed(d) ==> WellFormed(r.0)
  {
    var o := CollectWith(d, p, answers, SizedByGpuCount);
    FillSucceeds(PlatformIds(p), answers);
    if o.Collected? then (o.reg, o.code)
    else
      // Unreachable: every write fits (the bounds on `Fill`).
      assert false; (d, CANT_FIND_DEVICE)
  }

  /** After a successful collection into an empty registry, the flat list of
      each kind holds platform `i`'s devices right after those of the
      platforms before it, and nothing else. */
  lemma CollectLayout(p: PlatformRegistry, answers: nat -> PlatformAnswer, k: Kind, i: nat, j: nat)
    requires p.list.Some? && |p.list.value| >= p.num
    requires CollectDevicesList(EmptyDevices, p, answers).1 == CL_SUCCESS
    requires i < p.num && j < CountOf(p.list.value[i], CountAnswer(answers(p.list.value[i]), k)).1
    ensures var r := CollectDevicesList(EmptyDevices, p, answers).0;
      var ids := PlatformIds(p);
      List(r, k).Live? && |List(r, k).items| == Num(r, k) == Added(ids, answers, k)
      && Added(ids[..i], answers, k) + j < |List(r, k).items|
      && List(r, k).items[Added(ids[..i], answers, k) + j] == Listed(ids[i], answers(ids[i]), k).value[j]
  {
    var ids := PlatformIds(p);
    assert ids[i] == p.list.value[i];
    FillLayout(ids, answers, k, i, j);
  }

  /** The counts are not reset: collecting twice counts every device twice. */
  lemma CollectDoubleCounts(d: DeviceRegistry, p: PlatformRegistry, answers: nat -> PlatformAnswer)
    requires p.list.Some? && |p.list.value| >= p.num > 0
    ensures var r := CollectDevicesList(CollectDevicesList(d, p, answers).0, p, answers).0;
      r.cpuNum == d.cpuNum + 2 * Added(PlatformIds(p), answers, Cpu)
      && r.gpuNum == d.gpuNum + 2 * Added(PlatformIds(p), answers, Gpu)
  {
  }

  /** The driver's answers for a platform with no CPU and one GPU, id 42. */
  function OneGpu(pid: nat): PlatformAnswer
  {
    PlatformAnswer(Ok(0), Ok([]), Ok(1), Ok([42]))
  }

  /** The listing pass over the one platform 7 that answers `OneGpu`. */
  lemma OneGpuFill()
    ensures Added([7], OneGpu, Cpu) == 0 && Added([7], OneGpu, Gpu) == 1
    ensures Fill([7], OneGpu) == ([], [42], CL_SUCCESS)
  {
    assert [7][1..] == [];
    assert Fit([42], 1) == [42];
    assert Listed(7, OneGpu(7), Cpu) == Ok([]);
    assert Listed(7, OneGpu(7), Gpu) == Ok([42]);
    assert Fill([], OneGpu) == ([], [], CL_SUCCESS);
    var none: seq<nat> := [];
    assert none + none == none && [42] + none == [42];
  }

  /** One platform with no CPU and one GPU: as written, the GPU array gets
      room for zero ids and the GPU listing writes past it; sized by the GPU
      count, the GPU list holds that one device. */
  lemma GpuArraySizedByCpuCount()
    ensures var p := PlatformRegistry(1, Some([7]));
      CollectDevicesListAsWritten(EmptyDevices, p, OneGpu) == HeapOverflow
      && CollectDevicesList(EmptyDevices, p, OneGpu) == (DeviceRegistry(0, 1, NullArray, Live([42])), CL_SUCCESS)
  {
    var p := PlatformRegistry(1, Some([7]));
    assert PlatformIds(p) == [7];
    OneGpuFill();
    var z := Zeros(1);
    assert z[1..] == [] && [42] + z[1..] == [42];
    assert Place(Live(z), [42]) == Some(Live([42]));
    assert Place(Live(Zeros(0)), [42]).None?;
  }

  // ---------------------------------------------------------------------
  // Erasure

  /** `Erase_Devices_List` as written: each non-null array is freed and its
      count zeroed, but the inner declarations shadow the globals, so the
      pointers keep pointing at the freed arrays. The flag reports a pointer
      freed a second time. */
  function EraseDevicesListAsWritten(d: DeviceRegistry): (r: (DeviceRegistry, Code, bool))
    ensures r.1 == CL_SUCCESS
    ensures r.2 <==> d.cpuList == Dangling || d.gpuList == Dangling
  {
    var cpu := if d.cpuList != NullArray then (0, Dangling) else (d.cpuNum, NullArray);
    var gpu := if d.gpuList != NullArray then (0, Dangling) else (d.gpuNum, NullArray);
    (DeviceRegistry(cpu.0, gpu.0, cpu.1, gpu.1), CL_SUCCESS, d.cpuList == Dangling || d.gpuList == Dangling)
  }

  /** `Erase_Devices_List` with the globals themselves reset: both arrays end
      null with zero counts when they were allocated. */
  function EraseDevicesList(d: DeviceRegistry): (r: (DeviceRegistry, Code))
    ensures r.1 == CL_SUCCESS && r.0.cpuList == NullArray && r.0.gpuList == NullArray
    ensures d.cpuList != NullArray ==> r.0.cpuNum == 0
    ensures d.gpuList != NullArray ==> r.0.gpuNum == 0
    ensures WellFormed(d) ==> r.0 == EmptyDevices
  {
    (DeviceRegistry(if d.cpuList != NullArray then 0 else d.cpuNum, if d.gpuList != NullArray then 0 else d.gpuNum,
                    NullArray, NullArray), CL_SUCCESS)
  }

  /** As written, erasing a registry with a live list twice frees that list
      twice; the corrected erase is idempotent. */
  lemma EraseTwiceFreesTwice(items: seq<nat>)
    ensures var d := DeviceRegistry(|items|, 0, Live(items), NullArray);
      EraseDevicesListAsWritten(EraseDevicesListAsWritten(d).0).2
      && EraseDevicesList(EraseDevicesList(d).0) == EraseDevicesList(d)
  {
  }

  lemma EraseIdempotent(d: DeviceRegistry)
    ensures EraseDevicesList(EraseDevicesList(d).0) == EraseDevicesList(d)
  {
  }

  // ---------------------------------------------------------------------
  // Lookups

  /** The first index of `x` in `s`, or |s| when absent. */
  function FirstIndex(s: seq<nat>, x: nat): (i: nat)
    ensures i <= |s|
    ensures i < |s| ==> s[i] == x
    ensures forall j :: 0 <= j < i ==> s[j] != x
  {
    if s == [] then 0
    else if s[0] == x then 0
    else 1 + FirstIndex(s[1..], x)
  }

  /** The live ids of kind `k` (empty for a null array). */
  function Ids(d: DeviceRegistry, k: Kind): (s: seq<nat>)
    requires WellFormed(d)
    ensures |s| == Num(d, k)
  {
    match List(d, k)
    case Live(items) => items
    case _ => []
  }

  /** `Pick_Device_By_Type`: the first device of the requested kind, or null
      when the kind has no devices or the type is neither CPU nor GPU. */
  function PickDeviceByType(d: DeviceRegistry, t: DeviceType): (r: nat)
    requires WellFormed(d)
    ensures t == OtherType ==> r == 0
    ensures t.OfKind? && Num(d, t.kind) == 0 ==> r == 0
    ensures t.OfKind? && Num(d, t.kind) > 0 ==> r == Ids(d, t.kind)[0]
  {
    match t
    case OtherType => 0
    case OfKind(k) => if Num(d, k) > 0 then Ids(d, k)[0] else 0
  }

  /** The first index in `s` whose device belongs to platform `pid`. */
  function FirstOnPlatform(s: seq<nat>, pid: nat, platformOf: nat -> nat): (i: nat)
    ensures i <= |s|
    ensures i < |s| ==> platformOf(s[i]) == pid
    ensures forall j :: 0 <= j < i ==> platformOf(s[j]) != pid
  {
    if s == [] then 0
    else if platformOf(s[0]) == pid then 0
    else 1 + FirstOnPlatform(s[1..], pid, platformOf)
  }

  /** `Pick_Device_By_Platform`, with `platformOf` the driver's answer for a
      device's platform: the first device of the kind on that platform, or
      null when none is. */
  function PickDeviceByPlatform(d: DeviceRegistry, pid: nat, t: DeviceType, platformOf: nat -> nat): (r: nat)
    requires WellFormed(d)
    ensures t == OtherType ==> r == 0
    ensures t.OfKind? && r != 0 ==> exists j :: 0 <= j < |Ids(d, t.kind)| && Ids(d, t.kind)[j] == r && platformOf(r) == pid
    ensures t.OfKind? && (forall j :: 0 <= j < |Ids(d, t.kind)| ==> platformOf(Ids(d, t.kind)[j]) != pid) ==> r == 0
    ensures t.OfKind? ==> forall j :: 0 <= j < |Ids(d, t.kind)| && Ids(d, t.kind)[j] == r && r != 0 ==>
      exists m :: 0 <= m <= j && Ids(d, t.kind)[m] == r && forall q :: 0 <= q < m ==> platformOf(Ids(d, t.kind)[q]) != pid
    ensures t.OfKind? && FirstOnPlatform(Ids(d, t.kind), pid, platformOf) < |Ids(d, t.kind)| ==>
      r == Ids(d, t.kind)[FirstOnPlatform(Ids(d, t.kind), pid, platformOf)]
  {
    match t
    case OtherType => 0
    case OfKind(k) =>
      var s := Ids(d, k);
      var i := FirstOnPlatform(s, pid, platformOf);
      if i < |s| then s[i] else 0
  }

  /** The ids of `s` that belong to platform `pid`, in order: a reference
      definition of the search. */
  function OnPlatform(s: seq<nat>, pid: nat, platformOf: nat -> nat): (f: seq<nat>)
    ensures |f| <= |s|
    ensures forall x :: x in f <==> x in s && platformOf(x) == pid
  {
    if s == [] then [] else (if platformOf(s[0]) == pid then [s[0]] else []) + OnPlatform(s[1..], pid, platformOf)
  }

  /** The linear search finds a device exactly when the filtered list is not
      empty, and then finds its head. */
  lemma {:induction false} FirstOnPlatformIsHead(s: seq<nat>, pid: nat, platformOf: nat -> nat)
    ensures FirstOnPlatform(s, pid, platformOf) < |s| <==> |OnPlatform(s, pid, platformOf)| > 0
    ensures FirstOnPlatform(s, pid, platformOf) < |s| ==> s[FirstOnPlatform(s, pid, platformOf)] == OnPlatform(s, pid, platformOf)[0]
  {
    if s != [] && platformOf(s[0]) != pid {
      FirstOnPlatformIsHead(s[1..], pid, platformOf);
    }
  }

  /** Pick_Device_By_Platform answers the first device of the kind's list
      that belongs to the platform, or null when none does. */
  lemma PickByPlatformIsFirstOnPlatform(d: DeviceRegistry, pid: nat, k: Kind, platformOf: nat -> nat)
    requires WellFormed(d)
    ensures var f := OnPlatform(Ids(d, k), pid, platformOf);
      PickDeviceByPlatform(d, pid, OfKind(k), platformOf) == (if |f| > 0 then f[0] else 0)
  {
    FirstOnPlatformIsHead(Ids(d, k), pid, platformOf);
  }

  /** The device Pick_Device_By_Type returns is also the one
      Pick_Device_By_Platform returns for that device's own platform: no
      device comes before the first one. */
  lemma PickByTypeIsFirstOfItsPlatform(d: DeviceRegistry, k: Kind, platformOf: nat -> nat)
    requires WellFormed(d) && Num(d, k) > 0
    ensures var first := PickDeviceByType(d, OfKind(k));
      PickDeviceByPlatform(d, platformOf(first), OfKind(k), platformOf) == first
  {
  }

  /** `Pick_Next_Device` as written (devices.c:353-357). It compares the
      device id `cur` with the array's address `base`, stepping in pointer
      units of `w` bytes, and answers the word after its own by-value
      parameter, here `stackWord`, never an element of the list. */
  function PickNextDeviceAsWritten(d: DeviceRegistry, cur: nat, kindOf: nat -> DeviceType, base: nat, w: nat, stackWord: nat): (r: nat)
    requires WellFormed(d)
    ensures r == 0 || r == stackWord
    ensures cur == 0 || kindOf(cur).OtherType? ==> r == 0
    ensures kindOf(cur).OfKind? && (cur < base || cur >= base + w * Num(d, kindOf(cur).kind) - w) ==> r == 0
    ensures cur != 0 && kindOf(cur).OfKind? && base <= cur < base + w * Num(d, kindOf(cur).kind) - w ==> r == stackWord
  {
    if cur == 0 then 0
    else match kindOf(cur)
      case OtherType => 0
      case OfKind(k) => if base <= cur < base + w * Num(d, k) - w then stackWord else 0
  }

  /** `Pick_Prev_Device` as written (devices.c:387-391), with the same two
      mistakes: `cur` is compared with the array's bounds in pointer units,
      and the answer is the word before the parameter. */
  function PickPrevDeviceAsWritten(d: DeviceRegistry, cur: nat, kindOf: nat -> DeviceType, base: nat, w: nat, stackWord: nat): (r: nat)
    requires WellFormed(d)
    ensures r == 0 || r == stackWord
    ensures cur == 0 || kindOf(cur).OtherType? ==> r == 0
    ensures kindOf(cur).OfKind? && (cur <= base || cur >= base + w * Num(d, kindOf(cur).kind)) ==> r == 0
    ensures cur != 0 && kindOf(cur).OfKind? && base < cur < base + w * Num(d, kindOf(cur).kind) ==> r == stackWord
  {
    if cur == 0 then 0
    else match kindOf(cur)
      case OtherType => 0
      case OfKind(k) => if base < cur < base + w * Num(d, k) then stackWord else 0
  }

  /** As written, the two lookups never read the lists: registries with the
      same counts give the same answers, whatever ids they hold. */
  lemma AsWrittenIgnoresLists(d: DeviceRegistry, e: DeviceRegistry, cur: nat, kindOf: nat -> DeviceType, base: nat, w: nat, stackWord: nat)
    requires WellFormed(d) && WellFormed(e) && d.cpuNum == e.cpuNum && d.gpuNum == e.gpuNum
    ensures PickNextDeviceAsWritten(d, cur, kindOf, base, w, stackWord) == PickNextDeviceAsWritten(e, cur, kindOf, base, w, stackWord)
    ensures PickPrevDeviceAsWritten(d, cur, kindOf, base, w, stackWord) == PickPrevDeviceAsWritten(e, cur, kindOf, base, w, stackWord)
  {
  }

  /** The intended `Pick_Next_Device`: the device after `cur` in its kind's
      list, or null when `cur` is last or absent. */
  function PickNextDevice(d: DeviceRegistry, cur: nat, kindOf: nat -> DeviceType): (r: nat)
    requires WellFormed(d)
    ensures r != 0 ==> kindOf(cur).OfKind? && var s := Ids(d, kindOf(cur).kind);
      var i := FirstIndex(s, cur); i + 1 < |s| && s[i] == cur && r == s[i + 1]
    ensures (cur != 0 && kindOf(cur).OfKind? && |Ids(d, kindOf(cur).kind)| > 0
             && FirstIndex(Ids(d, kindOf(cur).kind), cur) == |Ids(d, kindOf(cur).kind)| - 1) ==> r == 0
    ensures cur != 0 && kindOf(cur).OfKind? && cur !in Ids(d, kindOf(cur).kind) ==> r == 0
    ensures cur != 0 && kindOf(cur).OfKind? && FirstIndex(Ids(d, kindOf(cur).kind), cur) + 1 < |Ids(d, kindOf(cur).kind)| ==>
      r == Ids(d, kindOf(cur).kind)[FirstIndex(Ids(d, kindOf(cur).kind), cur) + 1]
  {
    if cur == 0 then 0
    else match kindOf(cur)
      case OtherType => 0
      case OfKind(k) =>
        var s := Ids(d, k);
        var i := FirstIndex(s, cur);
        if i + 1 < |s| then s[i + 1] else 0
  }

  /** The intended `Pick_Prev_Device`: the device before `cur`, or null when
      `cur` is first or absent. */
  function PickPrevDevice(d: DeviceRegistry, cur: nat, kindOf: nat -> DeviceType): (r: nat)
    requires WellFormed(d)
    ensures r != 0 ==> kindOf(cur).OfKind? && var s := Ids(d, kindOf(cur).kind);
      var i := FirstIndex(s, cur); 0 < i < |s| && s[i] == cur && r == s[i - 1]
    ensures cur != 0 && kindOf(cur).OfKind? && |Ids(d, kindOf(cur).kind)| > 0 && Ids(d, kindOf(cur).kind)[0] == cur ==> r == 0
    ensures cur != 0 && kindOf(cur).OfKind? && cur !in Ids(d, kindOf(cur).kind) ==> r == 0
    ensures cur != 0 && kindOf(cur).OfKind? && 0 < FirstIndex(Ids(d, kindOf(cur).kind), cur) < |Ids(d, kindOf(cur).kind)| ==>
      r == Ids(d, kindOf(cur).kind)[FirstIndex(Ids(d, kindOf(cur).kind), cur) - 1]
  {
    if cur == 0 then 0
    else match kindOf(cur)
      case OtherType => 0
      case OfKind(k) =>
        var s := Ids(d, k);
        var i := FirstIndex(s, cur);
        if 0 < i < |s| then s[i - 1] else 0
  }

  /** No id occurs twice. */
  predicate Distinct(s: seq<nat>)
  {
    forall i, j :: 0 <= i < j < |s| ==> s[i] != s[j]
  }

  lemma FirstIndexOfDistinct(s: seq<nat>, i: nat)
    requires Distinct(s) && i < |s|
    ensures FirstIndex(s, s[i]) == i
  {
  }

  /** In a list without repeats, stepping forward then back returns to the
      starting device. */
  lemma NextPrevRoundTrip(d: DeviceRegistry, cur: nat, kindOf: nat -> DeviceType)
    requires WellFormed(d) && kindOf(cur).OfKind? && Distinct(Ids(d, kindOf(cur).kind))
    requires PickNextDevice(d, cur, kindOf) != 0
    requires kindOf(PickNextDevice(d, cur, kindOf)) == kindOf(cur)
    ensures PickPrevDevice(d, PickNextDevice(d, cur, kindOf), kindOf) == cur
  {
    var s := Ids(d, kindOf(cur).kind);
    var i := FirstIndex(s, cur);
    FirstIndexOfDistinct(s, i + 1);
  }

  /** The list [5, 7] held at address 1000, with 8-byte pointers: as
      written, asking for the device after 5 compares 5 with 1000 and answers
      null; the intended lookup answers 7. */
  lemma NextDeviceComparesIdWithAddress(stackWord: nat)
    ensures var d := DeviceRegistry(2, 0, Live([5, 7]), NullArray);
      var kindOf := (x: nat) => OfKind(Cpu);
      PickNextDeviceAsWritten(d, 5, kindOf, 1000, 8, stackWord) == 0
      && PickNextDevice(d, 5, kindOf) == 7
      && PickPrevDeviceAsWritten(d, 7, kindOf, 1000, 8, stackWord) == 0
      && PickPrevDevice(d, 7, kindOf) == 5
  {
    var s := [5, 7];
    assert s[1..] == [7];
    assert FirstIndex(s, 5) == 0;
    assert FirstIndex(s, 7) == 1;
  }
}

=== FILE: errors.dfy ===
/** The per-object error slot (error.c): a single accumulated code that
    failures are OR-ed into, and the human-readable text for a code. */
module Errors {
  import opened Common
  import opened Codes

  /** An error slot; `lastCode` accumulates every code recorded into it. */
  datatype ErrorSlot = ErrorSlot(lastCode: Code)

  /** A fresh slot, as `calloc` leaves it. */
  function MakeError(): (e: ErrorSlot)
    ensures e.lastCode == CL_SUCCESS
  {
    ErrorSlot(0)
  }

  /** ORs `code` into the slot: no bit already set is cleared and every bit
      of `code` ends up set (`RecordLeast` adds that no other bit appears). */
  function Record(e: ErrorSlot, code: Code): (r: ErrorSlot)
    ensures r.lastCode & e.lastCode == e.lastCode
    ensures r.lastCode & code == code
  {
    ErrorSlot(e.lastCode | code)
  }

  /** `Set_Last_Code` on a possibly-null slot: the updated slot and the return
      code. */
  function SetLastCode(self: Option<ErrorSlot>, code: Code): (r: (Option<ErrorSlot>, Code))
    ensures self.None? ==> r == (None, INVALID_BUFFER_GIVEN)
    ensures self.Some? ==> r.1 == CL_SUCCESS && r.0 == Some(Record(self.value, code))
    ensures self.Some? ==> r.0.value.lastCode & code == code
  {
    if self.None? then (None, INVALID_BUFFER_GIVEN)
    else (Some(Record(self.value, code)), CL_SUCCESS)
  }

  /** `Get_Last_Code`: the accumulated code, or INVALID_BUFFER_GIVEN for a null
      slot. */
  function GetLastCode(self: Option<ErrorSlot>): (r: Code)
    ensures self.None? ==> r == INVALID_BUFFER_GIVEN
    ensures self.Some? ==> r == self.value.lastCode
  {
    if self.None? then INVALID_BUFFER_GIVEN else self.value.lastCode
  }

  /** Reading the slot back after `Set_Last_Code` gives the accumulated code,
      and on a clean slot exactly the code set. */
  lemma SetGetRoundTrip(e: ErrorSlot, code: Code)
    ensures GetLastCode(SetLastCode(Some(e), code).0) == Record(e, code).lastCode
    ensures e.lastCode == CL_SUCCESS ==> GetLastCode(SetLastCode(Some(e), code).0) == code
  {
  }

  /** `Error_Destroy`: refuses a null slot, otherwise frees it. */
  function DestroySlot(self: Option<ErrorSlot>): (r: Code)
    ensures r == CL_SUCCESS <==> self.Some?
    ensures r != CL_SUCCESS ==> r == INVALID_BUFFER_GIVEN
  {
    if self.None? then INVALID_BUFFER_GIVEN else CL_SUCCESS
  }

  const SUCCESS_TEXT := "Successful operation. No errors happened.\n"
  const UNSPECIFIED_TEXT := "Unspecified error.\n"

  /** The message written for each named code. WRONG_PARENT_OBJECT has no case
      in the library's switch; its text here is the one the header documents
      for it, used only by the corrected `Message`. */
  function Text(n: NamedCode): string
  {
    match n
    case BufferNotAllocated => "Failed to allocate memory for buffer.\n"
    case InvalidBlockingFlag => "Invalid blocking flag - not CL_TRUE, nor CL_FALSE.\n"
    case InvalidBufferSize => "Invalid buffer size given.\n"
    case InvalidBufferGiven => "Invalid buffer given.\n"
    case ObjectDoesntExist => "Attmept to access object, that doesn't exist.\n"
    case InvalidArgType => "Argument of invalid type was passed.\n"
    case VoidArgGiven => "Given argument is void.\n"
    case ArgNotFound => "Given argument not found.\n"
    case CantFindParams => "Invalid OpenCL initialization params given.\n"
    case CantCreateContext => "Can't create OpenCL context.\n"
    case CantCreateProgram => "Can't create OpenCL program with source.\n"
    case CantCreateCmdQueue => "Can't create OpenCL command queue.\n"
    case CantFindDevice => "Can't find suitable OpenCL Device(s).\n"
    case CantFindPlatform => "Can't find OpenCL platform(s).\n"
    case CantFindKernelSource => "Can't find file(s) with OpenCL C source code.\n"
    case CantInitOpenCl => "Can't initialize OpenCL.\n"
    case CantSetNdSize => "Invalid ND dimension(s) given.\n"
    case CantQueryDeviceParam => "Can't query OpenCL Device for one of the parameter(s).\n"
    case CantQueryPlatformParam => "Can't query OpenCL platform for one of the parameter(s).\n"
    case GenericOpenClError => "Generic OpenCL-related error.\n"
    case DistinctMemObjects => "Attempt to do operation between Buffer & Image.\n"
    case DistinctMemFlags => "Attempt to do operation objects with different memory allocation flags.\n"
    case MemObjNotMapped => "Memory object is not mapped.\n"
    case MemObjInconsistent => "Memory object is inconsistent.\n"
    case KernelDoesntExist => "Trying to operate with kernel, which doesn't exist.\n"
    case InvalidLocalWgSize => "Given Local Workgroup size is invalid for kernel.\n"
    case InvalidGlobalWgSize => "Given Global Workgroup size is invalid for kernel.\n"
    case GlobalNotMultipleToLocal => "Given Global Workgroup size isn't multiple to Local Workgroup size.\n"
    case InvalidNdDimensionality => "Given kernel dimensionality is invalid.\n"
    case InvalidEvent => "Invalid or non-existent OpenCL event.\n"
    case ValueOutOfRange => "Value lays out of acceptable range.\n"
    case TimerInUse => "Can't access timer - it's already in use.\n"
    case BufferInUse => "Can't access buffer - it's already in use.\n"
    case CantSetDefaultObj => "Can't set default object. Possibly - can't lock mutex.\n"
    case CallingStubAccessor => "Can't call non-implemented function through pointer.\n"
    case CallingUndefAccessor => "Calling function, that is unapplicable for object of this type. \n"
    case ProvidingUndefPtr => "Providing undefined pointer. \n"
    case WrongParentObject => "Invalid parent object given.\n"
  }

  /** The message switch as the library writes it: success, one text per
      listed code, and the fallback text for everything else, including
      WRONG_PARENT_OBJECT, which the switch does not list. */
  function MessageAsWritten(code: Code): (r: string)
    ensures code == CL_SUCCESS ==> r == SUCCESS_TEXT
    ensures code != CL_SUCCESS && Decode(code).None? ==> r == UNSPECIFIED_TEXT
    ensures code == WRONG_PARENT_OBJECT ==> r == UNSPECIFIED_TEXT
  {
    DecodeValue(WrongParentObject);
    if code == CL_SUCCESS then SUCCESS_TEXT
    else match Decode(code)
      case Some(n) => if n == WrongParentObject then UNSPECIFIED_TEXT else Text(n)
      case None => UNSPECIFIED_TEXT
  }

  /** The message switch with every named code given its own text. */
  function Message(code: Code): (r: string)
    ensures code == CL_SUCCESS ==> r == SUCCESS_TEXT
    ensures code != CL_SUCCESS && Decode(code).None? ==> r == UNSPECIFIED_TEXT
  {
    if code == CL_SUCCESS then SUCCESS_TEXT
    else match Decode(code)
      case Some(n) => Text(n)
      case None => UNSPECIFIED_TEXT
  }

  /** `Get_Error_Message`: no text for a null slot, otherwise the text the
      library's switch gives the accumulated code. */
  function GetErrorMessage(self: Option<ErrorSlot>): (r: Option<string>)
    ensures r.None? <==> self.None?
    ensures self.Some? ==> r == Some(MessageAsWritten(self.value.lastCode))
    ensures self.Some? && self.value.lastCode == CL_SUCCESS ==> r == Some(SUCCESS_TEXT)
  {
    if self.None? then None else Some(MessageAsWritten(self.value.lastCode))
  }

  /** The library's switch gives every named code but WRONG_PARENT_OBJECT its
      own text. */
  lemma MessageAsWrittenTotal(n: NamedCode)
    requires n != WrongParentObject
    ensures MessageAsWritten(Value(n)) == Text(n)
  {
    DecodeValue(n);
  }

  /** Setting a named code on a clean slot and asking for the message gives
      that code's text, except for WRONG_PARENT_OBJECT, which reads the
      fallback text. */
  lemma SetThenMessage(e: ErrorSlot, n: NamedCode)
    requires e.lastCode == CL_SUCCESS
    ensures n != WrongParentObject ==> GetErrorMessage(SetLastCode(Some(e), Value(n)).0) == Some(Text(n))
    ensures n == WrongParentObject ==> GetErrorMessage(SetLastCode(Some(e), Value(n)).0) == Some(UNSPECIFIED_TEXT)
  {
    RecordOnClean(e, Value(n));
    if n != WrongParentObject {
      MessageAsWrittenTotal(n);
    }
  }

  /** Every named code reads back its own text, and a code the library does
      not name reads the fallback text. */
  lemma MessageTotal(code: Code)
    ensures forall n :: Message(Value(n)) == Text(n)
    ensures code != CL_SUCCESS && Decode(code).None? ==> Message(code) == UNSPECIFIED_TEXT
  {
    forall n ensures Message(Value(n)) == Text(n) {
      DecodeValue(n);
    }
  }

  /** Recording sets no bit that neither the slot nor the code had: the result
      lies within any pattern that covers both. */
  lemma RecordLeast(e: ErrorSlot, code: Code, cover: Code)
    requires cover & e.lastCode == e.lastCode && cover & code == code
    ensures Record(e, code).lastCode & cover == Record(e, code).lastCode
  {
  }

  /** Recording into a clean slot leaves exactly the recorded code. */
  lemma RecordOnClean(e: ErrorSlot, code: Code)
    requires e.lastCode == CL_SUCCESS
    ensures Record(e, code).lastCode == code
  {
  }

  /** Recording the same code twice is the same as recording it once, and
      recording success changes nothing. */
  lemma RecordIdempotent(e: ErrorSlot, code: Code)
    ensures Record(Record(e, code), code) == Record(e, code)
    ensures Record(e, CL_SUCCESS) == e
  {
  }

  /** The order in which two codes are recorded does not matter. */
  lemma RecordCommutes(e: ErrorSlot, a: Code, b: Code)
    ensures Record(Record(e, a), b) == Record(Record(e, b), a)
  {
  }

  /** Accumulation is lossy: INVALID_BLOCKING_FLAG (101) followed by
      INVALID_BUFFER_SIZE (102) reads back as INVALID_BUFFER_GIVEN (103), with
      that code's text. */
  lemma AccumulationAliases()
    ensures Record(Record(MakeError(), INVALID_BLOCKING_FLAG), INVALID_BUFFER_SIZE).lastCode == INVALID_BUFFER_GIVEN
    ensures Message(Record(Record(MakeError(), INVALID_BLOCKING_FLAG), INVALID_BUFFER_SIZE).lastCode) == Text(InvalidBufferGiven)
  {
    DecodeValue(InvalidBufferGiven);
  }

  /** The library's switch has no case for WRONG_PARENT_OBJECT: the code falls
      through to the fallback text, unlike every other named code. */
  lemma WrongParentHasNoText()
    ensures MessageAsWritten(WRONG_PARENT_OBJECT) == UNSPECIFIED_TEXT
    ensures Message(WRONG_PARENT_OBJECT) == Text(WrongParentObject) != UNSPECIFIED_TEXT
  {
    WrongParentText();
    assert Text(WrongParentObject)[0] == 'I' != UNSPECIFIED_TEXT[0];
  }

  /** The corrected switch reads WRONG_PARENT_OBJECT's own text. */
  lemma WrongParentText()
    ensures Message(WRONG_PARENT_OBJECT) == Text(WrongParentObject)
  {
    DecodeValue(WrongParentObject);
  }

  /** The two switches agree on every code but WRONG_PARENT_OBJECT. */
  lemma MessagesAgreeElsewhere(code: Code)
    requires code != WRONG_PARENT_OBJECT
    ensures MessageAsWritten(code) == Message(code)
  {
    DecodeSound(code);
  }
}

=== FILE: kernels.dfy ===
/** Kernels (kernel.c): construction preconditions and build-flag
    concatenation, ND-range geometry validation, event priority, positional
    argument binding and launch bookkeeping. Every driver call is an oracle
    parameter. */
module Kernels {
  import opened Common
  import opened Codes
  import opened Errors
  import opened Timers

  const OCL_KERNEL_NAME_MAX_LEN: nat := 256
  const MAX_NUM_DIMENSIONS: nat := 3
  /** `size_t` arithmetic wraps modulo 2^64. */
  const SIZE_T_MODULUS: nat := 0x1_0000_0000_0000_0000

  /** The `unsigned int` sizes callers pass in. */
  type UInt = x: nat | x < 0x1_0000_0000

  datatype EventPriority = InternalPriority | ExternalPriority
  /** The event Check_Status inspects: the kernel's own, or the caller's. */
  datatype EventRef = InternalEvent | ExternalEvent(id: nat)
  datatype SourceMode = ReadFromFiles | ReadFromString | ReadFromBinary | OtherSourceMode

  /** One kernel. `hasProgram`/`hasKernel` say whether the driver program and
      kernel objects exist; `buildFlags` is what was handed to the build. */
  datatype Kernel = Kernel(
    name: string,
    buildFlags: string,
    hasProgram: bool,
    hasKernel: bool,
    dims: nat,
    global: seq<nat>,
    local: seq<nat>,
    priority: EventPriority,
    externalEvent: Option<nat>,
    execStatus: int,
    timer: Timer,
    error: ErrorSlot)

  /** Three stored sizes per kind, at most three dimensions, and an external
      priority always comes with the caller's event. */
  predicate Valid(k: Kernel)
  {
    |k.global| == MAX_NUM_DIMENSIONS && |k.local| == MAX_NUM_DIMENSIONS && k.dims <= MAX_NUM_DIMENSIONS
    && (k.priority == ExternalPriority ==> k.externalEvent.Some?)
  }

  // ---------------------------------------------------------------------
  // Geometry

  /** The running local work-group size after dimension `i`, computed as the
      library does: the first size, then repeated `size_t` multiplication. */
  function WrappedProduct(l: seq<UInt>, i: nat): nat
    requires i < |l|
  {
    if i == 0 then l[0] else (WrappedProduct(l, i - 1) * l[i]) % SIZE_T_MODULUS
  }

  /** The same product in exact arithmetic. */
  function Product(l: seq<UInt>, i: nat): nat
    requires i < |l|
  {
    if i == 0 then l[0] else Product(l, i - 1) * l[i]
  }

  /** The caller's local sizes cover `dims` dimensions and none is zero (the
      library takes `global % local`, undefined for a zero local size). */
  predicate LocalArgOk(l: seq<UInt>, dims: nat)
  {
    |l| >= dims && forall j :: 0 <= j < dims ==> l[j] > 0
  }

  /** Dimension `j` passes both checks: the running local size is within the
      device maximum and the global size is a multiple of the local size. With
      no local sizes every dimension passes. */
  predicate DimOk(g: seq<UInt>, l: Option<seq<UInt>>, maxWg: nat, dims: nat, j: nat)
    requires j < dims <= |g|
    requires l.Some? ==> LocalArgOk(l.value, dims)
  {
    l.None? || (WrappedProduct(l.value, j) <= maxWg && g[j] % l.value[j] == 0)
  }

  /** The first dimension at or after `i` that fails a check, or `dims` when
      none does. */
  function FirstBad(g: seq<UInt>, l: Option<seq<UInt>>, maxWg: nat, i: nat, dims: nat): (f: nat)
    requires i <= dims <= |g|
    requires l.Some? ==> LocalArgOk(l.value, dims)
    ensures i <= f <= dims
    ensures forall j :: i <= j < f ==> DimOk(g, l, maxWg, dims, j)
    ensures f < dims ==> !DimOk(g, l, maxWg, dims, f)
    decreases dims - i
  {
    if i == dims then dims
    else if !DimOk(g, l, maxWg, dims, i) then i
    else FirstBad(g, l, maxWg, i + 1, dims)
  }

  /** The loop of `Kernel_Set_ND_Sizes` from dimension `i` on. Each dimension
      stores its local size once the running product passes, then its global
      size once divisibility passes; the first failure returns at once and
      leaves what was stored before it. */
  function StoreFrom(k: Kernel, i: nat, dims: nat, g: seq<UInt>, l: Option<seq<UInt>>, maxWg: nat): (r: (Kernel, Code))
    requires Valid(k) && i <= dims <= MAX_NUM_DIMENSIONS && |g| >= dims
    requires l.Some? ==> LocalArgOk(l.value, dims)
    ensures Valid(r.0) && r.0.(global := k.global, local := k.local) == k
    ensures var f := FirstBad(g, l, maxWg, i, dims);
      r.1 == (if f == dims then CL_SUCCESS
              else if l.Some? && WrappedProduct(l.value, f) > maxWg then INVALID_LOCAL_WG_SIZE
              else GLOBAL_NOT_MULTIPLE_TO_LOCAL)
    ensures var f := FirstBad(g, l, maxWg, i, dims);
      forall j :: 0 <= j < MAX_NUM_DIMENSIONS ==> r.0.global[j] == (if i <= j < f then g[j] else k.global[j])
    ensures var f := FirstBad(g, l, maxWg, i, dims);
      forall j :: 0 <= j < MAX_NUM_DIMENSIONS ==>
        r.0.local[j] == (if l.Some? && i <= j < dims && (j < f || (j == f && WrappedProduct(l.value, f) <= maxWg))
                         then l.value[j] else k.local[j])
    decreases dims - i
  {
    if i == dims then (k, CL_SUCCESS)
    else if l.Some? && WrappedProduct(l.value, i) > maxWg then (k, INVALID_LOCAL_WG_SIZE)
    else
      var k1 := if l.Some? then k.(local := k.local[i := l.value[i]]) else k;
      if l.Some? && g[i] % l.value[i] != 0 then (k1, GLOBAL_NOT_MULTIPLE_TO_LOCAL)
      else StoreFrom(k1.(global := k1.global[i := g[i]]), i + 1, dims, g, l, maxWg)
  }

  /** `Kernel_Set_ND_Sizes`. `global`/`local` are the caller's arrays (None
      for a null pointer) and `maxWg` the driver's answer for the kernel's
      maximal work-group size. A null global array and more than three
      dimensions are refused with nothing stored; otherwise the
      dimensionality is stored at once, before the driver query and the
      per-dimension checks. */
  function SetNDSizes(k: Kernel, dims: nat, global: Option<seq<UInt>>, local: Option<seq<UInt>>, maxWg: Answer<nat>): (r: (Kernel, Code))
    requires Valid(k)
    requires global.Some? && dims <= MAX_NUM_DIMENSIONS ==> |global.value| >= dims
    requires global.Some? && dims <= MAX_NUM_DIMENSIONS && local.Some? ==> LocalArgOk(local.value, dims)
    ensures Valid(r.0)
    ensures global.None? ==> r == (k, INVALID_BUFFER_GIVEN)
    ensures global.Some? && dims > MAX_NUM_DIMENSIONS ==> r == (k, INVALID_ND_DIMENSIONALITY)
    ensures global.Some? && dims <= MAX_NUM_DIMENSIONS ==> r.0.dims == dims
    ensures global.Some? && dims <= MAX_NUM_DIMENSIONS && maxWg.Failed? ==> r == (k.(dims := dims), maxWg.code)
    ensures local.None? ==> r.0.local == k.local
  {
    if global.None? then (k, INVALID_BUFFER_GIVEN)
    else if dims > MAX_NUM_DIMENSIONS then (k, INVALID_ND_DIMENSIONALITY)
    else
      var k1 := k.(dims := dims);
      match maxWg
      case Failed(c) => (k1, c)
      case Ok(m) => StoreFrom(k1, 0, dims, global.value, local, m)
  }

  /** Set_ND_Sizes succeeds exactly when the arrays and the query are good and
      every dimension passes both checks; on success the first `dims` global
      sizes (and local sizes, when given) are stored and the rest kept. */
  lemma SetNDSizesSucceedsIff(k: Kernel, dims: nat, g: seq<UInt>, local: Option<seq<UInt>>, maxWg: Answer<nat>)
    requires Valid(k) && dims <= MAX_NUM_DIMENSIONS && |g| >= dims
    requires local.Some? ==> LocalArgOk(local.value, dims)
    ensures SetNDSizes(k, dims, Some(g), local, maxWg).1 == CL_SUCCESS
      <==> maxWg.Ok? && forall j :: 0 <= j < dims ==> DimOk(g, local, maxWg.value, dims, j)
    ensures SetNDSizes(k, dims, Some(g), local, maxWg).1 == CL_SUCCESS ==>
      var r := SetNDSizes(k, dims, Some(g), local, maxWg).0;
      (forall j :: 0 <= j < dims ==> r.global[j] == g[j] && (local.Some? ==> r.local[j] == local.value[j]))
      && (forall j :: dims <= j < MAX_NUM_DIMENSIONS ==> r.global[j] == k.global[j] && r.local[j] == k.local[j])
  {
    if maxWg.Ok? {
      var f := FirstBad(g, local, maxWg.value, 0, dims);
      if f < dims {
        assert !DimOk(g, local, maxWg.value, dims, f);
      }
    }
  }

  /** A failing dimension leaves every earlier dimension stored: Set_ND_Sizes
      is not atomic. */
  lemma SetNDSizesNotAtomic(k: Kernel, dims: nat, g: seq<UInt>, l: seq<UInt>, m: nat)
    requires Valid(k) && dims <= MAX_NUM_DIMENSIONS && |g| >= dims && LocalArgOk(l, dims)
    requires SetNDSizes(k, dims, Some(g), Some(l), Ok(m)).1 != CL_SUCCESS
    ensures var f := FirstBad(g, Some(l), m, 0, dims);
      var r := SetNDSizes(k, dims, Some(g), Some(l), Ok(m)).0;
      f < dims && r.dims == dims && forall j :: 0 <= j < f ==> r.global[j] == g[j] && r.local[j] == l[j]
  {
  }

  /** No `unsigned int` product of two factors reaches 2^64. */
  lemma ProductOfTwoFitsSizeT(a: nat, b: UInt)
    requires a < 0x1_0000_0000
    ensures a * b < SIZE_T_MODULUS
  {
    calc {
      a * b;
    <= { LeMul(a, 0xFFFF_FFFF, b); }
      0xFFFF_FFFF * b;
    <= { LeMul(b, 0xFFFF_FFFF, 0xFFFF_FFFF); }
      0xFFFF_FFFF * 0xFFFF_FFFF;
    <
      SIZE_T_MODULUS;
    }
  }

  /** Multiplying both sides by the same factor keeps the order. */
  lemma LeMul(a: nat, b: nat, c: nat)
    requires a <= b
    ensures a * c <= b * c
  {
  }

  /** The running local size stays within `maxWg` for dimensions 0..j, as
      the library computes it. */
  predicate WrappedWithin(l: seq<UInt>, maxWg: nat, j: nat)
    requires j < |l|
  {
    forall i :: 0 <= i <= j ==> WrappedProduct(l, i) <= maxWg
  }

  /** The same in exact arithmetic. */
  predicate ExactWithin(l: seq<UInt>, maxWg: nat, j: nat)
    requires j < |l|
  {
    forall i :: 0 <= i <= j ==> Product(l, i) <= maxWg
  }

  /** One multiplication step does not wrap while the previous product is
      still below 2^32. */
  lemma WrapStep(l: seq<UInt>, j: nat)
    requires 0 < j < |l|
    requires WrappedProduct(l, j - 1) == Product(l, j - 1) < 0x1_0000_0000
    ensures WrappedProduct(l, j) == Product(l, j)
  {
    ProductOfTwoFitsSizeT(Product(l, j - 1), l[j]);
  }

  /** When the device maximum is below 2^32, as every OpenCL 1.x device
      reports, the wrapping `size_t` product checks exactly what the exact
      product would: the first `j + 1` dimensions pass the local-size test
      in one arithmetic iff they pass it in the other, and then the two
      products agree. */
  lemma {:induction false} WrapMatchesExact(l: seq<UInt>, maxWg: nat, j: nat)
    requires j < |l| && maxWg < 0x1_0000_0000
    ensures WrappedWithin(l, maxWg, j) <==> ExactWithin(l, maxWg, j)
    ensures WrappedWithin(l, maxWg, j) ==> WrappedProduct(l, j) == Product(l, j)
  {
    if j > 0 {
      WrapMatchesExact(l, maxWg, j - 1);
      if WrappedWithin(l, maxWg, j) {
        assert WrappedWithin(l, maxWg, j - 1);
        WrapStep(l, j);
        assert ExactWithin(l, maxWg, j);
      }
      if ExactWithin(l, maxWg, j) {
        assert ExactWithin(l, maxWg, j - 1);
        WrapStep(l, j);
        assert WrappedWithin(l, maxWg, j);
      }
    } else {
      assert WrappedProduct(l, 0) == Product(l, 0);
    }
  }

  // ---------------------------------------------------------------------
  // Enqueue, status, launch

  /** How many of the first `n` stored local sizes are non-zero. */
  function NonZeroCount(s: seq<nat>, n: nat): (c: nat)
    requires n <= |s|
    ensures c == 0 <==> forall j :: 0 <= j < n ==> s[j] == 0
  {
    if n == 0 then 0 else NonZeroCount(s, n - 1) + (if s[n - 1] != 0 then 1 else 0)
  }

  /** The kernel after ND_Range, the code, and whether the stored local sizes
      were handed to the driver. */
  datatype RangeResult = RangeResult(k: Kernel, code: Code, localPassed: bool)

  /** `Kernel_ND_Range` with `generated` the caller's event (None for null)
      and the enqueue's answer: the priority is set first, whatever the
      enqueue answers; local sizes are handed over only if one of the active
      ones is non-zero; in MEASURE mode a successful run adds its time and
      one call to the device side. */
  function NDRange(k: Kernel, generated: Option<nat>, mode: TimeMode, enqueueCode: Code, runTime: real): (r: RangeResult)
    requires Valid(k)
    ensures Valid(r.k) && r.code == enqueueCode
    ensures generated.None? ==> r.k.priority == InternalPriority && r.k.externalEvent == k.externalEvent
    ensures generated.Some? ==> r.k.priority == ExternalPriority && r.k.externalEvent == generated
    ensures r.localPassed <==> exists j :: 0 <= j < k.dims && k.local[j] != 0
    ensures enqueueCode == CL_SUCCESS && mode == Measure ==> r.k.timer == RecordDeviceRun(k.timer, runTime, true)
    ensures enqueueCode != CL_SUCCESS || mode == DontMeasure ==> r.k.timer == k.timer
    ensures r.k.(priority := k.priority, externalEvent := k.externalEvent, timer := k.timer) == k
  {
    var k1 := if generated.None? then k.(priority := InternalPriority)
              else k.(priority := ExternalPriority, externalEvent := generated);
    var passLocal := NonZeroCount(k.local, k.dims) != 0;
    if enqueueCode != CL_SUCCESS then RangeResult(k1, enqueueCode, passLocal)
    else if mode == Measure then RangeResult(k1.(timer := RecordDeviceRun(k.timer, runTime, true)), CL_SUCCESS, passLocal)
    else RangeResult(k1, CL_SUCCESS, passLocal)
  }

  /** The event Check_Status will query. */
  function PrioritisedEvent(k: Kernel): EventRef
    requires Valid(k)
  {
    if k.priority == ExternalPriority then ExternalEvent(k.externalEvent.value) else InternalEvent
  }

  /** `Kernel_Check_Status`: queries the prioritised event; on success the
      execution status is stored, otherwise the driver's code is returned and
      nothing changes. */
  function CheckStatus(k: Kernel, answer: Answer<int>): (r: (Kernel, Code, EventRef))
    requires Valid(k)
    ensures r.2 == PrioritisedEvent(k)
    ensures answer.Ok? ==> r.1 == CL_SUCCESS && r.0 == k.(execStatus := answer.value)
    ensures answer.Failed? ==> r.1 == answer.code && r.0 == k
  {
    match answer
    case Ok(s) => (k.(execStatus := s), CL_SUCCESS, PrioritisedEvent(k))
    case Failed(c) => (k, c, PrioritisedEvent(k))
  }

  /** After ND_Range, Check_Status queries exactly the event that launch
      produced: the caller's when one was given, the kernel's own otherwise. */
  lemma StatusFollowsLaunch(k: Kernel, generated: Option<nat>, mode: TimeMode, enqueueCode: Code, runTime: real, answer: Answer<int>)
    requires Valid(k)
    ensures CheckStatus(NDRange(k, generated, mode, enqueueCode, runTime).k, answer).2
      == (if generated.None? then InternalEvent else ExternalEvent(generated.value))
  {
  }

  /** One variadic kernel argument. */
  datatype KernelArg = KernelArg(size: nat, ptr: Addr)

  /** The number of arguments Launch binds: the driver's count, or 0 when the
      query fails. */
  function ArgCount(numArgs: Answer<nat>): nat
  {
    if numArgs.Ok? then numArgs.value else 0
  }

  /** `Kernel_Launch`: binds arguments 0..n-1 in order (`bindCode[i]` is the
      driver's answer for argument i), stops at the first failing binding and
      returns its code without enqueuing; when every binding succeeds it
      performs ND_Range. `bound` lists the (index, argument) pairs handed to
      the driver. */
  method Launch(k: Kernel, args: seq<KernelArg>, numArgs: Answer<nat>, bindCode: seq<Code>,
                generated: Option<nat>, mode: TimeMode, enqueueCode: Code, runTime: real)
    returns (k': Kernel, code: Code, bound: seq<(nat, KernelArg)>, enqueued: bool)
    requires Valid(k)
    requires |args| >= ArgCount(numArgs) && |bindCode| >= ArgCount(numArgs)
    ensures |bound| <= ArgCount(numArgs)
    ensures forall j :: 0 <= j < |bound| ==> bound[j] == (j, args[j])
    ensures enqueued <==> forall j :: 0 <= j < ArgCount(numArgs) ==> bindCode[j] == CL_SUCCESS
    ensures enqueued ==> |bound| == ArgCount(numArgs)
    ensures enqueued ==> var rr := NDRange(k, generated, mode, enqueueCode, runTime); k' == rr.k && code == rr.code
    ensures !enqueued ==> k' == k && |bound| > 0 && code == bindCode[|bound| - 1] && code != CL_SUCCESS
    ensures !enqueued ==> forall j :: 0 <= j < |bound| - 1 ==> bindCode[j] == CL_SUCCESS
  {
    var n := ArgCount(numArgs);
    bound := [];
    var i := 0;
    while i < n
      invariant 0 <= i <= n
      invariant |bound| == i
      invariant forall j :: 0 <= j < i ==> bound[j] == (j, args[j]) && bindCode[j] == CL_SUCCESS
    {
      bound := bound + [(i, args[i])];
      if bindCode[i] != CL_SUCCESS {
        return k, bindCode[i], bound, false;
      }
      i := i + 1;
    }
    var rr := NDRange(k, generated, mode, enqueueCode, runTime);
    k', code, enqueued := rr.k, rr.code, true;
  }

  // ---------------------------------------------------------------------
  // Lifetime

  /** `Kernel_Destroy` (None is a null kernel): releases the driver kernel and
      program when they exist, then the timer and the slot, then frees;
      always CL_SUCCESS. */
  function Destroy(k: Option<Kernel>): (r: (Code, seq<Event>))
    ensures r.0 == CL_SUCCESS
    ensures k.None? ==> r.1 == []
    ensures k.Some? ==> (ReleaseKernel in r.1 <==> k.value.hasKernel) && (ReleaseProgram in r.1 <==> k.value.hasProgram)
    ensures k.Some? ==> |r.1| >= 3 && r.1[|r.1| - 3..] == [DestroyTimer(KernelObj), DestroyError(KernelObj), FreeNode(KernelObj)]
    ensures k.Some? && k.value.hasKernel && k.value.hasProgram ==> r.1[0] == ReleaseKernel && r.1[1] == ReleaseProgram
  {
    if k.None? then (CL_SUCCESS, [])
    else
      (CL_SUCCESS,
       (if k.value.hasKernel then [ReleaseKernel] else [])
       + (if k.value.hasProgram then [ReleaseProgram] else [])
       + [DestroyTimer(KernelObj), DestroyError(KernelObj), FreeNode(KernelObj)])
  }

  /** The name guard as written (kernel.c:513): only names longer than 256
      characters are refused, yet `strcpy` then writes the name and its
      terminator into a 256-byte array. */
  predicate NameAcceptedAsWritten(name: string)
  {
    !(|name| > OCL_KERNEL_NAME_MAX_LEN)
  }

  /** The guard that keeps the name and its terminator inside the array. */
  predicate NameAccepted(name: string)
  {
    |name| < OCL_KERNEL_NAME_MAX_LEN
  }

  /** A 256-character name passes the written guard but needs 257 bytes. */
  lemma NameGuardOffByOne()
    ensures var name := seq(256, _ => 'k');
      NameAcceptedAsWritten(name) && |name| + 1 > OCL_KERNEL_NAME_MAX_LEN && !NameAccepted(name)
  {
  }

  /** Every name the corrected guard accepts fits with its terminator. */
  lemma NameAcceptedFits(name: string)
    requires NameAccepted(name)
    ensures |name| + 1 <= OCL_KERNEL_NAME_MAX_LEN
    ensures NameAcceptedAsWritten(name)
  {
  }

  /** Whether the program source is available: a file that could be read, or
      a string given directly. Binary and unknown modes are refused. */
  predicate SourceReadable(mode: SourceMode, fileRead: bool)
  {
    match mode
    case ReadFromFiles => fileRead
    case ReadFromString => true
    case _ => false
  }

  /** A freshly allocated kernel, before any driver object exists. */
  function Blank(name: string): (k: Kernel)
    ensures Valid(k) && !k.hasProgram && !k.hasKernel && k.dims == 0
  {
    Kernel(name, "", false, false, 0, [0, 0, 0], [0, 0, 0], InternalPriority, None, 0, MakeTimer(), MakeError())
  }

  /** The name guard Make_Kernel applies: as written, or corrected. */
  datatype NameGuard = WrittenGuard | CorrectedGuard

  /** Whether the guard `g` lets `name` through. */
  predicate Accepts(g: NameGuard, name: string)
  {
    match g
    case WrittenGuard => NameAcceptedAsWritten(name)
    case CorrectedGuard => NameAccepted(name)
  }

  /** `Make_Kernel` under either name guard. The oracles are: whether the
      source file could be read, and the answers of program creation,
      program build and kernel creation. A missing thread or name, or a name
      the guard refuses, yields null before anything is allocated. A binary
      or unknown source mode, an unreadable file, a failed program creation or
      build, or a failed kernel creation destroys the partial kernel and
      yields null. On success the kernel holds its name and was built with
      the thread's init params followed by the extra params. */
  function MakeKernelWith(g: NameGuard, threadPresent: bool, mode: SourceMode, name: Option<string>, initParams: string, extraParams: string,
                          fileRead: bool, programCode: Code, buildCode: Code, kernelCode: Code): (r: (Option<Kernel>, seq<Event>))
    ensures r.0.Some? <==> threadPresent && name.Some? && Accepts(g, name.value)
                           && SourceReadable(mode, fileRead)
                           && programCode == CL_SUCCESS && buildCode == CL_SUCCESS && kernelCode == CL_SUCCESS
    ensures r.0.Some? ==> var k := r.0.value;
      Valid(k) && k.name == name.value && k.hasProgram && k.hasKernel && r.1 == []
      && |k.buildFlags| == |initParams| + |extraParams|
      && k.buildFlags[..|initParams|] == initParams && k.buildFlags[|initParams|..] == extraParams
    ensures !(threadPresent && name.Some? && Accepts(g, name.value)) ==> r == (None, [])
    ensures r.0.None? && r.1 != [] ==> r.1[|r.1| - 1] == FreeNode(KernelObj) && ReleaseKernel !in r.1
    ensures r.0.None? ==> (ReleaseProgram in r.1 <==> threadPresent && name.Some? && Accepts(g, name.value)
                                                      && SourceReadable(mode, fileRead)
                                                      && programCode == CL_SUCCESS)
  {
    if !threadPresent || name.None? || !Accepts(g, name.value) then (None, [])
    else
      var k0 := Blank(name.value);
      if !SourceReadable(mode, fileRead) then (None, Destroy(Some(k0)).1)
      else
        var k1 := k0.(buildFlags := initParams + extraParams, hasProgram := programCode == CL_SUCCESS);
        // The library tests the OR of both codes, which is non-zero exactly
        // when either code is.
        if programCode != CL_SUCCESS || buildCode != CL_SUCCESS then (None, Destroy(Some(k1)).1)
        else if kernelCode != CL_SUCCESS then (None, Destroy(Some(k1)).1)
        else (Some(k1.(hasKernel := true)), [])
  }

  /** `Make_Kernel` with the corrected name guard: a kernel is made exactly
      when the thread and a name that fits with its terminator are given, the
      source is readable and every driver step succeeds. */
  function MakeKernel(threadPresent: bool, mode: SourceMode, name: Option<string>, initParams: string, extraParams: string,
                      fileRead: bool, programCode: Code, buildCode: Code, kernelCode: Code): (r: (Option<Kernel>, seq<Event>))
    ensures r.0.Some? <==> threadPresent && name.Some? && NameAccepted(name.value)
                           && SourceReadable(mode, fileRead)
                           && programCode == CL_SUCCESS && buildCode == CL_SUCCESS && kernelCode == CL_SUCCESS
    ensures r.0.Some? ==> var k := r.0.value;
      Valid(k) && k.name == name.value && |k.name| + 1 <= OCL_KERNEL_NAME_MAX_LEN && k.hasProgram && k.hasKernel && r.1 == []
      && |k.buildFlags| == |initParams| + |extraParams|
      && k.buildFlags[..|initParams|] == initParams && k.buildFlags[|initParams|..] == extraParams
    ensures !(threadPresent && name.Some? && NameAccepted(name.value)) ==> r == (None, [])
    ensures r.0.None? && r.1 != [] ==> r.1[|r.1| - 1] == FreeNode(KernelObj) && ReleaseKernel !in r.1
  {
    MakeKernelWith(CorrectedGuard, threadPresent, mode, name, initParams, extraParams, fileRead, programCode, buildCode, kernelCode)
  }

  /** `Make_Kernel` with the name guard as written: it accepts every name of
      at most 256 characters. */
  function MakeKernelAsWritten(threadPresent: bool, mode: SourceMode, name: Option<string>, initParams: string, extraParams: string,
                               fileRead: bool, programCode: Code, buildCode: Code, kernelCode: Code): (r: (Option<Kernel>, seq<Event>))
    ensures r.0.Some? <==> threadPresent && name.Some? && |name.value| <= OCL_KERNEL_NAME_MAX_LEN
                           && SourceReadable(mode, fileRead)
                           && programCode == CL_SUCCESS && buildCode == CL_SUCCESS && kernelCode == CL_SUCCESS
    ensures r.0.Some? ==> r.0.value.name == name.value
  {
    MakeKernelWith(WrittenGuard, threadPresent, mode, name, initParams, extraParams, fileRead, programCode, buildCode, kernelCode)
  }

  /** A 256-character name with every step succeeding: as written a kernel
      is made whose name needs 257 bytes in its 256-byte array; corrected,
      no kernel is made and nothing is allocated. */
  lemma MakeKernelStoresOverlongName(mode: SourceMode, initParams: string, extraParams: string)
    requires mode == ReadFromString
    ensures var name := seq(256, _ => 'k');
      var w := MakeKernelAsWritten(true, mode, Some(name), initParams, extraParams, true, CL_SUCCESS, CL_SUCCESS, CL_SUCCESS);
      w.0.Some? && |w.0.value.name| + 1 > OCL_KERNEL_NAME_MAX_LEN
      && MakeKernel(true, mode, Some(name), initParams, extraParams, true, CL_SUCCESS, CL_SUCCESS, CL_SUCCESS) == (None, [])
  {
  }

  /** Destroying a kernel releases the driver kernel and program once each
      when present, and destroys the timer and slot and frees the kernel
      exactly once. */
  lemma DestroyReleasesOnce(k: Kernel, x: Event)
    ensures Occurrences(Destroy(Some(k)).1, x)
         == (if x == ReleaseKernel && k.hasKernel then 1 else 0) + (if x == ReleaseProgram && k.hasProgram then 1 else 0)
            + (if x == DestroyTimer(KernelObj) || x == DestroyError(KernelObj) || x == FreeNode(KernelObj) then 1 else 0)
  {
    var a: seq<Event> := if k.hasKernel then [ReleaseKernel] else [];
    var b: seq<Event> := if k.hasProgram then [ReleaseProgram] else [];
    var c := [DestroyTimer(KernelObj), DestroyError(KernelObj), FreeNode(KernelObj)];
    assert Destroy(Some(k)).1 == (a + b) + c;
    OccurrencesConcat(a + b, c, x);
    OptionalPairOccurrences(k.hasKernel, k.hasProgram, x);
    TailOccurrences(x);
  }

  /** How often `x` occurs among the driver releases of a kernel. */
  lemma OptionalPairOccurrences(hasKernel: bool, hasProgram: bool, x: Event)
    ensures Occurrences((if hasKernel then [ReleaseKernel] else []) + (if hasProgram then [ReleaseProgram] else []), x)
         == (if x == ReleaseKernel && hasKernel then 1 else 0) + (if x == ReleaseProgram && hasProgram then 1 else 0)
  {
    var a: seq<Event> := if hasKernel then [ReleaseKernel] else [];
    var b: seq<Event> := if hasProgram then [ReleaseProgram] else [];
    OccurrencesConcat(a, b, x);
    if hasKernel { OneOccurrence(ReleaseKernel, x); }
    if hasProgram { OneOccurrence(ReleaseProgram, x); }
  }

  /** How often `x` occurs in the fixed tail of a kernel's destruction. */
  lemma TailOccurrences(x: Event)
    ensures Occurrences([DestroyTimer(KernelObj), DestroyError(KernelObj), FreeNode(KernelObj)], x)
         == (if x == DestroyTimer(KernelObj) || x == DestroyError(KernelObj) || x == FreeNode(KernelObj) then 1 else 0)
  {
    var c := [DestroyTimer(KernelObj), DestroyError(KernelObj)];
    assert [DestroyTimer(KernelObj), DestroyError(KernelObj), FreeNode(KernelObj)] == c + [FreeNode(KernelObj)];
    OccurrencesConcat(c, [FreeNode(KernelObj)], x);
    PairOccurrences(DestroyTimer(KernelObj), DestroyError(KernelObj), x);
    OneOccurrence(FreeNode(KernelObj), x);
  }

  /** A made kernel, destroyed, releases its driver kernel and program and
      frees itself exactly once each; a failed Make_Kernel frees its partial
      kernel exactly once and never releases a driver kernel. */
  lemma MakeThenDestroy(threadPresent: bool, mode: SourceMode, name: Option<string>, initParams: string, extraParams: string,
                        fileRead: bool, programCode: Code, buildCode: Code, kernelCode: Code)
    ensures var r := MakeKernel(threadPresent, mode, name, initParams, extraParams, fileRead, programCode, buildCode, kernelCode);
      r.0.Some? ==> var t := Destroy(r.0).1;
        Occurrences(t, ReleaseKernel) == 1 && Occurrences(t, ReleaseProgram) == 1 && Occurrences(t, FreeNode(KernelObj)) == 1
    ensures var r := MakeKernel(threadPresent, mode, name, initParams, extraParams, fileRead, programCode, buildCode, kernelCode);
      r.0.None? && r.1 != [] ==> Occurrences(r.1, FreeNode(KernelObj)) == 1 && Occurrences(r.1, ReleaseKernel) == 0
  {
    var r := MakeKernel(threadPresent, mode, name, initParams, extraParams, fileRead, programCode, buildCode, kernelCode);
    if r.0.Some? {
      DestroyReleasesOnce(r.0.value, ReleaseKernel);
      DestroyReleasesOnce(r.0.value, ReleaseProgram);
      DestroyReleasesOnce(r.0.value, FreeNode(KernelObj));
    } else if r.1 != [] {
      var k0 := Blank(name.value);
      var k1 := k0.(buildFlags := initParams + extraParams, hasProgram := programCode == CL_SUCCESS);
      if !SourceReadable(mode, fileRead) {
        DestroyReleasesOnce(k0, FreeNode(KernelObj));
        DestroyReleasesOnce(k0, ReleaseKernel);
      } else {
        DestroyReleasesOnce(k1, FreeNode(KernelObj));
        DestroyReleasesOnce(k1, ReleaseKernel);
      }
    }
  }
}

=== FILE: mem_objects.dfy ===
/** Memory objects (mem_object.c): a Buffer or an Image sharing one record,
    the Unmapped/Mapped discipline held in the stored mapping, the checks that
    guard Copy and Swap, sub-buffer construction, the accessors that are
    undefined for Buffers, and the tolerant Destroy. Driver calls are oracle
    parameters; device memory contents are not modelled. */
module MemObjects {
  import opened Common
  import opened Codes
  import opened Errors
  import opened Timers

  datatype MemType = Buffer | Image
  datatype Paternity = ParentObject | ChildObject

  /** One memory object. `mapped` is the host address of the outstanding
      mapping (0 when unmapped); `hostPtr` is the user's host pointer (0 when
      none). The function pointers the library binds per type are captured by
      dispatching on `memType`; an Image has no Erase and no Make_Child (the
      constructor leaves both pointers null), which `CallErase` and
      `CallMakeChild` model. */
  datatype MemObject = MemObject(
    memType: MemType,
    paternity: Paternity,
    flags: nat,
    size: nat,
    width: nat,
    height: nat,
    rowPitch: nat,
    origin: nat,
    hostPtr: Addr,
    mapped: Addr,
    error: ErrorSlot,
    timer: Timer)

  predicate IsMapped(o: MemObject)
  {
    o.mapped != 0
  }

  /** The answer of the driver's map call: the mapped region (and, for an
      Image, the row pitch it reports), or a failure code. */
  datatype MapAnswer = MapOk(region: NonNullAddr, pitch: nat) | MapFailed(code: ErrCode)

  /** The object after Map, the pointer Map returns (0 for null) and the code
      this call OR-ed into the error slot (0 when it recorded nothing). */
  datatype MapResult = MapResult(obj: MemObject, ptr: Addr, recorded: Code)

  /** `Buffer_Map` / `Image_Map`. A blocking flag above CL_TRUE (1) and an
      object that is already mapped are refused by recording a code and
      returning null; a driver failure is recorded likewise. On success the
      region becomes the stored mapping, an Image takes the row pitch the
      driver reports, and in MEASURE mode the device time grows by the map's
      duration (without counting a call). */
  function Map(self: MemObject, blocking: nat, mode: TimeMode, answer: MapAnswer, duration: real): (r: MapResult)
    ensures r.ptr == 0 <==> r.recorded != CL_SUCCESS
    ensures r.ptr == 0 ==> r.obj == self.(error := Record(self.error, r.recorded))
    ensures blocking > 1 ==> r.ptr == 0 && r.recorded == INVALID_BLOCKING_FLAG
    ensures blocking <= 1 && IsMapped(self) ==> r.ptr == 0 && r.recorded == BUFFER_IN_USE && r.obj.mapped == self.mapped
    ensures blocking <= 1 && !IsMapped(self) && answer.MapFailed? ==> r.ptr == 0 && r.recorded == answer.code
    ensures r.ptr != 0 ==> !IsMapped(self) && blocking <= 1 && answer.MapOk?
    ensures r.ptr != 0 ==> r.obj.mapped == r.ptr == answer.region && r.obj.error == self.error
    ensures r.ptr != 0 ==> r.obj.rowPitch == (if self.memType == Image then answer.pitch else self.rowPitch)
    ensures r.ptr != 0 && mode == DontMeasure ==> r.obj.timer == self.timer
    ensures r.ptr != 0 && mode == Measure ==> r.obj.timer == RecordDeviceRun(self.timer, duration, false)
  {
    if blocking > 1 then
      MapResult(self.(error := Record(self.error, INVALID_BLOCKING_FLAG)), 0, INVALID_BLOCKING_FLAG)
    else if IsMapped(self) then
      MapResult(self.(error := Record(self.error, BUFFER_IN_USE)), 0, BUFFER_IN_USE)
    else match answer
      case MapFailed(c) => MapResult(self.(error := Record(self.error, c)), 0, c)
      case MapOk(region, pitch) =>
        var pitched := if self.memType == Image then self.(rowPitch := pitch) else self;
        var timed := if mode == Measure then RecordDeviceRun(self.timer, duration, false) else self.timer;
        MapResult(pitched.(mapped := region, timer := timed), region, CL_SUCCESS)
  }

  /** The object after Unmap, the caller's pointer slot afterwards (None when
      the caller passed no slot) and the return code. */
  datatype UnmapResult = UnmapResult(obj: MemObject, callerPtr: Option<Addr>, code: Code)

  /** `Mem_Object_Unmap`. `callerPtr` is the caller's pointer slot, None when
      the caller passes none. Without a mapping it answers MEM_OBJ_NOT_MAPPED;
      a null or foreign caller pointer is refused; a driver failure is
      returned. In all those cases nothing changes. On success the mapping and
      row pitch are cleared, the caller's pointer is nulled, and MEASURE mode
      adds the unmap's duration to the device time. */
  function Unmap(self: MemObject, callerPtr: Option<Addr>, mode: TimeMode, driverCode: Code, duration: real): (r: UnmapResult)
    ensures r.code != CL_SUCCESS ==> r.obj == self && r.callerPtr == callerPtr
    ensures !IsMapped(self) ==> r.code == MEM_OBJ_NOT_MAPPED
    ensures IsMapped(self) && callerPtr == Some(0) ==> r.code == INVALID_BUFFER_GIVEN
    ensures IsMapped(self) && callerPtr.Some? && callerPtr.value != 0 && callerPtr.value != self.mapped ==> r.code == WRONG_PARENT_OBJECT
    ensures IsMapped(self) && (callerPtr.Some? ==> callerPtr.value == self.mapped) && driverCode != CL_SUCCESS ==> r.code == driverCode
    ensures r.code == CL_SUCCESS <==> IsMapped(self) && (callerPtr.Some? ==> callerPtr.value == self.mapped) && driverCode == CL_SUCCESS
    ensures r.code == CL_SUCCESS ==> !IsMapped(r.obj) && r.obj.rowPitch == 0 && r.obj.error == self.error
    ensures r.code == CL_SUCCESS ==> r.callerPtr == (if callerPtr.Some? then Some(0) else None)
    ensures r.code == CL_SUCCESS ==> r.obj.timer == (if mode == Measure then RecordDeviceRun(self.timer, duration, false) else self.timer)
  {
    if !IsMapped(self) then UnmapResult(self, callerPtr, MEM_OBJ_NOT_MAPPED)
    else if callerPtr == Some(0) then UnmapResult(self, callerPtr, INVALID_BUFFER_GIVEN)
    else if callerPtr.Some? && callerPtr.value != self.mapped then UnmapResult(self, callerPtr, WRONG_PARENT_OBJECT)
    else if driverCode != CL_SUCCESS then UnmapResult(self, callerPtr, driverCode)
    else
      var timed := if mode == Measure then RecordDeviceRun(self.timer, duration, false) else self.timer;
      UnmapResult(self.(mapped := 0, rowPitch := 0, timer := timed),
                  if callerPtr.Some? then Some(0) else None, CL_SUCCESS)
  }

  /** Map followed by Unmap of the pointer Map returned brings an unmapped
      object back to Unmapped with the caller's pointer nulled; without time
      measurement the only other trace left is a cleared row pitch. */
  lemma MapUnmapRoundTrip(self: MemObject, blocking: nat, region: NonNullAddr, pitch: nat)
    requires !IsMapped(self) && blocking <= 1
    ensures Map(self, blocking, DontMeasure, MapOk(region, pitch), 0.0).ptr == region
    ensures Unmap(Map(self, blocking, DontMeasure, MapOk(region, pitch), 0.0).obj, Some(region), DontMeasure, CL_SUCCESS, 0.0)
      == UnmapResult(self.(rowPitch := 0), Some(0), CL_SUCCESS)
  {
  }

  /** While an object is mapped a second Map is refused and the existing
      mapping survives. */
  lemma NoDoubleMapping(self: MemObject, blocking: nat, mode: TimeMode, answer: MapAnswer, duration: real)
    requires IsMapped(self)
    ensures Map(self, blocking, mode, answer, duration).ptr == 0
    ensures Map(self, blocking, mode, answer, duration).obj.mapped == self.mapped
  {
  }

  /** The dimensions the size check of Image_Copy compares; for a Buffer, its
      byte size. */
  predicate TooBig(self: MemObject, dest: MemObject)
  {
    if self.memType == Buffer then self.size > dest.size
    else self.rowPitch > dest.rowPitch || self.height > dest.height || self.width > dest.width
  }

  /** The source object after Copy, the return code, and whether the driver
      copy was enqueued. */
  datatype CopyResult = CopyResult(obj: MemObject, code: Code, enqueued: bool)

  /** `Buffer_Copy`: type check, then size check, then the self-copy
      shortcut, then the driver copy. */
  function BufferCopy(self: MemObject, dest: MemObject, same: bool, mode: TimeMode, driverCode: Code, duration: real): (r: CopyResult)
    requires self.memType == Buffer
    requires same ==> self == dest
    ensures r.obj.(timer := self.timer) == self
    ensures dest.memType == Image ==> r == CopyResult(self, DISTINCT_MEM_OBJECTS, false)
    ensures dest.memType == Buffer && self.size > dest.size ==> r == CopyResult(self, INVALID_BUFFER_SIZE, false)
    ensures dest.memType == Buffer && same ==> r.code == CL_SUCCESS && r.obj.timer == self.timer.(currentDevice := 0.0)
    ensures r.enqueued <==> dest.memType == Buffer && self.size <= dest.size && !same
    ensures r.enqueued ==> r.code == driverCode
  {
    if self.memType != dest.memType then CopyResult(self, DISTINCT_MEM_OBJECTS, false)
    else if self.size > dest.size then CopyResult(self, INVALID_BUFFER_SIZE, false)
    else if same then CopyResult(self.(timer := self.timer.(currentDevice := 0.0)), CL_SUCCESS, false)
    else if driverCode != CL_SUCCESS then CopyResult(self, driverCode, true)
    else CopyResult(self.(timer := if mode == Measure then RecordDeviceRun(self.timer, duration, false) else self.timer), CL_SUCCESS, true)
  }

  /** `Image_Copy`: type check, then the self-copy shortcut, then the
      row-pitch/height/width check, then the driver copy. */
  function ImageCopy(self: MemObject, dest: MemObject, same: bool, mode: TimeMode, driverCode: Code, duration: real): (r: CopyResult)
    requires self.memType == Image
    requires same ==> self == dest
    ensures r.obj.(timer := self.timer) == self
    ensures dest.memType == Buffer ==> r == CopyResult(self, DISTINCT_MEM_OBJECTS, false)
    ensures dest.memType == Image && same ==> r.code == CL_SUCCESS && r.obj.timer == self.timer.(currentDevice := 0.0)
    ensures dest.memType == Image && !same && (self.rowPitch > dest.rowPitch || self.height > dest.height || self.width > dest.width)
      ==> r == CopyResult(self, INVALID_BUFFER_SIZE, false)
    ensures r.enqueued <==> dest.memType == Image && !same && self.rowPitch <= dest.rowPitch && self.height <= dest.height && self.width <= dest.width
    ensures r.enqueued ==> r.code == driverCode
  {
    if self.memType != dest.memType then CopyResult(self, DISTINCT_MEM_OBJECTS, false)
    else if same then
      var zeroed := self.timer.(currentDevice := 0.0);
      CopyResult(self.(timer := zeroed.(totalDevice := zeroed.totalDevice + zeroed.currentDevice)), CL_SUCCESS, false)
    else if self.rowPitch > dest.rowPitch || self.height > dest.height || self.width > dest.width then
      CopyResult(self, INVALID_BUFFER_SIZE, false)
    else if driverCode != CL_SUCCESS then CopyResult(self, driverCode, true)
    else CopyResult(self.(timer := if mode == Measure then RecordDeviceRun(self.timer, duration, false) else self.timer), CL_SUCCESS, true)
  }

  /** `Copy` as bound per type. `same` says that `dest` is `self` itself.
      Mixed types are refused, copying onto itself enqueues nothing and only
      zeroes the last device time, a source larger than the destination is
      refused, and otherwise the driver copy is enqueued and its code
      returned. Nothing but the source's timer ever changes. */
  function Copy(self: MemObject, dest: MemObject, same: bool, mode: TimeMode, driverCode: Code, duration: real): (r: CopyResult)
    requires same ==> self == dest
    ensures r.obj.(timer := self.timer) == self
    ensures self.memType != dest.memType ==> r == CopyResult(self, DISTINCT_MEM_OBJECTS, false)
    ensures self.memType == dest.memType && same ==> r.code == CL_SUCCESS && !r.enqueued
    ensures self.memType == dest.memType && same ==> r.obj.timer == self.timer.(currentDevice := 0.0)
    ensures self.memType == dest.memType && !same && TooBig(self, dest) ==> r == CopyResult(self, INVALID_BUFFER_SIZE, false)
    ensures r.enqueued <==> self.memType == dest.memType && !same && !TooBig(self, dest)
    ensures r.enqueued ==> r.code == driverCode
    ensures r.enqueued && (driverCode != CL_SUCCESS || mode == DontMeasure) ==> r.obj == self
    ensures r.enqueued && driverCode == CL_SUCCESS && mode == Measure ==> r.obj.timer == RecordDeviceRun(self.timer, duration, false)
  {
    if self.memType == Buffer then BufferCopy(self, dest, same, mode, driverCode, duration)
    else ImageCopy(self, dest, same, mode, driverCode, duration)
  }

  /** `Mem_Object_Swap` on the caller's two references (None for a null
      reference): type tag, then flags, then size must match, in that order;
      on success the references are exchanged and nothing else changes. */
  function Swap(a: Option<MemObject>, b: Option<MemObject>): (r: (Option<MemObject>, Option<MemObject>, Code))
    ensures r.2 != CL_SUCCESS ==> r.0 == a && r.1 == b
    ensures r.2 == CL_SUCCESS ==> r.0 == b && r.1 == a
    ensures a.None? || b.None? ==> r.2 == INVALID_BUFFER_GIVEN
    ensures a.Some? && b.Some? && a.value.memType != b.value.memType ==> r.2 == DISTINCT_MEM_OBJECTS
    ensures a.Some? && b.Some? && a.value.memType == b.value.memType && a.value.flags != b.value.flags ==> r.2 == DISTINCT_MEM_FLAGS
    ensures a.Some? && b.Some? && a.value.memType == b.value.memType && a.value.flags == b.value.flags && a.value.size != b.value.size ==> r.2 == INVALID_BUFFER_SIZE
    ensures r.2 == CL_SUCCESS <==> a.Some? && b.Some? && a.value.memType == b.value.memType && a.value.flags == b.value.flags && a.value.size == b.value.size
  {
    if a.None? || b.None? then (a, b, INVALID_BUFFER_GIVEN)
    else if a.value.memType != b.value.memType then (a, b, DISTINCT_MEM_OBJECTS)
    else if a.value.flags != b.value.flags then (a, b, DISTINCT_MEM_FLAGS)
    else if a.value.size != b.value.size then (a, b, INVALID_BUFFER_SIZE)
    else (b, a, CL_SUCCESS)
  }

  /** Swapping twice restores both references. */
  lemma SwapTwice(a: Option<MemObject>, b: Option<MemObject>)
    ensures var (x, y, _) := Swap(a, b); Swap(x, y).0 == a && Swap(x, y).1 == b
  {
  }

  /** Which extent an accessor reads. */
  datatype Extent = Width | Height | RowPitch

  /** `Buffer_Get_Width/Height/Row_Pitch` and their Image counterparts: an
      Image answers the stored extent; a Buffer answers 0 and records
      CALLING_UNDEF_ACCESSOR. */
  function GetExtent(self: MemObject, which: Extent): (r: (MemObject, nat))
    ensures self.memType == Buffer ==> r.1 == 0 && r.0 == self.(error := Record(self.error, CALLING_UNDEF_ACCESSOR))
    ensures self.memType == Image ==> r.0 == self
    ensures self.memType == Image && which == Width ==> r.1 == self.width
    ensures self.memType == Image && which == Height ==> r.1 == self.height
    ensures self.memType == Image && which == RowPitch ==> r.1 == self.rowPitch
  {
    if self.memType == Buffer then (self.(error := Record(self.error, CALLING_UNDEF_ACCESSOR)), 0)
    else match which
      case Width => (self, self.width)
      case Height => (self, self.height)
      case RowPitch => (self, self.rowPitch)
  }

  /** `Buffer_Erase` as written: map for writing, then test the ACCUMULATED
      error slot rather than the map's own result, clear the bytes (not
      modelled), and unmap. A code left in the slot by an earlier failure
      makes Erase fail after a successful map, leaving the buffer mapped. */
  function EraseAsWritten(self: MemObject, answer: MapAnswer, unmapCode: Code): (r: (MemObject, Code))
    requires self.memType == Buffer
    ensures self.error.lastCode != CL_SUCCESS ==> r.1 != CL_SUCCESS && r.1 & self.error.lastCode == self.error.lastCode
    ensures IsMapped(self) ==> r.0.mapped == self.mapped && r.1 & BUFFER_IN_USE == BUFFER_IN_USE
    ensures self.error.lastCode == CL_SUCCESS && !IsMapped(self) && answer.MapOk? ==> r.1 == unmapCode
  {
    var m := Map(self, 1, DontMeasure, answer, 0.0);
    var ret := m.obj.error.lastCode;
    if ret != CL_SUCCESS then (m.obj, ret)
    else
      var u := Unmap(m.obj, Some(m.ptr), DontMeasure, unmapCode, 0.0);
      (u.obj, u.code)
  }

  /** `Buffer_Erase` testing the map's own result: it fails exactly when the
      map or the unmap fails, and a successful Erase of an unmapped buffer
      leaves it unmapped whatever the slot held before. */
  function Erase(self: MemObject, answer: MapAnswer, unmapCode: Code): (r: (MemObject, Code))
    requires self.memType == Buffer
    ensures IsMapped(self) ==> r.1 == BUFFER_IN_USE && r.0.mapped == self.mapped
    ensures !IsMapped(self) && answer.MapFailed? ==> r.1 == answer.code && !IsMapped(r.0)
    ensures !IsMapped(self) && answer.MapOk? ==> r.1 == unmapCode
    ensures !IsMapped(self) && answer.MapOk? && unmapCode == CL_SUCCESS ==> !IsMapped(r.0) && r.0.error == self.error
  {
    var m := Map(self, 1, DontMeasure, answer, 0.0);
    if m.ptr == 0 then (m.obj, m.recorded)
    else
      var u := Unmap(m.obj, Some(m.ptr), DontMeasure, unmapCode, 0.0);
      (u.obj, u.code)
  }

  /** A buffer whose slot still holds INVALID_BLOCKING_FLAG from an earlier
      call: as written, Erase reports that stale code although the map
      succeeded, and leaves the buffer mapped; the corrected Erase succeeds
      and leaves it unmapped. */
  lemma EraseStaleSlot()
    ensures var b := MemObject(Buffer, ParentObject, 0, 16, 0, 0, 0, 0, 0, 0, ErrorSlot(INVALID_BLOCKING_FLAG), MakeTimer());
      EraseAsWritten(b, MapOk(64, 0), CL_SUCCESS) == (b.(mapped := 64), INVALID_BLOCKING_FLAG)
      && Erase(b, MapOk(64, 0), CL_SUCCESS).1 == CL_SUCCESS
      && !IsMapped(Erase(b, MapOk(64, 0), CL_SUCCESS).0)
  {
  }

  /** As written, a successful map on a buffer whose slot holds an earlier
      failure ends the Erase: the stale code is returned and the buffer stays
      mapped to the region the driver gave. */
  lemma StaleSlotLeavesMapped(self: MemObject, region: NonNullAddr, pitch: nat, unmapCode: Code)
    requires self.memType == Buffer && !IsMapped(self) && self.error.lastCode != CL_SUCCESS
    ensures EraseAsWritten(self, MapOk(region, pitch), unmapCode) == (self.(mapped := region), self.error.lastCode)
  {
  }

  /** With a clean slot the two Erase variants agree. */
  lemma EraseAgreesOnCleanSlot(self: MemObject, answer: MapAnswer, unmapCode: Code)
    requires self.memType == Buffer && self.error.lastCode == CL_SUCCESS
    ensures EraseAsWritten(self, answer, unmapCode) == Erase(self, answer, unmapCode)
  {
    var m := Map(self, 1, DontMeasure, answer, 0.0);
    if m.ptr == 0 {
      RecordOnClean(self.error, m.recorded);
    }
  }

  /** A fresh object of the given type, as `calloc` and the constructors
      leave it before the driver call. */
  function Fresh(memType: MemType, flags: nat, size: nat, width: nat, height: nat, hostPtr: Addr): (o: MemObject)
    ensures o.paternity == ParentObject && !IsMapped(o) && o.rowPitch == 0 && o.origin == 0
    ensures o.error == MakeError() && o.timer == MakeTimer()
  {
    MemObject(memType, ParentObject, flags, size, width, height, 0, 0, hostPtr, 0, MakeError(), MakeTimer())
  }

  /** What a constructor's `self->Destroy(self)` releases when the driver
      refuses to create the object: the driver handle is null, so the
      release answers CL_INVALID_MEM_OBJECT, which Destroy tolerates, and
      the unmapped partial object is freed. */
  function DestroyPartial(o: MemObject): (t: seq<Event>)
    requires !IsMapped(o)
    ensures t == [DestroyError(MemObj), DestroyTimer(MemObj), ReleaseMem, FreeNode(MemObj)]
    ensures Destroy(Some(o), CL_SUCCESS, CL_INVALID_MEM_OBJECT).0 == CL_SUCCESS
  {
    Destroy(Some(o), CL_SUCCESS, CL_INVALID_MEM_OBJECT).1
  }

  /** `Buffer_Make_Sub_Buffer` with the region (`origin`, `size`) and the
      driver's answer: an Image is refused with INVALID_ARG_TYPE and a child
      with WRONG_PARENT_OBJECT, both recorded in the parent's slot; a driver
      failure destroys the partial child, yields no child and leaves the
      parent as it was. A child is an unmapped Buffer of CHILD paternity
      with the given flags and region, whose host pointer is offset into the
      parent's when the parent has one. Also returns what was released. */
  function MakeChild(self: MemObject, flags: nat, origin: nat, size: nat, driverCode: Code): (r: (MemObject, Option<MemObject>, seq<Event>))
    ensures self.memType == Image ==> r == (self.(error := Record(self.error, INVALID_ARG_TYPE)), None, [])
    ensures self.memType == Buffer && self.paternity == ChildObject ==> r == (self.(error := Record(self.error, WRONG_PARENT_OBJECT)), None, [])
    ensures r.1.Some? <==> self.memType == Buffer && self.paternity == ParentObject && driverCode == CL_SUCCESS
    ensures r.1.Some? || (self.memType == Buffer && self.paternity == ParentObject) ==> r.0 == self
    ensures r.1.Some? ==> r.2 == []
    ensures self.memType == Buffer && self.paternity == ParentObject && driverCode != CL_SUCCESS ==>
      r.2 == [DestroyError(MemObj), DestroyTimer(MemObj), ReleaseMem, FreeNode(MemObj)]
    ensures r.1.Some? ==> var c := r.1.value;
      c.memType == Buffer && c.paternity == ChildObject && c.flags == flags
      && c.size == size && c.origin == origin && !IsMapped(c)
      && c.hostPtr == (if self.hostPtr != 0 then self.hostPtr + origin else 0)
      && c.error == MakeError() && c.timer == MakeTimer()
  {
    if self.memType != Buffer then (self.(error := Record(self.error, INVALID_ARG_TYPE)), None, [])
    else if self.paternity != ParentObject then (self.(error := Record(self.error, WRONG_PARENT_OBJECT)), None, [])
    else
      var child := Fresh(Buffer, flags, 0, 0, 0, 0).(paternity := ChildObject);
      if driverCode != CL_SUCCESS then (self, None, DestroyPartial(child))
      else
        (self, Some(child.(size := size, origin := origin,
                           hostPtr := if self.hostPtr != 0 then self.hostPtr + origin else 0)), [])
  }

  /** A child can never parent a further child. */
  lemma NoGrandchildren(self: MemObject, flags: nat, origin: nat, size: nat, f2: nat, o2: nat, s2: nat, code2: Code)
    requires MakeChild(self, flags, origin, size, CL_SUCCESS).1.Some?
    ensures MakeChild(MakeChild(self, flags, origin, size, CL_SUCCESS).1.value, f2, o2, s2, code2).1.None?
  {
  }

  /** `Make_Buffer`: no parent thread gives null with nothing made; a
      driver failure destroys the partial Buffer and gives null; otherwise
      an unmapped parent Buffer with the given flags, size and host pointer
      and a fresh slot and timer. Also returns what was released. */
  function MakeBuffer(threadPresent: bool, flags: nat, size: nat, hostPtr: Addr, createCode: Code): (r: (Option<MemObject>, seq<Event>))
    ensures r.0.Some? <==> threadPresent && createCode == CL_SUCCESS
    ensures r.0.Some? ==> r.0.value.memType == Buffer && r.0.value.paternity == ParentObject && !IsMapped(r.0.value)
    ensures r.0.Some? ==> r.0.value.flags == flags && r.0.value.size == size && r.0.value.hostPtr == hostPtr
    ensures r.0.Some? ==> r.0.value.error.lastCode == CL_SUCCESS
    ensures r.0.Some? || !threadPresent ==> r.1 == []
    ensures threadPresent && createCode != CL_SUCCESS ==>
      r.1 == [DestroyError(MemObj), DestroyTimer(MemObj), ReleaseMem, FreeNode(MemObj)]
  {
    if !threadPresent then (None, [])
    else
      var self := Fresh(Buffer, flags, size, 0, 0, hostPtr);
      if createCode != CL_SUCCESS then (None, DestroyPartial(self)) else (Some(self), [])
  }

  /** `Mem_Object_Destroy` (None is a null object): destroys the slot and the
      timer, unmaps a mapped object, releases the driver object and frees.
      An unmap failure other than "not mapped" or a release failure other
      than CL_INVALID_MEM_OBJECT is returned before the free. */
  function Destroy(self: Option<MemObject>, unmapCode: Code, releaseCode: Code): (r: (Code, seq<Event>))
    ensures self.None? ==> r == (CL_SUCCESS, [])
    ensures self.Some? ==> |r.1| >= 2 && r.1[..2] == [DestroyError(MemObj), DestroyTimer(MemObj)]
    ensures r.0 == CL_SUCCESS <==> self.None? || ((!IsMapped(self.value) || unmapCode == CL_SUCCESS || unmapCode == MEM_OBJ_NOT_MAPPED)
                                                  && (releaseCode == CL_SUCCESS || releaseCode == CL_INVALID_MEM_OBJECT))
    ensures self.Some? && IsMapped(self.value) && unmapCode != CL_SUCCESS && unmapCode != MEM_OBJ_NOT_MAPPED ==>
              r.0 == unmapCode
    ensures self.Some? && (!IsMapped(self.value) || unmapCode == CL_SUCCESS || unmapCode == MEM_OBJ_NOT_MAPPED)
              && releaseCode != CL_SUCCESS && releaseCode != CL_INVALID_MEM_OBJECT ==>
              r.0 == releaseCode
    ensures self.Some? ==> (FreeNode(MemObj) in r.1 <==> r.0 == CL_SUCCESS)
    ensures self.Some? && r.0 == CL_SUCCESS ==> r.1[|r.1| - 1] == FreeNode(MemObj)
  {
    if self.None? then (CL_SUCCESS, [])
    else
      var o := self.value;
      var head := [DestroyError(MemObj), DestroyTimer(MemObj)];
      var u := Unmap(o, None, DontMeasure, unmapCode, 0.0);
      var unmapped := head + (if IsMapped(o) then [UnmapMem] else []);
      if u.code != CL_SUCCESS && u.code != MEM_OBJ_NOT_MAPPED then (u.code, unmapped)
      else if releaseCode != CL_SUCCESS && releaseCode != CL_INVALID_MEM_OBJECT then (releaseCode, unmapped + [ReleaseMem])
      else (CL_SUCCESS, unmapped + [ReleaseMem, FreeNode(MemObj)])
  }

  /** `Make_Image`: no parent thread or no image format gives null with
      nothing made; a driver failure destroys the partial Image and gives
      null; otherwise an unmapped parent Image with the given flags, width,
      height and host pointer, a row pitch of 0 (the row-pitch argument is
      not used) and a fresh slot and timer. Also returns what was released. */
  function MakeImage(threadPresent: bool, formatPresent: bool, flags: nat, width: nat, height: nat, hostPtr: Addr, createCode: Code): (r: (Option<MemObject>, seq<Event>))
    ensures r.0.Some? <==> threadPresent && formatPresent && createCode == CL_SUCCESS
    ensures r.0.Some? ==> r.0.value.memType == Image && r.0.value.paternity == ParentObject && !IsMapped(r.0.value)
    ensures r.0.Some? ==> r.0.value.flags == flags && r.0.value.width == width && r.0.value.height == height && r.0.value.hostPtr == hostPtr
    ensures r.0.Some? ==> r.0.value.rowPitch == 0 && r.0.value.error.lastCode == CL_SUCCESS
    ensures r.0.Some? || !threadPresent || !formatPresent ==> r.1 == []
    ensures threadPresent && formatPresent && createCode != CL_SUCCESS ==>
      r.1 == [DestroyError(MemObj), DestroyTimer(MemObj), ReleaseMem, FreeNode(MemObj)]
  {
    if !threadPresent || !formatPresent then (None, [])
    else
      var self := Fresh(Image, flags, 0, width, height, hostPtr);
      if createCode != CL_SUCCESS then (None, DestroyPartial(self)) else (Some(self), [])
  }

  /** The outcome of calling through one of an object's function pointers:
      the bound function's result, or a call through a null pointer, which C
      leaves undefined. */
  datatype Call<T> = Called(result: T) | NullPointer

  /** `self->Erase(self)`: the constructors bind Erase for a Buffer and leave
      it null for an Image. */
  function CallErase(self: MemObject, answer: MapAnswer, unmapCode: Code): (r: Call<(MemObject, Code)>)
    ensures r.NullPointer? <==> self.memType == Image
    ensures r.Called? && IsMapped(self) ==> r.result.1 == BUFFER_IN_USE
    ensures r.Called? && !IsMapped(self) && answer.MapFailed? ==> r.result.1 == answer.code
    ensures r.Called? && !IsMapped(self) && answer.MapOk? ==> r.result.1 == unmapCode
  {
    if self.memType == Image then NullPointer else Called(Erase(self, answer, unmapCode))
  }

  /** `self->Make_Child(...)`: bound to the sub-buffer constructor for a
      Buffer and left null for an Image, so the constructor's own Image check
      is never reached through the pointer. */
  function CallMakeChild(self: MemObject, flags: nat, origin: nat, size: nat, driverCode: Code): (r: Call<(MemObject, Option<MemObject>, seq<Event>)>)
    ensures r.NullPointer? <==> self.memType == Image
    ensures r.Called? ==> (r.result.1.Some? <==> self.paternity == ParentObject && driverCode == CL_SUCCESS)
    ensures r.Called? && self.paternity == ChildObject ==> r.result.0 == self.(error := Record(self.error, WRONG_PARENT_OBJECT))
    ensures r.Called? && self.paternity == ParentObject ==> r.result.0 == self
  {
    if self.memType == Image then NullPointer else Called(MakeChild(self, flags, origin, size, driverCode))
  }

  /** A made Image answers its width and height and a zero row pitch, and
      has neither Erase nor Make_Child to call. */
  lemma MadeImage(flags: nat, width: nat, height: nat, hostPtr: Addr, answer: MapAnswer, unmapCode: Code,
                  cflags: nat, origin: nat, size: nat, driverCode: Code)
    ensures MakeImage(true, true, flags, width, height, hostPtr, CL_SUCCESS).0.Some?
    ensures var img := MakeImage(true, true, flags, width, height, hostPtr, CL_SUCCESS).0.value;
      GetExtent(img, Width).1 == width && GetExtent(img, Height).1 == height && GetExtent(img, RowPitch).1 == 0
      && CallErase(img, answer, unmapCode).NullPointer?
      && CallMakeChild(img, cflags, origin, size, driverCode).NullPointer?
  {
  }

  /** A made Buffer can parent a sub-buffer placed at `origin` of its host
      memory, reports its undefined accessors as errors, and, unmapped, is
      destroyed in full: slot, timer, driver object, node. */
  lemma MadeBuffer(flags: nat, size: nat, hostPtr: Addr, cflags: nat, origin: nat, csize: nat, which: Extent)
    ensures MakeBuffer(true, flags, size, hostPtr, CL_SUCCESS).0.Some?
    ensures var b := MakeBuffer(true, flags, size, hostPtr, CL_SUCCESS).0.value;
      var c := CallMakeChild(b, cflags, origin, csize, CL_SUCCESS);
      c.Called? && c.result.1.Some? && c.result.1.value.paternity == ChildObject
      && c.result.1.value.hostPtr == (if hostPtr != 0 then hostPtr + origin else 0)
    ensures var b := MakeBuffer(true, flags, size, hostPtr, CL_SUCCESS).0.value;
      GetExtent(b, which).0.error.lastCode == CALLING_UNDEF_ACCESSOR
    ensures Destroy(MakeBuffer(true, flags, size, hostPtr, CL_SUCCESS).0, CL_SUCCESS, CL_SUCCESS)
      == (CL_SUCCESS, [DestroyError(MemObj), DestroyTimer(MemObj), ReleaseMem, FreeNode(MemObj)])
  {
    var b := MakeBuffer(true, flags, size, hostPtr, CL_SUCCESS).0.value;
    RecordOnClean(b.error, CALLING_UNDEF_ACCESSOR);
    assert [DestroyError(MemObj), DestroyTimer(MemObj)] + [] + [ReleaseMem, FreeNode(MemObj)]
      == [DestroyError(MemObj), DestroyTimer(MemObj), ReleaseMem, FreeNode(MemObj)];
  }

  /** Copy succeeds exactly when the types match and either the object is
      copied onto itself or it fits and the driver copy succeeds. */
  lemma CopySucceedsIff(self: MemObject, dest: MemObject, same: bool, mode: TimeMode, driverCode: Code, duration: real)
    requires same ==> self == dest
    ensures Copy(self, dest, same, mode, driverCode, duration).code == CL_SUCCESS
      <==> self.memType == dest.memType && (same || (!TooBig(self, dest) && driverCode == CL_SUCCESS))
  {
  }

  /** Copying an object onto itself a second time changes nothing more. */
  lemma SelfCopyIdempotent(self: MemObject, mode: TimeMode, driverCode: Code, duration: real)
    ensures var once := Copy(self, self, true, mode, driverCode, duration).obj;
      Copy(once, once, true, mode, driverCode, duration).obj == once
  {
  }

  /** The accessors are idempotent: a second read answers the same and, on a
      Buffer, records nothing new. */
  lemma GetExtentTwice(self: MemObject, which: Extent)
    ensures GetExtent(GetExtent(self, which).0, which) == GetExtent(self, which)
  {
    RecordIdempotent(self.error, CALLING_UNDEF_ACCESSOR);
  }

  /** An Image's row pitch reads the pitch the driver reported at its last
      successful map, and 0 once it is unmapped. */
  lemma RowPitchFollowsMapping(self: MemObject, region: NonNullAddr, pitch: nat, mode: TimeMode, duration: real)
    requires self.memType == Image && !IsMapped(self)
    ensures var m := Map(self, 1, mode, MapOk(region, pitch), duration).obj;
      GetExtent(m, RowPitch).1 == pitch
      && GetExtent(Unmap(m, Some(region), mode, CL_SUCCESS, duration).obj, RowPitch).1 == 0
  {
  }

  /** Destroy frees a non-null object's node exactly once when it succeeds
      and never otherwise, releases the driver object at most once, and
      unmaps exactly when the object is mapped. */
  lemma {:induction false} DestroyFreesOnce(self: Option<MemObject>, unmapCode: Code, releaseCode: Code)
    ensures Occurrences(Destroy(self, unmapCode, releaseCode).1, FreeNode(MemObj))
      == if self.Some? && Destroy(self, unmapCode, releaseCode).0 == CL_SUCCESS then 1 else 0
    ensures Occurrences(Destroy(self, unmapCode, releaseCode).1, ReleaseMem) <= 1
    ensures UnmapMem in Destroy(self, unmapCode, releaseCode).1 <==> self.Some? && IsMapped(self.value)
  {
    var (code, trace) := Destroy(self, unmapCode, releaseCode);
    if self.Some? {
      var head := [DestroyError(MemObj), DestroyTimer(MemObj)];
      var mid: seq<Event> := if IsMapped(self.value) then [UnmapMem] else [];
      var tail: seq<Event> :=
        if IsMapped(self.value) && unmapCode != CL_SUCCESS && unmapCode != MEM_OBJ_NOT_MAPPED then []
        else if releaseCode != CL_SUCCESS && releaseCode != CL_INVALID_MEM_OBJECT then [ReleaseMem]
        else [ReleaseMem, FreeNode(MemObj)];
      assert trace == head + mid + tail;
      forall x | x == FreeNode(MemObj) || x == ReleaseMem
        ensures Occurrences(trace, x) == Occurrences(tail, x)
      {
        OccurrencesConcat(head + mid, tail, x);
        OccurrencesConcat(head, mid, x);
        PairOccurrences(DestroyError(MemObj), DestroyTimer(MemObj), x);
        if mid != [] {
          OneOccurrence(UnmapMem, x);
        }
      }
      if tail == [ReleaseMem, FreeNode(MemObj)] {
        PairOccurrences(ReleaseMem, FreeNode(MemObj), FreeNode(MemObj));
        PairOccurrences(ReleaseMem, FreeNode(MemObj), ReleaseMem);
      } else if tail == [ReleaseMem] {
        OneOccurrence(ReleaseMem, FreeNode(MemObj));
        OneOccurrence(ReleaseMem, ReleaseMem);
      }
    }
  }

  /** The four events of destroying a partial object free its node and
      release its driver handle once each. */
  lemma PartialReleasesOnce(x: Event)
    requires x == FreeNode(MemObj) || x == ReleaseMem
    ensures Occurrences([DestroyError(MemObj), DestroyTimer(MemObj), ReleaseMem, FreeNode(MemObj)], x) == 1
  {
    assert [DestroyError(MemObj), DestroyTimer(MemObj), ReleaseMem, FreeNode(MemObj)]
      == [DestroyError(MemObj), DestroyTimer(MemObj)] + [ReleaseMem, FreeNode(MemObj)];
    OccurrencesConcat([DestroyError(MemObj), DestroyTimer(MemObj)], [ReleaseMem, FreeNode(MemObj)], x);
    PairOccurrences(DestroyError(MemObj), DestroyTimer(MemObj), x);
    PairOccurrences(ReleaseMem, FreeNode(MemObj), x);
  }

  /** Each constructor frees the partial object it made exactly once when
      the driver refuses to create it, and frees nothing when it succeeds or
      makes nothing. */
  lemma FailedMakeFreesPartial(threadPresent: bool, formatPresent: bool, self: MemObject, flags: nat, size: nat,
                               width: nat, height: nat, origin: nat, hostPtr: Addr, code: Code)
    ensures Occurrences(MakeBuffer(threadPresent, flags, size, hostPtr, code).1, FreeNode(MemObj))
         == if threadPresent && code != CL_SUCCESS then 1 else 0
    ensures Occurrences(MakeImage(threadPresent, formatPresent, flags, width, height, hostPtr, code).1, FreeNode(MemObj))
         == if threadPresent && formatPresent && code != CL_SUCCESS then 1 else 0
    ensures Occurrences(MakeChild(self, flags, origin, size, code).2, FreeNode(MemObj))
         == if self.memType == Buffer && self.paternity == ParentObject && code != CL_SUCCESS then 1 else 0
  {
    PartialReleasesOnce(FreeNode(MemObj));
  }
}

=== FILE: nodes.dfy ===
/** The nodes of the older list-based object graph (device.c, platform.c,
    steel_thread.c): doubly-linked device and platform lists. A list is a
    sequence whose slot i holds the i-th node; each node's links name the
    slots of its neighbours, so walking the links is index navigation. */
module Nodes {
  import opened Common
  import opened Errors

  /** A node's `prev`/`next` pointers, as slots (None for null). */
  datatype Link = Link(prev: Option<nat>, next: Option<nat>)

  /** The links slot `i` of an `n`-node list has: its neighbours, null at the
      two ends. */
  function ChainLink(i: nat, n: nat): Link
  {
    Link(if i == 0 then None else Some(i - 1), if i + 1 >= n then None else Some(i + 1))
  }

  /** The links form one consistent doubly-linked list in slot order. */
  predicate Chain(links: seq<Link>)
  {
    forall i :: 0 <= i < |links| ==> links[i] == ChainLink(i, |links|)
  }

  /** `*_To_First_*`: follows prev links from `start` to the node with no
      predecessor; null in, null out. */
  method ToFirst(links: seq<Link>, start: Option<nat>) returns (r: Option<nat>)
    requires Chain(links) && (start.Some? ==> start.value < |links|)
    ensures start.None? ==> r.None?
    ensures start.Some? ==> r == Some(0) && links[0].prev.None?
  {
    if start.None? {
      return None;
    }
    var cur: nat := start.value;
    while links[cur].prev.Some?
      invariant cur < |links|
      decreases cur
    {
      assert links[cur] == ChainLink(cur, |links|);
      cur := links[cur].prev.value;
    }
    return Some(cur);
  }

  /** `*_To_Last_*`: follows next links from `start` to the node with no
      successor; null in, null out. */
  method ToLast(links: seq<Link>, start: Option<nat>) returns (r: Option<nat>)
    requires Chain(links) && (start.Some? ==> start.value < |links|)
    ensures start.None? ==> r.None?
    ensures start.Some? ==> r == Some(|links| - 1) && links[|links| - 1].next.None?
  {
    if start.None? {
      return None;
    }
    var cur: nat := start.value;
    while links[cur].next.Some?
      invariant cur < |links|
      decreases |links| - cur
    {
      assert links[cur] == ChainLink(cur, |links|);
      cur := links[cur].next.value;
    }
    return Some(cur);
  }

  /** One device node: the driver id, its number in the list, its links, its
      error slot, and whether its attributes were gathered. */
  datatype DeviceNode = DeviceNode(device: nat, number: nat, link: Link, error: ErrorSlot, gathered: bool)

  /** The links of a list of nodes, `link` reading one node's links. */
  function LinksOf<N>(ns: seq<N>, link: N -> Link): (ls: seq<Link>)
    ensures |ls| == |ns| && forall i :: 0 <= i < |ns| ==> ls[i] == link(ns[i])
  {
    seq(|ns|, i requires 0 <= i < |ns| => link(ns[i]))
  }

  function DeviceLinks(ns: seq<DeviceNode>): seq<Link>
  {
    LinksOf(ns, (n: DeviceNode) => n.link)
  }

  /** The platform attribute strings. */
  datatype PlatformInfo = PlatformInfo(profile: string, version: string, name: string, vendor: string, extensions: string)

  /** One platform node: the driver id, its links, how many devices of the
      wanted type the driver reported, its device list (None while null),
      its default device (a slot of that list), its info and its error
      slot. */
  datatype PlatformNode = PlatformNode(
    platform: nat,
    link: Link,
    wantedDevicesNum: nat,
    devices: Option<seq<DeviceNode>>,
    defaultDevice: Option<nat>,
    info: Option<PlatformInfo>,
    error: ErrorSlot)

  function PlatformLinks(ns: seq<PlatformNode>): seq<Link>
  {
    LinksOf(ns, (n: PlatformNode) => n.link)
  }

  /** A device list as the library builds it: non-empty and linked in slot
      order. */
  predicate DeviceListOk(ds: seq<DeviceNode>)
  {
    |ds| > 0 && Chain(DeviceLinks(ds))
  }

  /** A platform list as the library builds it: linked in slot order, every
      device list well linked, and a null device list only where no device
      was reported. */
  predicate PlatformListOk(ps: seq<PlatformNode>)
  {
    Chain(PlatformLinks(ps))
    && forall i :: 0 <= i < |ps| ==>
         (ps[i].devices.Some? ==> DeviceListOk(ps[i].devices.value))
         && (ps[i].devices.None? ==> ps[i].wantedDevicesNum == 0)
  }
}

=== FILE: platform_lists.dfy ===
/** Platform lists of the older design (platform.c): navigation, whole-list
    destruction with each platform's devices and info, default selection,
    attribute lookup and the construction of the thread's platform list.
    The platform in slot `i` owns the device nodes `DeviceAt(i, d)`. */
module PlatformLists {
  import opened Common
  import opened Codes
  import opened Errors
  import opened Nodes
  import opened DeviceLists

  /** `Platform_To_First_Platform`. */
  method ToFirstPlatform(ps: seq<PlatformNode>, start: Option<nat>) returns (r: Option<nat>)
    requires Chain(PlatformLinks(ps)) && (start.Some? ==> start.value < |ps|)
    ensures start.None? ==> r.None?
    ensures start.Some? ==> r == Some(0) && ps[0].link.prev.None?
  {
    r := ToFirst(PlatformLinks(ps), start);
  }

  /** `Platform_To_Last_Platform`. */
  method ToLastPlatform(ps: seq<PlatformNode>, start: Option<nat>) returns (r: Option<nat>)
    requires Chain(PlatformLinks(ps)) && (start.Some? ==> start.value < |ps|)
    ensures start.None? ==> r.None?
    ensures start.Some? ==> r == Some(|ps| - 1) && ps[|ps| - 1].link.next.None?
  {
    r := ToLast(PlatformLinks(ps), start);
  }

  /** A platform list Platform_Destroy can walk: linked in slot order, every
      device list present well linked. */
  predicate Releasable(ps: seq<PlatformNode>)
  {
    Chain(PlatformLinks(ps))
    && forall i :: 0 <= i < |ps| ==> ps[i].devices.Some? ==> DeviceListOk(ps[i].devices.value)
  }

  /** What destroying platform node `i` releases: its device list, then its
      info, then its error slot and the node itself. */
  function NodeRelease(i: nat, node: PlatformNode): (t: seq<Event>)
    ensures |t| >= 2 && t[|t| - 2] == DestroyError(PlatformAt(i)) && t[|t| - 1] == FreeNode(PlatformAt(i))
  {
    (if node.devices.Some? then DeviceReleaseTrace(i, |node.devices.value|) else [])
    + (if node.info.Some? then [DestroyInfo(i)] else [])
    + [DestroyError(PlatformAt(i)), FreeNode(PlatformAt(i))]
  }

  /** What destroying a whole list releases, node after node from the head. */
  function ListRelease(ps: seq<PlatformNode>): (t: seq<Event>)
    ensures |ps| > 0 ==> |t| >= 2 && t[|t| - 1] == FreeNode(PlatformAt(|ps| - 1))
    decreases |ps|
  {
    if |ps| == 0 then [] else ListRelease(ps[..|ps| - 1]) + NodeRelease(|ps| - 1, ps[|ps| - 1])
  }

  /** Whether `o` is a device node of one of the platforms of `ps`. */
  predicate DeviceOfList(o: Owner, ps: seq<PlatformNode>)
  {
    o.DeviceAt? && o.p < |ps| && ps[o.p].devices.Some? && o.d < |ps[o.p].devices.value|
  }

  /** Destroying a node frees the node and each node of its device list once. */
  lemma NodeReleaseCount(i: nat, node: PlatformNode, o: Owner)
    ensures Occurrences(NodeRelease(i, node), FreeNode(o))
         == (if o == PlatformAt(i) then 1 else 0)
          + (if node.devices.Some? && AmongDevices(o, i, |node.devices.value|) then 1 else 0)
  {
    var e := FreeNode(o);
    var devs: seq<Event> := if node.devices.Some? then DeviceReleaseTrace(i, |node.devices.value|) else [];
    var inf: seq<Event> := if node.info.Some? then [DestroyInfo(i)] else [];
    var tail := [DestroyError(PlatformAt(i)), FreeNode(PlatformAt(i))];
    assert NodeRelease(i, node) == devs + inf + tail;
    if node.devices.Some? {
      DeviceNodesFreedOnce(i, |node.devices.value|, o);
    }
    OccurrencesConcat(devs + inf, tail, e);
    OccurrencesConcat(devs, inf, e);
    PairOccurrences(tail[0], tail[1], e);
    if node.info.Some? {
      OneOccurrence(DestroyInfo(i), e);
    }
  }

  /** How often a whole-list release should free `o`: once for each of the
      list's platform nodes and once for each of their device nodes. */
  function ExpectedFrees(ps: seq<PlatformNode>, o: Owner): nat
  {
    (if o.PlatformAt? && o.p < |ps| then 1 else 0) + (if DeviceOfList(o, ps) then 1 else 0)
  }

  /** Destroying a list frees every platform node and every device node it
      holds exactly once, and nothing else. */
  lemma {:induction false} ListReleaseFreesOnce(ps: seq<PlatformNode>, o: Owner)
    ensures Occurrences(ListRelease(ps), FreeNode(o)) == ExpectedFrees(ps, o)
  {
    if |ps| > 0 {
      var k := |ps| - 1;
      ListReleaseFreesOnce(ps[..k], o);
      ListReleaseUnfold(ps);
      OccurrencesConcat(ListRelease(ps[..k]), NodeRelease(k, ps[k]), FreeNode(o));
      NodeReleaseCount(k, ps[k], o);
      ExpectedFreesStep(ps, o);
    }
  }

  /** Adding the last node adds what its own release frees. */
  lemma ExpectedFreesStep(ps: seq<PlatformNode>, o: Owner)
    requires |ps| > 0
    ensures ExpectedFrees(ps, o)
         == ExpectedFrees(ps[..|ps| - 1], o)
          + (if o == PlatformAt(|ps| - 1) then 1 else 0)
          + (if ps[|ps| - 1].devices.Some? && AmongDevices(o, |ps| - 1, |ps[|ps| - 1].devices.value|) then 1 else 0)
  {
    var k := |ps| - 1;
    if o.DeviceAt? && o.p < k {
      assert ps[..k][o.p] == ps[o.p];
    }
  }

  /** One step of `ListRelease`. */
  lemma ListReleaseUnfold(ps: seq<PlatformNode>)
    requires |ps| > 0
    ensures ListRelease(ps) == ListRelease(ps[..|ps| - 1]) + NodeRelease(|ps| - 1, ps[|ps| - 1])
  {
  }

  /** `Platform_Destroy` called on any node (`start`, or null) of a list:
      rewinds to the head and destroys node after node. */
  method PlatformDestroy(ps: seq<PlatformNode>, start: Option<nat>) returns (code: Code, trace: seq<Event>)
    requires Releasable(ps) && (start.Some? ==> start.value < |ps|)
    ensures code == CL_SUCCESS
    ensures start.None? ==> trace == []
    ensures start.Some? ==> trace == ListRelease(ps)
  {
    code := CL_SUCCESS;
    trace := [];
    if start.None? {
      return;
    }
    var links := PlatformLinks(ps);
    var cur := ToFirstPlatform(ps, start);
    var i := 0;
    while cur.Some?
      invariant 0 <= i <= |ps|
      invariant cur == (if i < |ps| then Some(i) else None)
      invariant trace == ListRelease(ps[..i])
      decreases |ps| - i
    {
      var next := links[i].next;
      var released := DestroyNode(i, ps[i]);
      assert ps[..i + 1][..i] == ps[..i];
      trace := trace + released;
      cur := next;
      i := i + 1;
    }
    assert ps[..|ps|] == ps;
  }

  /** The body of Platform_Destroy's loop for the node in slot `i`: its
      device list if any, its info if any, its error slot, the node. */
  method DestroyNode(i: nat, node: PlatformNode) returns (trace: seq<Event>)
    requires node.devices.Some? ==> DeviceListOk(node.devices.value)
    ensures trace == NodeRelease(i, node)
  {
    trace := [];
    if node.devices.Some? {
      var deviceCode, deviceTrace := DestroyDeviceList(node.devices.value, Some(0), i);
      trace := deviceTrace;
    }
    if node.info.Some? {
      trace := trace + [DestroyInfo(i)];
    }
    trace := trace + [DestroyError(PlatformAt(i)), FreeNode(PlatformAt(i))];
  }

  /** `Platform_Make_Default`: the thread's default platform becomes slot
      `self`; a null platform gives INVALID_BUFFER_GIVEN and changes nothing. */
  function PlatformMakeDefault(self: Option<nat>, current: Option<nat>): (r: (Option<nat>, Code))
    ensures self.None? <==> r.1 == INVALID_BUFFER_GIVEN
    ensures self.None? ==> r.0 == current
    ensures self.Some? ==> r == (self, CL_SUCCESS)
  {
    if self.None? then (current, INVALID_BUFFER_GIVEN) else (self, CL_SUCCESS)
  }

  /** `Get_Platforms_Num`: the thread's platform count, zero with
      CANT_FIND_PLATFORM when the driver's count query fails. */
  function GetPlatformsNum(count: Answer<nat>): (r: (nat, Code))
    ensures r.1 == CL_SUCCESS <==> count.Ok?
    ensures count.Ok? ==> r.0 == count.value
    ensures count.Failed? ==> r == (0, CANT_FIND_PLATFORM)
  {
    match count
    case Ok(n) => (n, CL_SUCCESS)
    case Failed(_) => (0, CANT_FIND_PLATFORM)
  }

  /** The attributes `Get_Parameter` can be asked for; `OtherParam` stands
      for any value outside the enumeration. */
  datatype InfoParam = Profile | Version | Name | Vendor | Extensions | OtherParam

  /** A returned string, a null pointer, or the uninitialised pointer the
      switch leaves for an unknown attribute. */
  datatype InfoResult = InfoText(text: string) | NullPointer | Indeterminate

  /** `Platform_Info_Get_Parameter`. */
  function InfoGetParameter(self: Option<PlatformInfo>, param: InfoParam): (r: InfoResult)
    ensures self.None? <==> r == NullPointer
    ensures self.Some? && param == OtherParam <==> r == Indeterminate
  {
    if self.None? then NullPointer
    else match param
      case Profile => InfoText(self.value.profile)
      case Version => InfoText(self.value.version)
      case Name => InfoText(self.value.name)
      case Vendor => InfoText(self.value.vendor)
      case Extensions => InfoText(self.value.extensions)
      case OtherParam => Indeterminate
  }

  /** The driver's answers for one platform: its device count and listing,
      whether each device's attributes can be gathered, and its platform
      info (None when it cannot be gathered). */
  datatype PlatformAnswers = PlatformAnswers(deviceCount: Answer<nat>, deviceIds: Answer<seq<nat>>,
                                             deviceGather: nat -> bool, info: Option<PlatformInfo>)

  /** Make_Platforms always asks for gathered devices (the root call passes
      DEVICE_CREATE_AND_GATHER_INFO, the loop PLATFORM_CREATE_AND_GATHER_INFO,
      which has the same value). */
  const DEVICE_MODE := DeviceCreateAndGatherInfo

  /** A node as `calloc` leaves it, holding only its driver id and a fresh
      error slot. */
  function FreshPlatform(id: nat): PlatformNode
  {
    PlatformNode(id, Link(None, None), 0, None, None, None, MakeError())
  }

  /** How many devices the node records after its count query. */
  function WantedOf(id: nat, a: PlatformAnswers): nat
  {
    WithCount(FreshPlatform(id), a.deviceCount).wantedDevicesNum
  }

  /** The device list can be completed. */
  predicate DevicesMade(id: nat, a: PlatformAnswers)
  {
    WantedOf(id, a) > 0 && a.deviceIds.Ok? && forall j :: 0 <= j < WantedOf(id, a) ==> a.deviceGather(j)
  }

  /** The driver reported that the platform has no device of the wanted type. */
  predicate NoDeviceFound(a: PlatformAnswers)
  {
    a.deviceCount == Failed(CL_DEVICE_NOT_FOUND)
  }

  /** The platform node can be made: its devices were made or there were
      none to make, and its info could be gathered. */
  predicate ElementOk(id: nat, a: PlatformAnswers)
  {
    (DevicesMade(id, a) || NoDeviceFound(a)) && a.info.Some?
  }

  /** The node `Make_List_Element` makes, before it is linked. */
  function ExpectedPlatform(id: nat, a: PlatformAnswers): PlatformNode
  {
    var wc := WithCount(FreshPlatform(id), a.deviceCount);
    var devices := if DevicesMade(id, a) then Some(DeviceListOf(Fit(a.deviceIds.value, wc.wantedDevicesNum), DEVICE_MODE)) else None;
    wc.(devices := devices, info := a.info)
  }

  /** The made node keeps the driver id and the gathered info, records the
      device count, and holds a well-formed device list of that length
      exactly when the devices could be made; a node that can be made without
      a device list records no devices. */
  lemma ExpectedPlatformShape(id: nat, a: PlatformAnswers)
    ensures var node := ExpectedPlatform(id, a);
      node.platform == id && node.link == Link(None, None) && node.info == a.info && node.defaultDevice.None?
      && node.wantedDevicesNum == WantedOf(id, a)
      && (node.devices.Some? <==> DevicesMade(id, a))
      && (node.devices.Some? ==> DeviceListOk(node.devices.value) && |node.devices.value| == node.wantedDevicesNum)
      && (ElementOk(id, a) && node.devices.None? ==> node.wantedDevicesNum == 0)
  {
  }

  /** A node `Make_List_Element` makes answers every named attribute with
      the driver's gathered info, so the five attributes together give back
      that info. */
  lemma MadePlatformInfo(id: nat, a: PlatformAnswers)
    requires ElementOk(id, a)
    ensures var info := ExpectedPlatform(id, a).info;
      PlatformInfo(InfoGetParameter(info, Profile).text, InfoGetParameter(info, Version).text,
                   InfoGetParameter(info, Name).text, InfoGetParameter(info, Vendor).text,
                   InfoGetParameter(info, Extensions).text) == a.info.value
    ensures InfoGetParameter(ExpectedPlatform(id, a).info, OtherParam) == Indeterminate
  {
  }

  /** What a failed `Make_List_Element` for slot `i` releases: the partial
      device list's clean-up, then the node with whatever it holds. */
  function ElementTrace(i: nat, id: nat, a: PlatformAnswers): seq<Event>
  {
    if ElementOk(id, a) then []
    else DevicesCleanUp(i, WantedOf(id, a), DEVICE_MODE, a.deviceIds, a.deviceGather) + NodeRelease(i, ExpectedPlatform(id, a).(info := None))
  }

  /** `Make_List_Element` for platform slot `i` with driver id `id`: makes
      the device list; a null list is acceptable only when the driver found
      no device (the CANT_FIND_DEVICE note in the node's error slot), and
      otherwise the node is destroyed; then the info is gathered, and a
      failure there destroys the node too. */
  method MakeListElement(i: nat, id: nat, a: PlatformAnswers) returns (node: Option<PlatformNode>, trace: seq<Event>)
    ensures node.Some? <==> ElementOk(id, a)
    ensures node.Some? ==> node.value == ExpectedPlatform(id, a) && trace == []
    ensures node.None? ==> trace == ElementTrace(i, id, a)
  {
    var blank := FreshPlatform(id);
    var counted, devices, devTrace := MakeDevices(Some(blank), i, DEVICE_MODE, a.deviceCount, a.deviceIds, a.deviceGather);
    var self := counted.value.(devices := devices);
    if devices.None? {
      if NoDeviceFound(a) {
        // Proof step only (a lemma call, no state change): a fresh slot that
        // records CANT_FIND_DEVICE reads that code back.
        RecordOnClean(MakeError(), CANT_FIND_DEVICE);
      }
      if GetLastCode(Some(self.error)) != CANT_FIND_DEVICE {
        var released := DestroyNode(i, self);
        trace := devTrace + released;
        node := None;
        return;
      }
    }
    if a.info.None? {
      var released := DestroyNode(i, self);
      trace := devTrace + released;
      node := None;
      return;
    }
    node := Some(self.(info := a.info));
    trace := [];
  }

  /** Each node of `base` linked to its neighbours in slot order. */
  function LinkAll(base: seq<PlatformNode>): (ps: seq<PlatformNode>)
    ensures |ps| == |base| && Chain(PlatformLinks(ps))
    ensures forall j :: 0 <= j < |base| ==> ps[j] == base[j].(link := ChainLink(j, |base|))
  {
    var ps := seq(|base|, j requires 0 <= j < |base| => base[j].(link := ChainLink(j, |base|)));
    assert forall j :: 0 <= j < |base| ==> PlatformLinks(ps)[j] == ChainLink(j, |base|);
    ps
  }

  /** Appending a node relinks the old tail and extends the linked list. */
  lemma LinkAllExtend(base: seq<PlatformNode>, x: PlatformNode)
    requires |base| > 0
    ensures var ps := LinkAll(base); var i := |base|;
      ps[i - 1 := ps[i - 1].(link := ChainLink(i - 1, i + 1))] + [x.(link := ChainLink(i, i + 1))] == LinkAll(base + [x])
  {
    var ps := LinkAll(base);
    var i := |base|;
    var next := ps[i - 1 := ps[i - 1].(link := ChainLink(i - 1, i + 1))] + [x.(link := ChainLink(i, i + 1))];
    assert forall j :: 0 <= j < i + 1 ==> next[j] == LinkAll(base + [x])[j];
  }

  /** The first `k` nodes made from the ids `ids`, before linking. */
  function Bases(ids: seq<nat>, answers: nat -> PlatformAnswers, k: nat): (b: seq<PlatformNode>)
    requires k <= |ids|
    ensures |b| == k && forall j :: 0 <= j < k ==> b[j] == ExpectedPlatform(ids[j], answers(j))
  {
    seq(k, j requires 0 <= j < k => ExpectedPlatform(ids[j], answers(j)))
  }

  lemma BasesExtend(ids: seq<nat>, answers: nat -> PlatformAnswers, k: nat)
    requires k < |ids|
    ensures Bases(ids, answers, k) + [ExpectedPlatform(ids[k], answers(k))] == Bases(ids, answers, k + 1)
  {
  }

  /** The first `k` platform nodes made from the ids `ids`, linked in order. */
  function PlatformListOf(ids: seq<nat>, answers: nat -> PlatformAnswers, k: nat): (ps: seq<PlatformNode>)
    requires k <= |ids|
    ensures |ps| == k
  {
    LinkAll(Bases(ids, answers, k))
  }

  /** Such a list holds the made nodes in order; it can be destroyed, and it
      is a well-formed platform list when every node in it could be made. */
  lemma PlatformListOfOk(ids: seq<nat>, answers: nat -> PlatformAnswers, k: nat)
    requires k <= |ids|
    ensures forall j :: 0 <= j < k ==> PlatformListOf(ids, answers, k)[j] == ExpectedPlatform(ids[j], answers(j)).(link := ChainLink(j, k))
    ensures Releasable(PlatformListOf(ids, answers, k))
    ensures (forall j :: 0 <= j < k ==> ElementOk(ids[j], answers(j))) ==> PlatformListOk(PlatformListOf(ids, answers, k))
  {
    var ps := PlatformListOf(ids, answers, k);
    forall j | 0 <= j < k
      ensures ps[j].devices.Some? ==> DeviceListOk(ps[j].devices.value)
      ensures ElementOk(ids[j], answers(j)) && ps[j].devices.None? ==> ps[j].wantedDevicesNum == 0
    {
      ExpectedPlatformShape(ids[j], answers(j));
    }
  }

  /** The first slot whose node cannot be made, or `n`. */
  function FirstBadPlatform(ids: seq<nat>, answers: nat -> PlatformAnswers, i: nat, n: nat): (f: nat)
    requires i <= n <= |ids|
    ensures i <= f <= n
    ensures f < n ==> !ElementOk(ids[f], answers(f))
    ensures forall j :: i <= j < f ==> ElementOk(ids[j], answers(j))
    decreases n - i
  {
    if i == n then n
    else if !ElementOk(ids[i], answers(i)) then i
    else FirstBadPlatform(ids, answers, i + 1, n)
  }

  /** The shared part of Make_Platforms, with the driver's answers for the
      platform count, the platform listing and each platform. Returns the
      thread's platform count, the completed list (if any), the release
      trace of any clean-up, and whether the root node failed (the branch
      where the two variants differ). A zero count is taken to make the
      listing call fail, as a zero-entry listing into a buffer is invalid. */
  method BuildPlatforms(count: Answer<nat>, listing: Answer<seq<nat>>, answers: nat -> PlatformAnswers)
    returns (num: nat, nodes: Option<seq<PlatformNode>>, trace: seq<Event>, rootFailed: bool)
    ensures num == GetPlatformsNum(count).0
    ensures num == 0 || listing.Failed? ==> nodes == None && trace == [] && !rootFailed
    ensures num > 0 && listing.Ok? ==>
      var ids := Fit(listing.value, num);
      var f := FirstBadPlatform(ids, answers, 0, num);
      if f < num then nodes == None && rootFailed == (f == 0)
                      && trace == ElementTrace(f, ids[f], answers(f)) + ListRelease(PlatformListOf(ids, answers, f))
      else nodes == Some(PlatformListOf(ids, answers, num)) && trace == [] && !rootFailed
  {
    nodes := None;
    trace := [];
    rootFailed := false;
    var counted := GetPlatformsNum(count);
    num := counted.0;
    if num == 0 || listing.Failed? {
      return;
    }
    var ids := Fit(listing.value, num);
    var root, rootTrace := MakeListElement(0, ids[0], answers(0));
    if root.None? {
      trace := rootTrace;
      assert PlatformListOf(ids, answers, 0) == [];
      rootFailed := true;
      return;
    }
    nodes, trace := LinkRest(ids, answers, root.value);
  }

  /** The loop of Make_Platforms once the root node `root` is made: makes and
      links node after node, and on a failure destroys the nodes linked so
      far. */
  method LinkRest(ids: seq<nat>, answers: nat -> PlatformAnswers, root: PlatformNode)
    returns (nodes: Option<seq<PlatformNode>>, trace: seq<Event>)
    requires |ids| > 0 && ElementOk(ids[0], answers(0)) && root == ExpectedPlatform(ids[0], answers(0))
    ensures var f := FirstBadPlatform(ids, answers, 0, |ids|);
      if f < |ids| then nodes == None && trace == ElementTrace(f, ids[f], answers(f)) + ListRelease(PlatformListOf(ids, answers, f))
      else nodes == Some(PlatformListOf(ids, answers, |ids|)) && trace == []
  {
    var num := |ids|;
    var built := [root.(link := ChainLink(0, 1))];
    assert built == PlatformListOf(ids, answers, 1);
    var i := 1;
    while i < num
      invariant 1 <= i <= num
      invariant built == PlatformListOf(ids, answers, i)
      invariant FirstBadPlatform(ids, answers, 0, num) == FirstBadPlatform(ids, answers, i, num)
    {
      var e, eTrace := MakeListElement(i, ids[i], answers(i));
      if e.None? {
        PlatformListOfOk(ids, answers, i);
        var code, released := PlatformDestroy(built, Some(i - 1));
        return None, eTrace + released;
      }
      LinkAllExtend(Bases(ids, answers, i), e.value);
      BasesExtend(ids, answers, i);
      built := built[i - 1 := built[i - 1].(link := ChainLink(i - 1, i + 1))] + [e.value.(link := ChainLink(i, i + 1))];
      i := i + 1;
    }
    return Some(built), [];
  }

  /** What Make_Platforms hands back: a list, null, or (as written) a crash
      calling through a null pointer. */
  datatype PlatformsOutcome = PlatformList(nodes: seq<PlatformNode>) | NoPlatforms | NullDereference

  /** `Make_Platforms` as written (platform.c:554-559): when the root node
      cannot be made, the clean-up calls `Destroy` through the null pointer
      just returned. */
  method MakePlatformsAsWritten(count: Answer<nat>, listing: Answer<seq<nat>>, answers: nat -> PlatformAnswers)
    returns (num: nat, outcome: PlatformsOutcome, trace: seq<Event>)
    ensures outcome == NullDereference <==>
      (num > 0 && listing.Ok? && !ElementOk(Fit(listing.value, num)[0], answers(0)))
    ensures num == GetPlatformsNum(count).0
  {
    var nodes, rootFailed;
    num, nodes, trace, rootFailed := BuildPlatforms(count, listing, answers);
    outcome := if nodes.Some? then PlatformList(nodes.value) else if rootFailed then NullDereference else NoPlatforms;
  }

  /** `Make_Platforms` returning null whenever the list could not be
      completed. The list exists exactly when the driver reports platforms,
      lists them, and every node can be made; it then holds the listed ids in
      order, each with its devices and info, as a well-formed platform list.
      A failure at slot `f` releases that node's partial state and then the
      `f` nodes already linked. */
  method MakePlatforms(count: Answer<nat>, listing: Answer<seq<nat>>, answers: nat -> PlatformAnswers)
    returns (num: nat, nodes: Option<seq<PlatformNode>>, trace: seq<Event>)
    ensures num == GetPlatformsNum(count).0
    ensures nodes.Some? <==>
      (num > 0 && listing.Ok? && forall j :: 0 <= j < num ==> ElementOk(Fit(listing.value, num)[j], answers(j)))
    ensures nodes.Some? ==>
      (PlatformListOk(nodes.value) && nodes.value == PlatformListOf(Fit(listing.value, num), answers, num) && trace == [])
    ensures num == 0 || listing.Failed? ==> trace == []
    ensures nodes.None? && num > 0 && listing.Ok? ==>
      var ids := Fit(listing.value, num);
      var f := FirstBadPlatform(ids, answers, 0, num);
      f < num && trace == ElementTrace(f, ids[f], answers(f)) + ListRelease(PlatformListOf(ids, answers, f))
  {
    var rootFailed;
    num, nodes, trace, rootFailed := BuildPlatforms(count, listing, answers);
    if nodes.Some? {
      PlatformListOfOk(Fit(listing.value, num), answers, num);
    }
  }

  /** A failed Make_Platforms frees each platform node it made, the failing
      one included, exactly once, and no other. */
  lemma FailureFreesPlatformsOnce(ids: seq<nat>, answers: nat -> PlatformAnswers, f: nat, j: nat)
    requires f < |ids| && !ElementOk(ids[f], answers(f))
    ensures Occurrences(ElementTrace(f, ids[f], answers(f)) + ListRelease(PlatformListOf(ids, answers, f)), FreeNode(PlatformAt(j)))
         == (if j <= f then 1 else 0)
  {
    OccurrencesConcat(ElementTrace(f, ids[f], answers(f)), ListRelease(PlatformListOf(ids, answers, f)), FreeNode(PlatformAt(j)));
    ElementTraceFreesOnce(f, ids[f], answers(f), j);
    ListReleaseFreesOnce(PlatformListOf(ids, answers, f), PlatformAt(j));
  }

  /** A failed Make_List_Element frees its own node once and no other
      platform node. */
  lemma ElementTraceFreesOnce(i: nat, id: nat, a: PlatformAnswers, j: nat)
    requires !ElementOk(id, a)
    ensures Occurrences(ElementTrace(i, id, a), FreeNode(PlatformAt(j))) == (if j == i then 1 else 0)
  {
    var x := FreeNode(PlatformAt(j));
    var dying := ExpectedPlatform(id, a).(info := None);
    var cleanUp := DevicesCleanUp(i, WantedOf(id, a), DEVICE_MODE, a.deviceIds, a.deviceGather);
    assert ElementTrace(i, id, a) == cleanUp + NodeRelease(i, dying);
    OccurrencesConcat(cleanUp, NodeRelease(i, dying), x);
    CleanUpFreesNoPlatform(i, WantedOf(id, a), a.deviceIds, a.deviceGather, j);
    NodeReleaseCount(i, dying, PlatformAt(j));
  }

  /** Make_Devices' clean-up frees no platform node. */
  lemma CleanUpFreesNoPlatform(p: nat, n: nat, listing: Answer<seq<nat>>, gatherOk: nat -> bool, j: nat)
    ensures Occurrences(DevicesCleanUp(p, n, DEVICE_MODE, listing, gatherOk), FreeNode(PlatformAt(j))) == 0
  {
    if !(n == 0 || listing.Failed?) && FirstFailing(DEVICE_MODE, gatherOk, 0, n) < n {
      FailureFreesEachOnce(p, FirstFailing(DEVICE_MODE, gatherOk, 0, n), PlatformAt(j));
    }
  }

  /** One platform whose info cannot be gathered: as written, Make_Platforms
      calls through a null pointer; corrected, it returns null after
      releasing the one node it made. */
  method RootFailureCallsThroughNull() returns (written: PlatformsOutcome, corrected: Option<seq<PlatformNode>>, trace: seq<Event>)
    ensures written == NullDereference && corrected == None
    ensures trace == [DestroyError(PlatformAt(0)), FreeNode(PlatformAt(0))]
  {
    var answers := (_: nat) => PlatformAnswers(Failed(CL_DEVICE_NOT_FOUND), Ok([]), (_: nat) => true, None);
    var n1, t1;
    n1, written, t1 := MakePlatformsAsWritten(Ok(1), Ok([5]), answers);
    var n2;
    n2, corrected, trace := MakePlatforms(Ok(1), Ok([5]), answers);
    var ids := Fit([5], 1);
    assert FirstBadPlatform(ids, answers, 0, 1) == 0;
    assert WantedOf(5, answers(0)) == 0;
    assert PlatformListOf(ids, answers, 0) == [];
  }

  /** An event a list's own destruction can emit: a platform's info, or the
      error slot or node of a platform or device node. */
  predicate ListEvent(e: Event)
  {
    e.DestroyInfo? || ((e.DestroyError? || e.FreeNode?) && (e.owner.PlatformAt? || e.owner.DeviceAt?))
  }

  /** Releasing device nodes emits list events only. */
  lemma {:induction false} DeviceTraceListEvents(p: nat, n: nat)
    ensures forall e :: e in DeviceReleaseTrace(p, n) ==> ListEvent(e)
  {
    if n > 0 {
      DeviceTraceListEvents(p, n - 1);
    }
  }

  /** Releasing a platform list emits list events only: it releases no queue
      or context and frees no thread. */
  lemma {:induction false} ListReleaseListEvents(ps: seq<PlatformNode>)
    ensures forall e :: e in ListRelease(ps) ==> ListEvent(e)
  {
    if |ps| > 0 {
      var k := |ps| - 1;
      ListReleaseListEvents(ps[..k]);
      if ps[k].devices.Some? {
        DeviceTraceListEvents(k, |ps[k].devices.value|);
      }
    }
  }

  /** A failed Make_List_Element emits list events only. */
  lemma ElementTraceListEvents(i: nat, id: nat, a: PlatformAnswers)
    ensures forall e :: e in ElementTrace(i, id, a) ==> ListEvent(e)
  {
    var n := WantedOf(id, a);
    if !(n == 0 || a.deviceIds.Failed?) && FirstFailing(DEVICE_MODE, a.deviceGather, 0, n) < n {
      DeviceTraceListEvents(i, FirstFailing(DEVICE_MODE, a.deviceGather, 0, n));
    }
    var dying := ExpectedPlatform(id, a).(info := None);
    if dying.devices.Some? {
      DeviceTraceListEvents(i, |dying.devices.value|);
    }
  }
}

=== FILE: platforms.dfy ===
/** The process-wide platform registry (platforms.c): the number of platforms
    and the array of their ids, filled from the driver and erased on
    teardown. A platform id is a `nat`, 0 standing for the null id. */
module Platforms {
  import opened Common
  import opened Codes

  /** `g_num_platforms` and `g_all_platforms_list` (None while null). */
  datatype PlatformRegistry = PlatformRegistry(num: nat, list: Option<seq<nat>>)

  /** The registry at program start. */
  const EmptyRegistry := PlatformRegistry(0, None)

  /** The registry agrees with itself: a null array goes with a zero count and
      a live array holds exactly `num` ids. */
  predicate Consistent(r: PlatformRegistry)
  {
    (r.list.None? ==> r.num == 0) && (r.list.Some? ==> |r.list.value| == r.num)
  }

  /** `Get_Num_Platforms`, with `count` the driver's answer to the count
      query: the count is stored when the query succeeds and left alone when
      it fails; either way the function reports CL_SUCCESS, since its failure
      branch returns the literal 0. */
  function GetNumPlatforms(r: PlatformRegistry, count: Answer<nat>): (res: (PlatformRegistry, Code))
    ensures res.1 == CL_SUCCESS
    ensures res.0.list == r.list
    ensures count.Ok? ==> res.0.num == count.value
    ensures count.Failed? ==> res.0 == r
  {
    match count
    case Ok(n) => (r.(num := n), CL_SUCCESS)
    case Failed(_) => (r, CL_SUCCESS)
  }

  /** `Collect_Platforms_List`. `count` answers the count query, `listing`
      the listing query (the ids the driver knows, or its failure code). The
      count query's own result is ignored; a zero count stops with
      CANT_FIND_PLATFORM before any allocation. Otherwise a zeroed array of
      `num` ids replaces the list and the driver fills at most `num` of them;
      a listing failure is returned with the zeroed array kept. */
  function CollectPlatformsList(r: PlatformRegistry, count: Answer<nat>, listing: Answer<seq<nat>>): (res: (PlatformRegistry, Code))
    ensures var n := GetNumPlatforms(r, count).0.num;
      n == 0 ==> res == (r.(num := 0), CANT_FIND_PLATFORM)
    ensures var n := GetNumPlatforms(r, count).0.num;
      n > 0 ==> res.0.num == n && res.0.list.Some? && |res.0.list.value| == n
    ensures var n := GetNumPlatforms(r, count).0.num;
      n > 0 && listing.Ok? ==> res == (PlatformRegistry(n, Some(Fit(listing.value, n))), CL_SUCCESS)
    ensures var n := GetNumPlatforms(r, count).0.num;
      n > 0 && listing.Failed? ==> res == (PlatformRegistry(n, Some(Zeros(n))), listing.code)
  {
    var r1 := GetNumPlatforms(r, count).0;
    if r1.num == 0 then (r1, CANT_FIND_PLATFORM)
    else match listing
      case Ok(ids) => (r1.(list := Some(Fit(ids, r1.num))), CL_SUCCESS)
      case Failed(c) => (r1.(list := Some(Zeros(r1.num))), c)
  }

  /** `Erase_Platforms_List`: a live array is freed, the pointer nulled and the
      count zeroed; a null array leaves the registry as it is. Always
      CL_SUCCESS. */
  function ErasePlatformsList(r: PlatformRegistry): (res: (PlatformRegistry, Code))
    ensures res.1 == CL_SUCCESS && res.0.list.None?
    ensures r.list.Some? ==> res.0.num == 0
    ensures r.list.None? ==> res.0 == r
  {
    if r.list.Some? then (EmptyRegistry, CL_SUCCESS) else (r, CL_SUCCESS)
  }

  /** Collecting from a consistent registry leaves it consistent, whatever the
      driver answers; a successful collection lists exactly the driver's first
      `num` ids. */
  lemma CollectKeepsConsistent(r: PlatformRegistry, count: Answer<nat>, listing: Answer<seq<nat>>)
    requires Consistent(r) && r.list.None?
    ensures Consistent(CollectPlatformsList(r, count, listing).0)
    ensures var res := CollectPlatformsList(r, count, listing);
      res.1 == CL_SUCCESS ==> forall i :: 0 <= i < res.0.num && i < |listing.value| ==> res.0.list.value[i] == listing.value[i]
  {
  }

  /** The count query is idempotent, and on a registry that was never filled
      a failed query is not reported yet still stops the collection with
      CANT_FIND_PLATFORM, because the count stays 0. */
  lemma CountQueryOutcome(r: PlatformRegistry, count: Answer<nat>, listing: Answer<seq<nat>>)
    ensures GetNumPlatforms(GetNumPlatforms(r, count).0, count) == GetNumPlatforms(r, count)
    ensures count.Failed? ==>
      GetNumPlatforms(EmptyRegistry, count).1 == CL_SUCCESS && CollectPlatformsList(EmptyRegistry, count, listing).1 == CANT_FIND_PLATFORM
  {
  }

  /** Erasing twice is erasing once, and erasing a registry that was never
      filled is a no-op. */
  lemma EraseIdempotent(r: PlatformRegistry)
    ensures ErasePlatformsList(ErasePlatformsList(r).0) == ErasePlatformsList(r)
    ensures ErasePlatformsList(EmptyRegistry) == (EmptyRegistry, CL_SUCCESS)
  {
  }

  /** A collection followed by an erase returns a registry that started empty
      to the empty registry, whether the collection succeeded or not. */
  lemma CollectEraseRoundTrip(count: Answer<nat>, listing: Answer<seq<nat>>)
    ensures var c := CollectPlatformsList(EmptyRegistry, count, listing).0;
      c.list.Some? ==> ErasePlatformsList(c).0 == EmptyRegistry
    ensures var c := CollectPlatformsList(EmptyRegistry, count, listing).0;
      c.list.None? ==> ErasePlatformsList(c).0 == c && c.num == 0
  {
  }
}

=== FILE: setup_teardown.dfy ===
/** Library set-up and tear-down (src/setup_teardown.c): the platform
    registry is collected before the device registry, and torn down in the
    opposite order. */
module SetupTeardown {
  import opened Common
  import opened Codes
  import opened Platforms
  import opened Devices

  /** Both process-wide registries. */
  datatype World = World(platforms: PlatformRegistry, devices: DeviceRegistry)

  const InitialWorld := World(EmptyRegistry, EmptyDevices)

  /** The registry operations in the order they are performed. */
  datatype Step = CollectPlatforms | CollectDevices | EraseDevices | ErasePlatforms

  /** `SCOW_Tear_Down` over the corrected device erase: erases the device
      registry, then the platform registry, and reports CL_SUCCESS. */
  function TearDown(w: World): (r: (World, Code, seq<Step>))
    ensures r.1 == CL_SUCCESS && r.2 == [EraseDevices, ErasePlatforms]
    ensures r.0.platforms.list.None? && r.0.devices.cpuList == NullArray && r.0.devices.gpuList == NullArray
    ensures WellFormed(w.devices) && w.platforms.list.Some? ==> r.0 == InitialWorld
  {
    (World(ErasePlatformsList(w.platforms).0, EraseDevicesList(w.devices).0), CL_SUCCESS, [EraseDevices, ErasePlatforms])
  }

  /** `SCOW_Set_Up` over the corrected device collection and erase, with the
      driver's answers for the platform count, the platform listing and every
      platform's devices. A failing collection
      tears everything down and returns its code; device collection is only
      attempted once platform collection has succeeded. */
  function SetUp(w: World, platCount: Answer<nat>, platListing: Answer<seq<nat>>, answers: nat -> PlatformAnswer): (r: (World, Code, seq<Step>))
    ensures var pc := CollectPlatformsList(w.platforms, platCount, platListing);
      pc.1 != CL_SUCCESS ==> r.1 == pc.1 && r.2 == [CollectPlatforms, EraseDevices, ErasePlatforms]
    ensures var pc := CollectPlatformsList(w.platforms, platCount, platListing);
      pc.1 == CL_SUCCESS ==> r.1 == CollectDevicesList(w.devices, pc.0, answers).1
    ensures r.1 != CL_SUCCESS ==> r.0.platforms.list.None? && r.0.devices.cpuList == NullArray && r.0.devices.gpuList == NullArray
    ensures r.1 == CL_SUCCESS ==> r.2 == [CollectPlatforms, CollectDevices]
    ensures r.1 != CL_SUCCESS && CollectDevices in r.2 ==> r.2 == [CollectPlatforms, CollectDevices, EraseDevices, ErasePlatforms]
  {
    var pc := CollectPlatformsList(w.platforms, platCount, platListing);
    if pc.1 != CL_SUCCESS then
      var td := TearDown(World(pc.0, w.devices));
      (td.0, pc.1, [CollectPlatforms] + td.2)
    else
      var dc := CollectDevicesList(w.devices, pc.0, answers);
      if dc.1 != CL_SUCCESS then
        var td := TearDown(World(pc.0, dc.0));
        (td.0, dc.1, [CollectPlatforms, CollectDevices] + td.2)
      else (World(pc.0, dc.0), CL_SUCCESS, [CollectPlatforms, CollectDevices])
  }

  /** Set-up succeeds exactly when both collections do; in particular an
      empty platform listing is reported as CANT_FIND_PLATFORM. */
  lemma SetUpSucceedsIff(w: World, platCount: Answer<nat>, platListing: Answer<seq<nat>>, answers: nat -> PlatformAnswer)
    ensures var pc := CollectPlatformsList(w.platforms, platCount, platListing);
      SetUp(w, platCount, platListing, answers).1 == CL_SUCCESS
      <==> pc.1 == CL_SUCCESS && CollectDevicesList(w.devices, pc.0, answers).1 == CL_SUCCESS
    ensures GetNumPlatforms(w.platforms, platCount).0.num == 0 ==> SetUp(w, platCount, platListing, answers).1 == CANT_FIND_PLATFORM
  {
  }

  /** From the initial state, a failed set-up leaves the initial state again,
      and a tear-down after any set-up returns to it. */
  lemma SetUpTearDownRestores(platCount: Answer<nat>, platListing: Answer<seq<nat>>, answers: nat -> PlatformAnswer)
    ensures var s := SetUp(InitialWorld, platCount, platListing, answers);
      s.1 != CL_SUCCESS ==> s.0 == InitialWorld
    ensures var s := SetUp(InitialWorld, platCount, platListing, answers);
      TearDown(s.0).0 == InitialWorld
  {
    var pc := CollectPlatformsList(EmptyRegistry, platCount, platListing);
    if pc.1 == CL_SUCCESS {
      var dc := CollectDevicesList(EmptyDevices, pc.0, answers);
      assert WellFormed(dc.0);
    }
  }

  // ---------------------------------------------------------------------
  // Over the device registry as written

  /** `SCOW_Tear_Down` over the written `Erase_Devices_List`: the world, the
      code, the steps, and whether an array already freed was freed again. */
  function TearDownAsWritten(w: World): (r: (World, Code, seq<Step>, bool))
    ensures r.1 == CL_SUCCESS && r.2 == [EraseDevices, ErasePlatforms] && r.0.platforms.list.None?
    ensures r.3 <==> w.devices.cpuList == Dangling || w.devices.gpuList == Dangling
    ensures w.devices.cpuList.Live? ==> r.0.devices.cpuList == Dangling
    ensures w.devices.gpuList.Live? ==> r.0.devices.gpuList == Dangling
  {
    var e := EraseDevicesListAsWritten(w.devices);
    (World(ErasePlatformsList(w.platforms).0, e.0), CL_SUCCESS, [EraseDevices, ErasePlatforms], e.2)
  }

  /** What set-up over the written registry yields: the world, the code, the
      steps and the double-free flag of any tear-down; or the GPU listing
      writing past its array. */
  datatype SetUpOutcome = Done(world: World, code: Code, steps: seq<Step>, doubleFree: bool) | Overflowed

  /** `SCOW_Set_Up` over the written `Collect_Devices_List` and
      `Erase_Devices_List`. When the GPU listing stays inside its array it
      reports the code and performs the steps of the corrected set-up; it
      overflows only when device collection is reached and more GPUs than
      CPUs are counted. */
  function SetUpAsWritten(w: World, platCount: Answer<nat>, platListing: Answer<seq<nat>>, answers: nat -> PlatformAnswer): (r: SetUpOutcome)
    ensures var pc := CollectPlatformsList(w.platforms, platCount, platListing);
      pc.1 != CL_SUCCESS ==> r.Done? && r.code == pc.1 && r.steps == [CollectPlatforms, EraseDevices, ErasePlatforms]
    ensures r.Done? ==> r.code == SetUp(w, platCount, platListing, answers).1 && r.steps == SetUp(w, platCount, platListing, answers).2
    ensures r.Done? && r.code != CL_SUCCESS ==> r.world.platforms.list.None?
    ensures r.Overflowed? ==> var pc := CollectPlatformsList(w.platforms, platCount, platListing);
      pc.1 == CL_SUCCESS && Added(PlatformIds(pc.0), answers, Gpu) > w.devices.cpuNum + Added(PlatformIds(pc.0), answers, Cpu)
  {
    var pc := CollectPlatformsList(w.platforms, platCount, platListing);
    if pc.1 != CL_SUCCESS then
      var td := TearDownAsWritten(World(pc.0, w.devices));
      Done(td.0, pc.1, [CollectPlatforms] + td.2, td.3)
    else match CollectDevicesListAsWritten(w.devices, pc.0, answers)
      case HeapOverflow => Overflowed
      case Collected(reg, code) =>
        if code != CL_SUCCESS then
          var td := TearDownAsWritten(World(pc.0, reg));
          Done(td.0, code, [CollectPlatforms, CollectDevices] + td.2, td.3)
        else Done(World(pc.0, reg), CL_SUCCESS, [CollectPlatforms, CollectDevices], false)
  }

  /** One platform with no CPU and one GPU: set-up over the written registry
      overflows the GPU array, while the corrected set-up succeeds. */
  lemma GpuOnlySetUpOverflows()
    ensures SetUpAsWritten(InitialWorld, Ok(1), Ok([7]), OneGpu) == Overflowed
    ensures SetUp(InitialWorld, Ok(1), Ok([7]), OneGpu).1 == CL_SUCCESS
  {
    assert Fit([7], 1) == [7];
    assert CollectPlatformsList(EmptyRegistry, Ok(1), Ok([7])) == (PlatformRegistry(1, Some([7])), CL_SUCCESS);
    GpuArraySizedByCpuCount();
  }

  /** Over the written erase, a successful set-up with some CPU followed by a
      tear-down leaves the CPU pointer dangling, so the initial state is not
      restored, and a second tear-down frees the array again. The corrected
      tear-down restores the initial state and is idempotent. */
  lemma TearDownLeavesDangling(platCount: Answer<nat>, platListing: Answer<seq<nat>>, answers: nat -> PlatformAnswer)
    ensures var s := SetUpAsWritten(InitialWorld, platCount, platListing, answers);
      s.Done? && s.code == CL_SUCCESS && s.world.devices.cpuNum > 0 ==>
        var t := TearDownAsWritten(s.world);
        t.0.devices.cpuList == Dangling && t.0 != InitialWorld && TearDownAsWritten(t.0).3
    ensures var w := SetUp(InitialWorld, platCount, platListing, answers).0;
      TearDown(TearDown(w).0) == TearDown(w)
  {
    var pc := CollectPlatformsList(EmptyRegistry, platCount, platListing);
    if pc.1 == CL_SUCCESS {
      var dc := CollectDevicesList(EmptyDevices, pc.0, answers);
      assert WellFormed(dc.0);
    }
  }
}

=== FILE: steel_threads.dfy ===
/** The steel thread of the older design (steel_thread.c): the object owning
    the platform list, the default platform and device, the context and the
    four command queues. Driver calls are parameters: `contextCode` and
    `queueCode(q)` are the codes the driver reports when the context and
    queue `q` are created, `finish(q)` the code of waiting on queue `q`. */
module SteelThreads {
  import opened Common
  import opened Codes
  import opened Errors
  import opened Nodes
  import opened DeviceLists
  import opened PlatformLists
  import Platforms

  /** Capacity of the thread's build-parameter buffer, terminator included. */
  const CL_BUILD_PARAMS_STRING_SIZE: nat := 256

  /** A thread: its error slot, its platform list (None while null), the
      platform count, the default platform (a slot of the list), its build
      parameters, whether it holds a context, and the queues it holds, in
      creation order. */
  datatype Thread = Thread(
    error: ErrorSlot,
    platforms: Option<seq<PlatformNode>>,
    numPlatforms: nat,
    defaultPlatform: Option<nat>,
    initParams: string,
    context: bool,
    queues: seq<Queue>)

  /** The thread's queues in the order they are created and released. */
  const QUEUE_ORDER := [CmdQueue, HostToDevice, DeviceToHost, DeviceToDevice]

  /** The queues Wait_For_Data waits on, in order. */
  const DATA_QUEUES := [HostToDevice, DeviceToHost, DeviceToDevice]

  /** The copy of the build parameters the thread keeps: the whole string
      when it fits the buffer with its terminator, otherwise its first 255
      characters. */
  function TruncateParams(s: string): (r: string)
    ensures |r| <= |s| && |r| < CL_BUILD_PARAMS_STRING_SIZE && r == s[..|r|]
    ensures |s| < CL_BUILD_PARAMS_STRING_SIZE ==> r == s
    ensures |s| >= CL_BUILD_PARAMS_STRING_SIZE ==> |r| == CL_BUILD_PARAMS_STRING_SIZE - 1
  {
    if |s| >= CL_BUILD_PARAMS_STRING_SIZE then s[..CL_BUILD_PARAMS_STRING_SIZE - 1] else s
  }

  /** The first slot from `i` on whose platform reported devices, or `|ps|`. */
  function FirstWithDevices(ps: seq<PlatformNode>, i: nat): (k: nat)
    requires i <= |ps|
    ensures i <= k <= |ps|
    ensures k < |ps| ==> ps[k].wantedDevicesNum > 0
    ensures forall j :: i <= j < k ==> ps[j].wantedDevicesNum == 0
    decreases |ps| - i
  {
    if i == |ps| then i
    else if ps[i].wantedDevicesNum > 0 then i
    else FirstWithDevices(ps, i + 1)
  }

  /** What Set_Default_Device yields: the thread and a code, or a crash
      dereferencing a null pointer. */
  datatype Selection = Selected(thread: Option<Thread>, code: Code) | Crashed

  /** The selection both variants make once a platform with devices is found
      at slot `k`: that platform becomes the thread's default, and the head
      of its device list becomes the platform's default. */
  function SelectAt(t: Thread, ps: seq<PlatformNode>, k: nat): (s: Selection)
    requires k < |ps| && ps[k].devices.Some?
    ensures s.Selected? && s.code == CL_SUCCESS && s.thread.Some?
    ensures s.thread.value.defaultPlatform == Some(k)
    ensures s.thread.value.platforms == Some(ps[k := ps[k].(defaultDevice := Some(0))])
    ensures s.thread.value.(platforms := t.platforms, defaultPlatform := t.defaultPlatform) == t
  {
    var p := PlatformMakeDefault(Some(k), t.defaultPlatform);
    var d := DeviceMakeDefault(Some(ps[k]), Some(0));
    Selected(Some(t.(defaultPlatform := p.0, platforms := Some(ps[k := d.0.value]))), CL_SUCCESS)
  }

  /** `Set_Default_Device` as written (steel_thread.c:35-53): walking past
      the last platform leaves the list pointer null, and the rewind at the
      end dereferences it; a platform whose count is positive but whose
      device list is null is dereferenced too. */
  function SetDefaultDeviceAsWritten(t: Option<Thread>): (s: Selection)
    ensures t.None? ==> s == Selected(None, INVALID_BUFFER_GIVEN)
    ensures t.Some? && t.value.platforms.None? ==> s == Crashed
    ensures t.Some? && t.value.platforms.Some? ==>
      var ps := t.value.platforms.value;
      (s == Crashed <==> FirstWithDevices(ps, 0) == |ps| || ps[FirstWithDevices(ps, 0)].devices.None?)
  {
    if t.None? then Selected(None, INVALID_BUFFER_GIVEN)
    else if t.value.platforms.None? then Crashed
    else
      var ps := t.value.platforms.value;
      var k := FirstWithDevices(ps, 0);
      if k == |ps| || ps[k].devices.None? then Crashed
      else SelectAt(t.value, ps, k)
  }

  /** `Set_Default_Device` reporting CANT_FIND_DEVICE, with the thread
      unchanged, when no platform reported a device. On a well-formed list it
      selects the first platform with devices and that platform's first
      device. */
  function SetDefaultDevice(t: Option<Thread>): (s: Selection)
    requires t.Some? && t.value.platforms.Some? ==> PlatformListOk(t.value.platforms.value)
    ensures s.Selected?
    ensures t.None? ==> s == Selected(None, INVALID_BUFFER_GIVEN)
    ensures t.Some? ==> s.thread.Some? && (s.code == CL_SUCCESS || s == Selected(t, CANT_FIND_DEVICE))
    ensures t.Some? ==>
      (s.code == CL_SUCCESS <==> t.value.platforms.Some? && FirstWithDevices(t.value.platforms.value, 0) < |t.value.platforms.value|)
    ensures t.Some? && s.code == CL_SUCCESS ==>
      var ps := t.value.platforms.value;
      var k := FirstWithDevices(ps, 0);
      s == SelectAt(t.value, ps, k) && s.thread.value.platforms.value[k].wantedDevicesNum > 0
  {
    if t.None? then Selected(None, INVALID_BUFFER_GIVEN)
    else if t.value.platforms.None? then Selected(t, CANT_FIND_DEVICE)
    else
      var ps := t.value.platforms.value;
      var k := FirstWithDevices(ps, 0);
      if k == |ps| then Selected(t, CANT_FIND_DEVICE)
      else SelectAt(t.value, ps, k)
  }

  /** On a well-formed list with some device the two variants agree; with
      no device the original crashes where the corrected one reports
      CANT_FIND_DEVICE. */
  lemma SetDefaultDeviceAgrees(t: Thread)
    requires t.platforms.Some? && PlatformListOk(t.platforms.value)
    ensures var ps := t.platforms.value;
      FirstWithDevices(ps, 0) < |ps| ==> SetDefaultDeviceAsWritten(Some(t)) == SetDefaultDevice(Some(t))
    ensures var ps := t.platforms.value;
      FirstWithDevices(ps, 0) == |ps| ==>
        SetDefaultDeviceAsWritten(Some(t)) == Crashed && SetDefaultDevice(Some(t)) == Selected(Some(t), CANT_FIND_DEVICE)
  {
    var ps := t.platforms.value;
    var k := FirstWithDevices(ps, 0);
    if k < |ps| {
      assert ps[k].devices.Some?;
    }
  }

  /** A thread whose only platform reported no device. */
  lemma NoDevicePlatformCrashesDefaultSelection(p: PlatformNode, t: Thread)
    requires p.wantedDevicesNum == 0 && p.devices.None? && p.link == ChainLink(0, 1)
    requires t.platforms == Some([p])
    ensures SetDefaultDeviceAsWritten(Some(t)) == Crashed
    ensures SetDefaultDevice(Some(t)) == Selected(Some(t), CANT_FIND_DEVICE)
  {
    assert FirstWithDevices([p], 1) == 1;
    assert FirstWithDevices([p], 0) == 1;
  }

  /** The crash is reachable from Make_Steel_Thread: a single platform whose
      driver finds no GPU is made successfully, with no device, and the
      default selection then walks off the end of the list. */
  lemma NoGpuAnywhereCrashesDefaultSelection(info: PlatformInfo)
    ensures var answers := (j: nat) => PlatformAnswers(Failed(CL_DEVICE_NOT_FOUND), Ok([]), _ => true, Some(info));
      var m := PlatformsMade(Ok(1), Ok([5]), answers);
      var t := BlankThread.(numPlatforms := 1, platforms := m);
      m.Some? && |m.value| == 1 && m.value[0].wantedDevicesNum == 0 && PlatformListOk(m.value)
      && SetDefaultDeviceAsWritten(Some(t)) == Crashed
      && SetDefaultDevice(Some(t)) == Selected(Some(t), CANT_FIND_DEVICE)
  {
    var answers := (j: nat) => PlatformAnswers(Failed(CL_DEVICE_NOT_FOUND), Ok([]), _ => true, Some(info));
    var ids := Fit([5], 1);
    assert ElementOk(ids[0], answers(0));
    PlatformListOfOk(ids, answers, 1);
    ExpectedPlatformShape(ids[0], answers(0));
    var ps := PlatformListOf(ids, answers, 1);
    assert ps[0].wantedDevicesNum == 0;
    assert FirstWithDevices(ps, 1) == 1;
    assert FirstWithDevices(ps, 0) == 1;
  }

  /** The queues created in `order` before the first one the driver refuses. */
  function CreatedQueues(order: seq<Queue>, queueCode: Queue -> Code): (qs: seq<Queue>)
    ensures |qs| <= |order| && qs == order[..|qs|]
    ensures forall i :: 0 <= i < |qs| ==> queueCode(qs[i]) == CL_SUCCESS
    ensures |qs| < |order| ==> queueCode(order[|qs|]) != CL_SUCCESS
  {
    if |order| == 0 || queueCode(order[0]) != CL_SUCCESS then []
    else [order[0]] + CreatedQueues(order[1..], queueCode)
  }

  /** The position in `order` of the first queue the driver refuses, or
      `|order|` when it refuses none. */
  function FirstRefused(order: seq<Queue>, queueCode: Queue -> Code): (i: nat)
    ensures i <= |order|
    ensures forall j :: 0 <= j < i ==> queueCode(order[j]) == CL_SUCCESS
    ensures i < |order| ==> queueCode(order[i]) != CL_SUCCESS
  {
    if |order| == 0 then 0
    else if queueCode(order[0]) != CL_SUCCESS then 0
    else FirstRefused(order[1..], queueCode) + 1
  }

  /** The queues created are exactly those before the first refusal. */
  lemma {:induction false} CreatedUpToFirstRefusal(order: seq<Queue>, queueCode: Queue -> Code)
    ensures |CreatedQueues(order, queueCode)| == FirstRefused(order, queueCode)
  {
    if |order| > 0 && queueCode(order[0]) == CL_SUCCESS {
      CreatedUpToFirstRefusal(order[1..], queueCode);
    }
  }

  /** `Init_OpenCL`: creates the context, then the four queues in order,
      stopping at the first refusal with CANT_CREATE_CONTEXT or
      CANT_CREATE_CMD_QUEUE; what was created before stays in the thread. */
  function InitOpenCL(t: Option<Thread>, contextCode: Code, queueCode: Queue -> Code): (r: (Option<Thread>, Code))
    ensures t.None? ==> r == (None, INVALID_BUFFER_GIVEN)
    ensures t.Some? ==> r.0.Some? && r.0.value.(context := t.value.context, queues := t.value.queues) == t.value
    ensures t.Some? && contextCode != CL_SUCCESS ==> r.1 == CANT_CREATE_CONTEXT && !r.0.value.context && r.0.value.queues == []
    ensures t.Some? && contextCode == CL_SUCCESS ==>
      (r.0.value.context && |r.0.value.queues| <= |QUEUE_ORDER|
       && r.0.value.queues == QUEUE_ORDER[..|r.0.value.queues|]
       && (r.1 == CL_SUCCESS <==> r.0.value.queues == QUEUE_ORDER)
       && (r.1 != CL_SUCCESS ==> r.1 == CANT_CREATE_CMD_QUEUE))
    ensures t.Some? && contextCode == CL_SUCCESS ==> |r.0.value.queues| == FirstRefused(QUEUE_ORDER, queueCode)
    ensures r.1 == CL_SUCCESS <==>
      t.Some? && contextCode == CL_SUCCESS && forall i :: 0 <= i < |QUEUE_ORDER| ==> queueCode(QUEUE_ORDER[i]) == CL_SUCCESS
  {
    if t.None? then (None, INVALID_BUFFER_GIVEN)
    else if contextCode != CL_SUCCESS then (Some(t.value.(context := false, queues := [])), CANT_CREATE_CONTEXT)
    else
      var qs := CreatedQueues(QUEUE_ORDER, queueCode);
      CreatedUpToFirstRefusal(QUEUE_ORDER, queueCode);
      (Some(t.value.(context := true, queues := qs)), if qs == QUEUE_ORDER then CL_SUCCESS else CANT_CREATE_CMD_QUEUE)
  }

  /** One release event per queue, in the given order. */
  function QueueReleases(qs: seq<Queue>): (t: seq<Event>)
    ensures |t| == |qs| && forall i :: 0 <= i < |qs| ==> t[i] == ReleaseQueue(qs[i])
  {
    seq(|qs|, i requires 0 <= i < |qs| => ReleaseQueue(qs[i]))
  }

  /** What destroying a thread releases: its queues, its context, its
      platform list, its error slot and itself. */
  function ThreadRelease(t: Thread): seq<Event>
  {
    QueueReleases(t.queues)
    + (if t.context then [ReleaseContext] else [])
    + (if t.platforms.Some? then ListRelease(t.platforms.value) else [])
    + [DestroyError(ThreadObj), FreeNode(ThreadObj)]
  }

  /** Destroying a thread frees the thread once, every platform and device
      node of its list once, and nothing else. */
  lemma ThreadReleaseFreesOnce(t: Thread, o: Owner)
    ensures Occurrences(ThreadRelease(t), FreeNode(o))
         == (if o == ThreadObj then 1 else 0) + (if t.platforms.Some? then ExpectedFrees(t.platforms.value, o) else 0)
  {
    var x := FreeNode(o);
    var qs := QueueReleases(t.queues);
    var ctx: seq<Event> := if t.context then [ReleaseContext] else [];
    var list: seq<Event> := if t.platforms.Some? then ListRelease(t.platforms.value) else [];
    var tail := [DestroyError(ThreadObj), FreeNode(ThreadObj)];
    assert ThreadRelease(t) == qs + ctx + list + tail;
    OccurrencesConcat(qs + ctx + list, tail, x);
    OccurrencesConcat(qs + ctx, list, x);
    OccurrencesConcat(qs, ctx, x);
    OccurrencesAbsent(qs, x);
    OccurrencesAbsent(ctx, x);
    PairOccurrences(tail[0], tail[1], x);
    if t.platforms.Some? {
      ListReleaseFreesOnce(t.platforms.value, o);
    }
  }

  /** Each release event of `QueueReleases(qs)` is counted as often as its
      queue occurs in `qs`. */
  lemma {:induction false} QueueReleaseCount(qs: seq<Queue>, q: Queue)
    ensures Occurrences(QueueReleases(qs), ReleaseQueue(q)) == multiset(qs)[q]
    ensures Occurrences(QueueReleases(qs), ReleaseContext) == 0
  {
    if qs != [] {
      var k := |qs| - 1;
      assert QueueReleases(qs)[..k] == QueueReleases(qs[..k]);
      QueueReleaseCount(qs[..k], q);
      assert qs == qs[..k] + [qs[k]];
    }
  }

  /** Destroying a thread releases its context once if it holds one and
      each queue it holds once. */
  lemma ThreadReleaseHoldings(t: Thread, q: Queue)
    ensures Occurrences(ThreadRelease(t), ReleaseContext) == if t.context then 1 else 0
    ensures Occurrences(ThreadRelease(t), ReleaseQueue(q)) == multiset(t.queues)[q]
  {
    var qs := QueueReleases(t.queues);
    var ctx: seq<Event> := if t.context then [ReleaseContext] else [];
    var list: seq<Event> := if t.platforms.Some? then ListRelease(t.platforms.value) else [];
    var tail := [DestroyError(ThreadObj), FreeNode(ThreadObj)];
    assert ThreadRelease(t) == qs + ctx + list + tail;
    if t.platforms.Some? {
      ListReleaseListEvents(t.platforms.value);
    }
    QueueReleaseCount(t.queues, q);
    forall x | x == ReleaseContext || x == ReleaseQueue(q)
      ensures Occurrences(ThreadRelease(t), x) == Occurrences(qs, x) + Occurrences(ctx, x)
    {
      OccurrencesConcat(qs + ctx + list, tail, x);
      OccurrencesConcat(qs + ctx, list, x);
      OccurrencesConcat(qs, ctx, x);
      OccurrencesAbsent(list, x);
      PairOccurrences(tail[0], tail[1], x);
    }
    if t.context {
      OneOccurrence(ReleaseContext, ReleaseContext);
      OneOccurrence(ReleaseContext, ReleaseQueue(q));
    }
  }

  /** The queues a thread holds after Init_OpenCL are a prefix of the
      creation order, so each is held once. */
  lemma QueuePrefixOnce(k: nat, q: Queue)
    requires k <= |QUEUE_ORDER|
    ensures multiset(QUEUE_ORDER[..k])[q] == if q in QUEUE_ORDER[..k] then 1 else 0
  {
    if k == 0 {
      assert QUEUE_ORDER[..k] == [];
    } else if k == 1 {
      assert QUEUE_ORDER[..k] == [CmdQueue];
    } else if k == 2 {
      assert QUEUE_ORDER[..k] == [CmdQueue, HostToDevice];
    } else if k == 3 {
      assert QUEUE_ORDER[..k] == [CmdQueue, HostToDevice, DeviceToHost];
    } else {
      assert QUEUE_ORDER[..k] == QUEUE_ORDER;
    }
  }

  /** `Steel_Thread_Destroy`: a null thread is accepted; otherwise the queues
      it holds are released in creation order, then the context, then the
      platform list, then its error slot, and the thread is freed. */
  method Destroy(t: Option<Thread>) returns (code: Code, trace: seq<Event>)
    requires t.Some? && t.value.platforms.Some? ==> Releasable(t.value.platforms.value)
    ensures code == CL_SUCCESS
    ensures t.None? ==> trace == []
    ensures t.Some? ==> trace == ThreadRelease(t.value)
  {
    code := CL_SUCCESS;
    trace := [];
    if t.None? {
      return;
    }
    var th := t.value;
    var queues := ReleaseQueues(th.queues);
    var context: seq<Event> := if th.context then [ReleaseContext] else [];
    var list: seq<Event> := [];
    if th.platforms.Some? {
      var start := if |th.platforms.value| == 0 then None else Some(0);
      var listCode;
      listCode, list := PlatformDestroy(th.platforms.value, start);
    }
    trace := queues + context + list + [DestroyError(ThreadObj), FreeNode(ThreadObj)];
  }

  /** The queue-release loop of Steel_Thread_Destroy. */
  method ReleaseQueues(qs: seq<Queue>) returns (trace: seq<Event>)
    ensures trace == QueueReleases(qs)
  {
    trace := [];
    var i := 0;
    while i < |qs|
      invariant 0 <= i <= |qs|
      invariant trace == QueueReleases(qs[..i])
    {
      trace := trace + [ReleaseQueue(qs[i])];
      i := i + 1;
    }
    assert qs[..|qs|] == qs;
  }

  /** `Steel_Thread_Wait_For_Data`: waits on the three data queues in order
      and stops at the first failure, returning its code. Also returns the
      queues waited on. */
  function WaitForData(finish: Queue -> Code): (r: (Code, seq<Queue>))
    ensures 1 <= |r.1| <= |DATA_QUEUES| && r.1 == DATA_QUEUES[..|r.1|]
    ensures forall i :: 0 <= i < |r.1| - 1 ==> finish(r.1[i]) == CL_SUCCESS
    ensures r.0 == finish(r.1[|r.1| - 1])
    ensures r.0 == CL_SUCCESS <==> forall i :: 0 <= i < |DATA_QUEUES| ==> finish(DATA_QUEUES[i]) == CL_SUCCESS
  {
    if finish(HostToDevice) != CL_SUCCESS then (finish(HostToDevice), [HostToDevice])
    else if finish(DeviceToHost) != CL_SUCCESS then (finish(DeviceToHost), [HostToDevice, DeviceToHost])
    else (finish(DeviceToDevice), DATA_QUEUES)
  }

  /** `Steel_Thread_Wait_For_Cmd`: waits on the command queue only. */
  function WaitForCommands(finish: Queue -> Code): (r: (Code, seq<Queue>))
    ensures r.1 == [CmdQueue] && r.0 == finish(CmdQueue)
  {
    (finish(CmdQueue), [CmdQueue])
  }

  /** Waiting for data never waits on the command queue, and waiting for
      commands waits on nothing else: together they cover all four queues
      once each. */
  lemma WaitsPartitionQueues(finish: Queue -> Code)
    ensures CmdQueue !in WaitForData(finish).1
    ensures multiset(WaitForCommands(finish).1 + DATA_QUEUES) == multiset(QUEUE_ORDER)
  {
    assert WaitForCommands(finish).1 + DATA_QUEUES == QUEUE_ORDER;
  }

  /** The thread Make_Steel_Thread starts from: a fresh error slot and the
      empty build parameters, nothing else. */
  const BlankThread := Thread(MakeError(), None, 0, None, TruncateParams(""), false, [])

  /** The platform list Make_Platforms hands back, if any. */
  function PlatformsMade(count: Answer<nat>, listing: Answer<seq<nat>>, answers: nat -> PlatformAnswers): Option<seq<PlatformNode>>
  {
    var num := GetPlatformsNum(count).0;
    if num > 0 && listing.Ok? && forall j :: 0 <= j < num ==> ElementOk(Fit(listing.value, num)[j], answers(j))
    then Some(PlatformListOf(Fit(listing.value, num), answers, num))
    else None
  }

  /** Marking a default device keeps a list well formed. */
  lemma SelectedStaysWellFormed(ps: seq<PlatformNode>, k: nat)
    requires PlatformListOk(ps) && k < |ps|
    ensures PlatformListOk(ps[k := ps[k].(defaultDevice := Some(0))])
  {
    var qs := ps[k := ps[k].(defaultDevice := Some(0))];
    assert forall j :: 0 <= j < |ps| ==> PlatformLinks(qs)[j] == PlatformLinks(ps)[j];
  }

  /** The thread a successful Make_Steel_Thread returns for the list `ps`. */
  function ConfiguredThread(th: Thread, ps: seq<PlatformNode>): Thread
    requires FirstWithDevices(ps, 0) < |ps|
  {
    var k := FirstWithDevices(ps, 0);
    th.(platforms := Some(ps[k := ps[k].(defaultDevice := Some(0))]), defaultPlatform := Some(k), context := true, queues := QUEUE_ORDER)
  }

  /** The part of Make_Steel_Thread after the platform list exists, with the
      corrected default selection: default selection, then context and
      queues; a failure destroys the thread. */
  method Configure(th: Thread, contextCode: Code, queueCode: Queue -> Code) returns (t: Option<Thread>, trace: seq<Event>)
    requires th.platforms.Some? && PlatformListOk(th.platforms.value) && !th.context && th.queues == []
    ensures t.Some? <==>
      (FirstWithDevices(th.platforms.value, 0) < |th.platforms.value|
       && contextCode == CL_SUCCESS && forall i :: 0 <= i < |QUEUE_ORDER| ==> queueCode(QUEUE_ORDER[i]) == CL_SUCCESS)
    ensures t.Some? ==> t.value == ConfiguredThread(th, th.platforms.value) && trace == []
    ensures t.None? ==> |trace| >= 2 && trace[|trace| - 2..] == [DestroyError(ThreadObj), FreeNode(ThreadObj)]
    ensures t.None? ==>
      ReleasesHoldings(trace, th.platforms.value,
                       FirstWithDevices(th.platforms.value, 0) < |th.platforms.value| && contextCode == CL_SUCCESS,
                       FirstRefused(QUEUE_ORDER, queueCode))
  {
    var ps := th.platforms.value;
    var chosen := SetDefaultDevice(Some(th));
    if chosen.code != CL_SUCCESS {
      var code, released := Destroy(Some(th));
      ThreadReleaseAccount(th, ps, false, 0, false, FirstRefused(QUEUE_ORDER, queueCode));
      return None, released;
    }
    var k := FirstWithDevices(ps, 0);
    t, trace := Initialise(chosen.thread.value, ps, k, contextCode, queueCode);
  }

  /** The last step of Make_Steel_Thread: Init_OpenCL on the thread whose
      defaults are selected (slot `k` of `ps`); a failure destroys the
      thread with the context and the queues created so far. */
  method Initialise(sel: Thread, ps: seq<PlatformNode>, k: nat, contextCode: Code, queueCode: Queue -> Code)
    returns (t: Option<Thread>, trace: seq<Event>)
    requires PlatformListOk(ps) && k < |ps|
    requires sel.platforms == Some(ps[k := ps[k].(defaultDevice := Some(0))]) && !sel.context && sel.queues == []
    ensures t.Some? <==> contextCode == CL_SUCCESS && forall i :: 0 <= i < |QUEUE_ORDER| ==> queueCode(QUEUE_ORDER[i]) == CL_SUCCESS
    ensures t.Some? ==> t.value == sel.(context := true, queues := QUEUE_ORDER) && trace == []
    ensures t.None? ==> |trace| >= 2 && trace[|trace| - 2..] == [DestroyError(ThreadObj), FreeNode(ThreadObj)]
    ensures t.None? ==> ReleasesHoldings(trace, ps, contextCode == CL_SUCCESS, FirstRefused(QUEUE_ORDER, queueCode))
  {
    SelectedStaysWellFormed(ps, k);
    var init := InitOpenCL(Some(sel), contextCode, queueCode);
    if init.1 != CL_SUCCESS {
      var code, released := Destroy(init.0);
      ThreadReleaseAccount(init.0.value, ps, true, k, contextCode == CL_SUCCESS, FirstRefused(QUEUE_ORDER, queueCode));
      return None, released;
    }
    t := init.0;
    trace := [];
  }

  /** `trace` destroys a thread built on the list `ps`: it frees the thread
      and each platform and device node of the list once, releases the
      context once if `live` (the thread got as far as creating it) and
      never otherwise, and releases each of the first `n` queues once when
      `live` and no queue otherwise. */
  ghost predicate ReleasesHoldings(trace: seq<Event>, ps: seq<PlatformNode>, live: bool, n: nat)
  {
    n <= |QUEUE_ORDER|
    && (forall o :: Occurrences(trace, FreeNode(o)) == (if o == ThreadObj then 1 else 0) + ExpectedFrees(ps, o))
    && Occurrences(trace, ReleaseContext) == (if live then 1 else 0)
    && forall q :: Occurrences(trace, ReleaseQueue(q)) == if live && q in QUEUE_ORDER[..n] then 1 else 0
  }

  /** What destroying a thread that Configure gives up on releases: the
      thread and each node of its list (`ps`, perhaps with a default device
      marked in slot `k`) once, and the context and the first `n` queues
      once each when it got as far as creating them. */
  lemma ThreadReleaseAccount(held: Thread, ps: seq<PlatformNode>, selected: bool, k: nat, live: bool, n: nat)
    requires n <= |QUEUE_ORDER| && (selected ==> k < |ps|)
    requires held.platforms == Some(if selected then ps[k := ps[k].(defaultDevice := Some(0))] else ps)
    requires held.context == live && held.queues == (if live then QUEUE_ORDER[..n] else [])
    ensures ReleasesHoldings(ThreadRelease(held), ps, live, n)
  {
    forall o
      ensures Occurrences(ThreadRelease(held), FreeNode(o)) == (if o == ThreadObj then 1 else 0) + ExpectedFrees(ps, o)
    {
      ThreadReleaseFreesOnce(held, o);
      if selected {
        SelectionKeepsFrees(ps, k, o);
      }
    }
    forall q
      ensures Occurrences(ThreadRelease(held), ReleaseQueue(q)) == if live && q in QUEUE_ORDER[..n] then 1 else 0
    {
      ThreadReleaseHoldings(held, q);
      if live {
        QueuePrefixOnce(n, q);
      }
    }
    ThreadReleaseHoldings(held, CmdQueue);
  }

  /** Marking a default device frees the same nodes on destruction. */
  lemma SelectionKeepsFrees(ps: seq<PlatformNode>, k: nat, o: Owner)
    requires k < |ps|
    ensures ExpectedFrees(ps[k := ps[k].(defaultDevice := Some(0))], o) == ExpectedFrees(ps, o)
  {
    var qs := ps[k := ps[k].(defaultDevice := Some(0))];
    if o.DeviceAt? && o.p < |ps| {
      assert qs[o.p].devices == ps[o.p].devices;
    }
  }

  /** `Make_Steel_Thread` with the corrected list construction and default
      selection: makes the platform list of GPU devices, selects the
      defaults, then creates the context and queues. Any failure destroys
      the thread with whatever it holds and yields null. */
  method MakeSteelThread(count: Answer<nat>, listing: Answer<seq<nat>>, answers: nat -> PlatformAnswers,
                         contextCode: Code, queueCode: Queue -> Code)
    returns (t: Option<Thread>, trace: seq<Event>)
    ensures t.Some? <==>
      (var m := PlatformsMade(count, listing, answers);
       m.Some? && FirstWithDevices(m.value, 0) < |m.value|
       && contextCode == CL_SUCCESS && forall i :: 0 <= i < |QUEUE_ORDER| ==> queueCode(QUEUE_ORDER[i]) == CL_SUCCESS)
    ensures t.Some? ==>
      var ps := PlatformsMade(count, listing, answers).value;
      t.value == ConfiguredThread(BlankThread.(numPlatforms := |ps|, platforms := Some(ps)), ps) && trace == []
    ensures t.None? ==> |trace| >= 2 && trace[|trace| - 2..] == [DestroyError(ThreadObj), FreeNode(ThreadObj)]
    ensures t.None? && PlatformsMade(count, listing, answers).Some? ==>
      var m := PlatformsMade(count, listing, answers).value;
      ReleasesHoldings(trace, m, FirstWithDevices(m, 0) < |m| && contextCode == CL_SUCCESS, FirstRefused(QUEUE_ORDER, queueCode))
    ensures t.None? && PlatformsMade(count, listing, answers).None? ==>
      var num := GetPlatformsNum(count).0;
      Occurrences(trace, FreeNode(ThreadObj)) == 1 && Occurrences(trace, ReleaseContext) == 0
      && forall j: nat :: Occurrences(trace, FreeNode(PlatformAt(j)))
           == if num > 0 && listing.Ok? && j <= FirstBadPlatform(Fit(listing.value, num), answers, 0, num) then 1 else 0
  {
    var num, nodes, ptrace := MakePlatforms(count, listing, answers);
    var th := BlankThread.(numPlatforms := num, platforms := nodes);
    if nodes.None? {
      var code, released := Destroy(Some(th));
      UnmadeListAccount(num, listing, answers, ptrace, th);
      return None, ptrace + released;
    }
    t, trace := Configure(th, contextCode, queueCode);
  }

  /** What a Make_Steel_Thread whose platform list could not be made
      releases: the platforms 0..f of the failed construction once each, then
      the thread, which holds no context or queue. */
  lemma UnmadeListAccount(num: nat, listing: Answer<seq<nat>>, answers: nat -> PlatformAnswers,
                          ptrace: seq<Event>, th: Thread)
    requires th.platforms.None? && !th.context && th.queues == []
    requires num == 0 || listing.Failed? ==> ptrace == []
    requires num > 0 && listing.Ok? ==>
      var ids := Fit(listing.value, num);
      var f := FirstBadPlatform(ids, answers, 0, num);
      f < num && ptrace == ElementTrace(f, ids[f], answers(f)) + ListRelease(PlatformListOf(ids, answers, f))
    ensures Occurrences(ptrace + ThreadRelease(th), FreeNode(ThreadObj)) == 1
    ensures Occurrences(ptrace + ThreadRelease(th), ReleaseContext) == 0
    ensures forall j: nat ::
      Occurrences(ptrace + ThreadRelease(th), FreeNode(PlatformAt(j)))
      == if num > 0 && listing.Ok? && j <= FirstBadPlatform(Fit(listing.value, num), answers, 0, num) then 1 else 0
  {
    if num > 0 && listing.Ok? {
      var ids := Fit(listing.value, num);
      var f := FirstBadPlatform(ids, answers, 0, num);
      ElementTraceListEvents(f, ids[f], answers(f));
      ListReleaseListEvents(PlatformListOf(ids, answers, f));
    }
    ThreadAfterListEvents(ptrace, th);
    forall j: nat
      ensures Occurrences(ptrace + ThreadRelease(th), FreeNode(PlatformAt(j)))
           == if num > 0 && listing.Ok? && j <= FirstBadPlatform(Fit(listing.value, num), answers, 0, num) then 1 else 0
    {
      UnmadePlatformFrees(num, listing, answers, ptrace, th, j);
    }
  }

  /** A bare thread destroyed after a trace of list events only is freed
      once, and no context is released. */
  lemma ThreadAfterListEvents(ptrace: seq<Event>, th: Thread)
    requires forall e :: e in ptrace ==> ListEvent(e)
    requires th.platforms.None? && !th.context && th.queues == []
    ensures Occurrences(ptrace + ThreadRelease(th), FreeNode(ThreadObj)) == 1
    ensures Occurrences(ptrace + ThreadRelease(th), ReleaseContext) == 0
  {
    OccurrencesConcat(ptrace, ThreadRelease(th), FreeNode(ThreadObj));
    OccurrencesConcat(ptrace, ThreadRelease(th), ReleaseContext);
    ThreadReleaseFreesOnce(th, ThreadObj);
    ThreadReleaseHoldings(th, CmdQueue);
    OccurrencesAbsent(ptrace, FreeNode(ThreadObj));
    OccurrencesAbsent(ptrace, ReleaseContext);
  }

  /** The platform part of `UnmadeListAccount`, for one platform node. */
  lemma UnmadePlatformFrees(num: nat, listing: Answer<seq<nat>>, answers: nat -> PlatformAnswers,
                            ptrace: seq<Event>, th: Thread, j: nat)
    requires th.platforms.None?
    requires num == 0 || listing.Failed? ==> ptrace == []
    requires num > 0 && listing.Ok? ==>
      var ids := Fit(listing.value, num);
      var f := FirstBadPlatform(ids, answers, 0, num);
      f < num && ptrace == ElementTrace(f, ids[f], answers(f)) + ListRelease(PlatformListOf(ids, answers, f))
    ensures Occurrences(ptrace + ThreadRelease(th), FreeNode(PlatformAt(j)))
         == if num > 0 && listing.Ok? && j <= FirstBadPlatform(Fit(listing.value, num), answers, 0, num) then 1 else 0
  {
    OccurrencesConcat(ptrace, ThreadRelease(th), FreeNode(PlatformAt(j)));
    ThreadReleaseFreesOnce(th, PlatformAt(j));
    if num > 0 && listing.Ok? {
      var ids := Fit(listing.value, num);
      FailureFreesPlatformsOnce(ids, answers, FirstBadPlatform(ids, answers, 0, num), j);
    }
  }

  /** A successful thread's default platform reported devices, its default
      device is the head of that platform's list, and its build parameters
      are empty. */
  lemma MadeThreadHasDefaults(th: Thread, ps: seq<PlatformNode>)
    requires PlatformListOk(ps) && FirstWithDevices(ps, 0) < |ps|
    ensures var r := ConfiguredThread(th, ps);
      var k := r.defaultPlatform.value;
      k < |ps| && r.platforms.value[k].wantedDevicesNum > 0
      && r.platforms.value[k].devices.Some? && r.platforms.value[k].defaultDevice == Some(0)
      && 0 < |r.platforms.value[k].devices.value|
      && PlatformListOk(r.platforms.value)
  {
    var k := FirstWithDevices(ps, 0);
    SelectedStaysWellFormed(ps, k);
  }

  /** The part of Make_Steel_Thread after the platform list exists, with the
      default selection as written: it crashes exactly when no platform of
      the list reported a device; otherwise it behaves as `Configure`. */
  method ConfigureAsWritten(th: Thread, contextCode: Code, queueCode: Queue -> Code)
    returns (t: Option<Thread>, trace: seq<Event>, crashed: bool)
    requires th.platforms.Some? && PlatformListOk(th.platforms.value) && !th.context && th.queues == []
    ensures crashed <==> FirstWithDevices(th.platforms.value, 0) == |th.platforms.value|
    ensures crashed ==> t.None? && trace == []
    ensures !crashed ==>
      (t.Some? <==> contextCode == CL_SUCCESS && forall i :: 0 <= i < |QUEUE_ORDER| ==> queueCode(QUEUE_ORDER[i]) == CL_SUCCESS)
    ensures t.Some? ==> t.value == ConfiguredThread(th, th.platforms.value) && trace == []
    ensures !crashed && t.None? ==> |trace| >= 2 && trace[|trace| - 2..] == [DestroyError(ThreadObj), FreeNode(ThreadObj)]
    ensures !crashed && t.None? ==>
      ReleasesHoldings(trace, th.platforms.value, contextCode == CL_SUCCESS, FirstRefused(QUEUE_ORDER, queueCode))
  {
    var chosen := SetDefaultDeviceAsWritten(Some(th));
    if chosen.Crashed? {
      return None, [], true;
    }
    crashed := false;
    // A selection that does not crash has found a platform with devices and
    // selects what the corrected one selects.
    SetDefaultDeviceAgrees(th);
    var ps := th.platforms.value;
    var k := FirstWithDevices(ps, 0);
    t, trace := Initialise(chosen.thread.value, ps, k, contextCode, queueCode);
  }

  /** `Make_Steel_Thread` with the default selection as written (platform
      list construction corrected): it crashes exactly when the platform list
      is made but no platform in it reported a device. */
  method MakeSteelThreadAsWritten(count: Answer<nat>, listing: Answer<seq<nat>>, answers: nat -> PlatformAnswers,
                                  contextCode: Code, queueCode: Queue -> Code)
    returns (t: Option<Thread>, trace: seq<Event>, crashed: bool)
    ensures crashed <==>
      (var m := PlatformsMade(count, listing, answers); m.Some? && FirstWithDevices(m.value, 0) == |m.value|)
    ensures crashed ==> t.None? && trace == []
    ensures !crashed ==>
      (t.Some? <==>
        (var m := PlatformsMade(count, listing, answers);
         m.Some? && contextCode == CL_SUCCESS && forall i :: 0 <= i < |QUEUE_ORDER| ==> queueCode(QUEUE_ORDER[i]) == CL_SUCCESS))
    ensures t.Some? ==>
      var ps := PlatformsMade(count, listing, answers).value;
      t.value == ConfiguredThread(BlankThread.(numPlatforms := |ps|, platforms := Some(ps)), ps) && trace == []
    ensures !crashed && t.None? ==> |trace| >= 2 && trace[|trace| - 2..] == [DestroyError(ThreadObj), FreeNode(ThreadObj)]
    ensures !crashed && t.None? && PlatformsMade(count, listing, answers).Some? ==>
      var m := PlatformsMade(count, listing, answers).value;
      ReleasesHoldings(trace, m, contextCode == CL_SUCCESS, FirstRefused(QUEUE_ORDER, queueCode))
    ensures !crashed && t.None? && PlatformsMade(count, listing, answers).None? ==>
      var num := GetPlatformsNum(count).0;
      Occurrences(trace, FreeNode(ThreadObj)) == 1 && Occurrences(trace, ReleaseContext) == 0
      && forall j: nat :: Occurrences(trace, FreeNode(PlatformAt(j)))
           == if num > 0 && listing.Ok? && j <= FirstBadPlatform(Fit(listing.value, num), answers, 0, num) then 1 else 0
  {
    var num, nodes, ptrace := MakePlatforms(count, listing, answers);
    var th := BlankThread.(numPlatforms := num, platforms := nodes);
    if nodes.None? {
      var code, released := Destroy(Some(th));
      UnmadeListAccount(num, listing, answers, ptrace, th);
      return None, ptrace + released, false;
    }
    t, trace, crashed := ConfigureAsWritten(th, contextCode, queueCode);
  }

  /** Make_Steel_Thread as written crashes exactly where the corrected one
      finds no platform with devices, and returns null; everywhere else the
      two return the same thread, or both null. */
  method MakeSteelThreadVariantsAgree(count: Answer<nat>, listing: Answer<seq<nat>>, answers: nat -> PlatformAnswers,
                                      contextCode: Code, queueCode: Queue -> Code)
    returns (written: Option<Thread>, crashed: bool, corrected: Option<Thread>)
    ensures crashed <==>
      (var m := PlatformsMade(count, listing, answers); m.Some? && FirstWithDevices(m.value, 0) == |m.value|)
    ensures crashed ==> corrected.None?
    ensures !crashed ==> written == corrected
  {
    var t1, t2;
    written, t1, crashed := MakeSteelThreadAsWritten(count, listing, answers, contextCode, queueCode);
    corrected, t2 := MakeSteelThread(count, listing, answers, contextCode, queueCode);
  }

  /** The thread's platform count and the registry's agree on the count
      whatever the driver answers, but only the thread's query reports a
      failure: the registry's always answers CL_SUCCESS. */
  lemma CountQueriesAgree(count: Answer<nat>)
    ensures GetPlatformsNum(count).0 == Platforms.GetNumPlatforms(Platforms.EmptyRegistry, count).0.num
    ensures GetPlatformsNum(count).1 == CL_SUCCESS <==> count.Ok?
    ensures Platforms.GetNumPlatforms(Platforms.EmptyRegistry, count).1 == CL_SUCCESS
  {
  }
}

=== FILE: timers.dfy ===
/** The per-object timer (timer.c): a host side driven by Start/Stop and a
    device side fed by profiled driver events, each with a last duration, a
    running total and a call count. Durations are opaque values supplied by
    the caller; the clock arithmetic itself is not modelled. */
module Timers {
  import opened Common
  import opened Codes

  /** Which side of a timer an accessor reads or Reset clears; anything the
      enumeration does not name is `Unrecognised`. */
  datatype TimeSide = HostTime | DeviceTime | Unrecognised

  /** Whether an operation gathers device time. */
  datatype TimeMode = Measure | DontMeasure

  datatype Timer = Timer(
    numCallsHost: nat,
    numCallsDevice: nat,
    currentHost: real,
    totalHost: real,
    currentDevice: real,
    totalDevice: real,
    runningHost: bool,
    runningDevice: bool)

  /** The host-side fields of a timer. */
  function HostPart(t: Timer): (nat, real, real, bool)
  {
    (t.numCallsHost, t.currentHost, t.totalHost, t.runningHost)
  }

  /** The device-side fields of a timer. */
  function DevicePart(t: Timer): (nat, real, real, bool)
  {
    (t.numCallsDevice, t.currentDevice, t.totalDevice, t.runningDevice)
  }

  /** `Make_Timer`: everything zero, nothing running. */
  function MakeTimer(): (t: Timer)
    ensures t.numCallsHost == 0 && t.numCallsDevice == 0
    ensures t.totalHost == 0.0 && t.totalDevice == 0.0
    ensures t.currentHost == 0.0 && t.currentDevice == 0.0
    ensures !t.runningHost && !t.runningDevice
  {
    Timer(0, 0, 0.0, 0.0, 0.0, 0.0, false, false)
  }

  /** `Timer_Start`: refuses a timer that is already running and leaves it as
      it was; otherwise marks the host side running and touches nothing
      else. */
  function Start(t: Timer): (r: (Timer, Code))
    ensures t.runningHost ==> r == (t, TIMER_IN_USE)
    ensures !t.runningHost ==> r.1 == CL_SUCCESS && r.0.runningHost
    ensures !t.runningHost ==> DevicePart(r.0) == DevicePart(t)
    ensures !t.runningHost ==> HostPart(r.0) == (t.numCallsHost, t.currentHost, t.totalHost, true)
  {
    if t.runningHost then (t, TIMER_IN_USE)
    else (t.(runningHost := true), CL_SUCCESS)
  }

  /** `Timer_Stop`, with `elapsed` the host time measured since Start:
      refuses a timer that is not running; otherwise the last duration becomes
      `elapsed`, the total grows by it, the call count grows by one, the timer
      stops, and the device side is untouched. */
  function Stop(t: Timer, elapsed: real): (r: (Timer, Code))
    ensures !t.runningHost ==> r == (t, TIMER_IN_USE)
    ensures t.runningHost ==> r.1 == CL_SUCCESS && !r.0.runningHost
    ensures t.runningHost ==> r.0.currentHost == elapsed && r.0.totalHost == t.totalHost + elapsed
    ensures t.runningHost ==> r.0.numCallsHost == t.numCallsHost + 1
    ensures t.runningHost ==> DevicePart(r.0) == DevicePart(t)
  {
    if !t.runningHost then (t, TIMER_IN_USE)
    else (t.(currentHost := elapsed, totalHost := t.totalHost + elapsed,
             numCallsHost := t.numCallsHost + 1, runningHost := false), CL_SUCCESS)
  }

  /** `Timer_Reset`: clears exactly the chosen side; an unrecognised side is
      refused with INVALID_ARG_TYPE and nothing changes. */
  function Reset(t: Timer, side: TimeSide): (r: (Timer, Code))
    ensures side == HostTime ==> r.1 == CL_SUCCESS && HostPart(r.0) == HostPart(MakeTimer()) && DevicePart(r.0) == DevicePart(t)
    ensures side == DeviceTime ==> r.1 == CL_SUCCESS && DevicePart(r.0) == DevicePart(MakeTimer()) && HostPart(r.0) == HostPart(t)
    ensures side == Unrecognised ==> r == (t, INVALID_ARG_TYPE)
  {
    match side
    case HostTime => (t.(currentHost := 0.0, runningHost := false, numCallsHost := 0, totalHost := 0.0), CL_SUCCESS)
    case DeviceTime => (t.(currentDevice := 0.0, runningDevice := false, numCallsDevice := 0, totalDevice := 0.0), CL_SUCCESS)
    case Unrecognised => (t, INVALID_ARG_TYPE)
  }

  /** `Timer_Get_Total_Time`: -1.0 for a null timer or an unrecognised side. */
  function GetTotalTime(t: Option<Timer>, side: TimeSide): (r: real)
    ensures t.None? || side == Unrecognised ==> r == -1.0
    ensures t.Some? && side == HostTime ==> r == t.value.totalHost
    ensures t.Some? && side == DeviceTime ==> r == t.value.totalDevice
  {
    if t.None? then -1.0
    else match side
      case HostTime => t.value.totalHost
      case DeviceTime => t.value.totalDevice
      case Unrecognised => -1.0
  }

  /** `Timer_Get_Last_Time`: -1.0 for a null timer or an unrecognised side. */
  function GetLastTime(t: Option<Timer>, side: TimeSide): (r: real)
    ensures t.None? || side == Unrecognised ==> r == -1.0
    ensures t.Some? && side == HostTime ==> r == t.value.currentHost
    ensures t.Some? && side == DeviceTime ==> r == t.value.currentDevice
  {
    if t.None? then -1.0
    else match side
      case HostTime => t.value.currentHost
      case DeviceTime => t.value.currentDevice
      case Unrecognised => -1.0
  }

  /** `Timer_Get_Num_Calls`: ZERO_TIMES (0) for a null timer or an
      unrecognised side. */
  function GetNumCalls(t: Option<Timer>, side: TimeSide): (r: nat)
    ensures t.None? || side == Unrecognised ==> r == 0
    ensures t.Some? && side == HostTime ==> r == t.value.numCallsHost
    ensures t.Some? && side == DeviceTime ==> r == t.value.numCallsDevice
  {
    if t.None? then 0
    else match side
      case HostTime => t.value.numCallsHost
      case DeviceTime => t.value.numCallsDevice
      case Unrecognised => 0
  }

  /** One profiled device run of length `d`: the last device duration becomes
      `d` and the device total grows by it; the device call count grows only
      when `countCall` holds (kernels count their runs, memory transfers do
      not). The host side is untouched. */
  function RecordDeviceRun(t: Timer, d: real, countCall: bool): (r: Timer)
    ensures r.currentDevice == d && r.totalDevice == t.totalDevice + d
    ensures r.numCallsDevice == t.numCallsDevice + (if countCall then 1 else 0)
    ensures r.runningDevice == t.runningDevice
    ensures HostPart(r) == HostPart(t)
  {
    t.(currentDevice := d, totalDevice := t.totalDevice + d,
       numCallsDevice := t.numCallsDevice + (if countCall then 1 else 0))
  }

  /** A Start/Stop pair on an idle timer adds one call and `elapsed` to the
      host total, leaves the timer idle again, and leaves the device side as
      it was; the same pair read through the accessors. */
  lemma StartStopRoundTrip(t: Timer, elapsed: real)
    requires !t.runningHost
    ensures Stop(Start(t).0, elapsed).1 == CL_SUCCESS
    ensures !Stop(Start(t).0, elapsed).0.runningHost
    ensures GetNumCalls(Some(Stop(Start(t).0, elapsed).0), HostTime) == GetNumCalls(Some(t), HostTime) + 1
    ensures GetTotalTime(Some(Stop(Start(t).0, elapsed).0), HostTime) == GetTotalTime(Some(t), HostTime) + elapsed
    ensures GetLastTime(Some(Stop(Start(t).0, elapsed).0), HostTime) == elapsed
    ensures DevicePart(Stop(Start(t).0, elapsed).0) == DevicePart(t)
  {
  }

  /** Starting twice in a row fails the second time and keeps the first
      start; stopping an idle timer fails and changes nothing. */
  lemma NoNestedMeasurements(t: Timer, elapsed: real)
    requires !t.runningHost
    ensures Start(Start(t).0) == (Start(t).0, TIMER_IN_USE)
    ensures Stop(t, elapsed) == (t, TIMER_IN_USE)
  {
  }

  /** Resetting both sides, in either order, gives a fresh timer: Reset
      clears every field Make_Timer sets. */
  lemma ResetBothIsFresh(t: Timer)
    ensures Reset(Reset(t, HostTime).0, DeviceTime).0 == MakeTimer()
    ensures Reset(Reset(t, DeviceTime).0, HostTime).0 == MakeTimer()
  {
  }

  /** After a reset of one side its accessors read zero while the other
      side's accessors read as before. */
  lemma ResetReadsZero(t: Timer, side: TimeSide, other: TimeSide)
    requires side != Unrecognised && other != Unrecognised && other != side
    ensures GetNumCalls(Some(Reset(t, side).0), side) == 0
    ensures GetTotalTime(Some(Reset(t, side).0), side) == 0.0
    ensures GetLastTime(Some(Reset(t, side).0), side) == 0.0
    ensures GetNumCalls(Some(Reset(t, side).0), other) == GetNumCalls(Some(t), other)
    ensures GetTotalTime(Some(Reset(t, side).0), other) == GetTotalTime(Some(t), other)
  {
  }
}
